=== FILE: README.md ===
# Healthcare portal triage core, in Dafny

This project models the logic of a small healthcare portal. Its backend is a set of
Convex queries and mutations written in TypeScript; its front end is React pages.
Patients submit symptom forms. Each form gets a priority score from its severity and
how long it has waited. Caregivers triage the forms, keep appointments and
prescriptions, and exchange messages with patients.

The model covers six backend modules:

- the two priority-score formulas;
- the form tables (`forms` and `patientForms`), with their owner, role and status guards;
- appointments;
- prescriptions and the refill counter;
- messages, read flags and conversation threads;
- the patient-profile upsert.

It also covers the rules the pages apply to what those queries return:

- search and status filters, and the roster comparator;
- priority and severity badge colours;
- the pending and reviewed sorts;
- the upcoming/past split and which sections show;
- appointment time slots and their parser;
- avatar initials and message truncation;
- the send, refill and role-selection handlers.

Modelling choices:

- **The caller** is `Option<User>`. `None` means nobody is signed in; a user is an id and a role.
- **Errors** are `Result` values that carry the exact message the source throws.
- **Tables the mutations write** are classes holding a `map` from id to record. Each method states the whole new map.
- **Queries** are pure functions. A query takes the rows in the order its index returns them, as a `seq`. Its result is stated as an order-preserving subsequence of that input, together with exactly which rows it keeps.
- **The clock** is a parameter, `now`.
- **Square root** is a parameter. It is constrained only to be zero at zero, non-negative and monotone.
- **`localeCompare`** is a lexicographic order on characters.
- **Case mapping** covers ASCII letters only.
- **`Array.prototype.sort`** with a consistent comparator is a stable insertion sort. When the source sorts an array in place, the model sorts a Dafny `array` in place.

Shared modules:

- `common.dfy`: users, roles, `Option` and `Result`, severities.
- `text.dfy`: case mapping, `includes`, `trim`, `split`/`join`, decimal digits, string order.
- `seqs.dfy`: filtering, subsequences, the stable sort, `slice`-based limits.
- `caseload.dfy`: the patient rows the caregiver views show.

## Model

| member | source | states |
|---|---|---|
| Priority.WeightOrdersSeverities | src/convex/forms.ts:9-13 | the weights 1, 2, 3 rank severe above moderate above mild, and distinct severities have distinct weights |
| Priority.WaitBonus | src/convex/forms.ts:15-16 | the wait bonus is at most 5, is non-negative for a non-negative wait, and reaches 5 exactly from 120 hours on |
| Priority.LinearScore | src/convex/forms.ts:8-19 | for a non-negative wait the score lies between 2·weight and 2·weight + 5 |
| Priority.LinearScoreSeverityOrder | src/convex/forms.ts:9-18 | at equal wait a more severe form scores strictly higher |
| Priority.LinearScoreMonotoneInTime | src/convex/forms.ts:15-18 | for a fixed severity the score never falls as time passes |
| Priority.LongWaitOutranksFreshSevere | src/convex/forms.ts:15-18 | a mild form that has waited 120 hours scores 7 and outranks a fresh severe form, which scores 6 |
| Priority.LinearScoreGap | src/convex/forms.ts:18 | at equal wait two scores differ by exactly twice the difference of their weights |
| Priority.Weight | src/convex/forms.ts:9-13 | every severity weighs between 1 and 3 |
| Priority.SqrtScore | src/convex/patientForms.ts:16-30 | a form scored at its own submission instant scores exactly its weight; a later instant scores at least the weight |
| Priority.SqrtScoreAtLeastWeight | src/convex/patientForms.ts:16-30 | with any non-negative monotone square root, the score is at least the severity weight |
| Priority.SqrtScoreSeverityOrder | src/convex/patientForms.ts:16-30 | at equal wait a more severe form scores strictly higher |
| Priority.SqrtScoreMonotoneInTime | src/convex/patientForms.ts:25-30 | for a fixed severity the score never falls as time passes |
| Forms.ApplyFormPatch | src/convex/forms.ts:186-191 | supplied fields overwrite the stored ones; id, owner and submission time are kept; the score is recomputed from the stored submission time only when a severity is supplied, and is otherwise untouched |
| Forms.PatchedSeverityOrder | src/convex/forms.ts:186-189 | two forms submitted together and re-scored by a severity patch are ordered by the new severities |
| Forms.GetFormById | src/convex/forms.ts:135-153 | "Unauthorized" when signed out; "Form not found" for a missing id; a patient reads only their own form; every other role reads any form |
| Forms.GetPatientForms | src/convex/forms.ts:57-71 | patients only; exactly the caller's forms, in index order |
| Forms.GetFormsByPatientId | src/convex/forms.ts:108-132 | caregivers only; exactly that patient's forms, in index order |
| Forms.GetFormsByPriority | src/convex/forms.ts:74-105 | caregivers only; a prefix of the priority index; an absent or zero limit (a truthiness test) returns everything; a positive limit returns min(limit, length) forms; a descending order is kept |
| Forms.Annotate | src/convex/forms.ts:286-305 | each form is paired with whether its patient has any appointment |
| Forms.FormsOf | src/convex/forms.ts:312 | the listing without its flags, position by position |
| Forms.Matching | src/convex/forms.ts:292-312 | the forms that pass the status test, as a subsequence of the priority order that keeps exactly those forms |
| Forms.Unbooked | src/convex/forms.ts:229-256 | the forms of patients without an appointment, as a subsequence of the priority order that keeps exactly those forms |
| Forms.GetFormsByAppointmentStatus | src/convex/forms.ts:261-315 | caregivers only; every flag is correct; the listing is the first min(limit, n) of the matching forms, and every matching form when the limit is absent or zero |
| Forms.GetFormsWithoutAppointments | src/convex/forms.ts:216-258 | caregivers only; the first min(limit, n) of the forms of patients with no appointment, and all of them when the limit is absent or zero |
| Forms.WithoutAppointmentsAgree | src/convex/forms.ts:216-315 | the two "without appointments" queries list the same forms under every limit |
| Forms.AppointmentStatusPartition | src/convex/forms.ts:292-313 | "all" lists every form in order; the "with" and "without" listings together hold every form exactly once |
| Forms.FormStore.constructor | src/convex/forms.ts:22 | the table starts empty |
| Forms.FormStore.CreateForm | src/convex/forms.ts:22-54 | patients only ("Only patients can submit forms"); inserts one new row owned by the caller, scored by the linear formula from its submission time to the scoring instant |
| Forms.FormStore.UpdateForm | src/convex/forms.ts:156-194 | "Unauthorized" / "Form not found" / "Unauthorized" for a non-owner; on success the row becomes ApplyFormPatch of the old row, and nothing else changes |
| Forms.FormStore.DeleteForm | src/convex/forms.ts:197-213 | only the owner or an admin; removes exactly that row; failures change nothing |
| Forms.StoredScoresBounded | src/convex/forms.ts:15-18 | every stored score is at most 2·weight + 5 |
| PatientForms.UpdatedForm | src/convex/patientForms.ts:119-161 | the full `updateForm` outcome: error order, the patient guards, a signed-in non-patient always succeeding on an existing form, supplied fields written, the score kept unless a severity is supplied, then recomputed from the original submission date |
| PatientForms.PatientGuards | src/convex/patientForms.ts:139-143 | a patient gets "Access denied" for a form they do not own, "Cannot edit reviewed forms" for a reviewed one, and "Patients cannot change form status" when a status is supplied |
| PatientForms.PatientEditKeepsStatus | src/convex/patientForms.ts:139-143 | a patient's successful edit was to a pending form and leaves it pending |
| PatientForms.NonPatientsMaySetAnyStatus | src/convex/patientForms.ts:139-157 | a signed-in non-patient may write either status to any existing form, and its score is kept |
| PatientForms.RecomputedScoreAtLeastWeight | src/convex/patientForms.ts:139-152 | for any caller, a successful severity patch re-scores the form to at least the new weight; a signed-in non-patient's patch always succeeds |
| PatientForms.GetFormById | src/convex/patientForms.ts:62-78 | "Not authenticated", "Form not found", and "Access denied" for a patient's foreign form; otherwise the stored form |
| PatientForms.GetPatientForms | src/convex/patientForms.ts:35-59 | a patient gets exactly their own forms; a caregiver gets the whole priority index; any other role gets "Invalid role" |
| PatientForms.GetFormsByStatus | src/convex/patientForms.ts:164-179 | caregivers only ("Access denied" otherwise); exactly the forms with the requested status |
| PatientForms.GetFormsByPatientId | src/convex/patientForms.ts:182-197 | caregivers only; exactly the patient's forms |
| PatientForms.StatusListingsPartition | src/convex/patientForms.ts:164-179 | the pending and reviewed listings together hold every form exactly once |
| PatientForms.PatientFormStore.constructor | src/convex/patientForms.ts:81 | the table starts empty |
| PatientForms.PatientFormStore.CreateForm | src/convex/patientForms.ts:81-116 | patients only; inserts one pending row owned by the caller, scored at its own submission date |
| PatientForms.PatientFormStore.UpdateForm | src/convex/patientForms.ts:119-161 | writes exactly UpdatedForm on success and nothing on failure |
| Appointments.Patched | src/convex/appointments.ts:187-190 | ids and parties are kept; a supplied date, notes or recommendations replace the stored ones and an absent one is kept; an empty patch changes nothing |
| Appointments.GetAppointmentById | src/convex/appointments.ts:138-165 | "Unauthorized" when signed out; null for a missing id; for an existing id the read succeeds exactly unless a patient asks for a foreign appointment or a caregiver for one not assigned to them, and then fails with "Unauthorized"; a success returns the stored row |
| Appointments.NarrowByDates | src/convex/appointments.ts:75-80 | keeps exactly the appointments within the inclusive start and end bounds that are given |
| Appointments.NarrowByTime | src/convex/appointments.ts:82-87 | "upcoming" keeps date > now, "past" keeps date ≤ now, "all" or none keeps everything |
| Appointments.GetCaregiverAppointments | src/convex/appointments.ts:59-102 | caregivers only; exactly the caller's appointments that pass the date and time filters, in index order |
| Appointments.UpcomingPastPartition | src/convex/appointments.ts:83-87 | "all" equals no filter, and the upcoming and past listings split it exactly |
| Appointments.GetPatientAppointments | src/convex/appointments.ts:31-56 | patients only; exactly their own appointments |
| Appointments.GetAppointmentsByPatientId | src/convex/appointments.ts:105-135 | caregivers only; exactly that patient's appointments |
| Appointments.AppointmentStore.constructor | src/convex/appointments.ts:8 | the table starts empty |
| Appointments.AppointmentStore.CreateAppointment | src/convex/appointments.ts:8-28 | caregivers only; inserts one row with the caller as caregiver |
| Appointments.AppointmentStore.UpdateAppointment | src/convex/appointments.ts:168-193 | only the assigned caregiver; the row becomes the patched row; failures change nothing |
| Appointments.AppointmentStore.DeleteAppointment | src/convex/appointments.ts:196-212 | only the assigned caregiver or an admin, anyone else getting "Unauthorized"; removes exactly that row; failures change nothing |
| Prescriptions.Refill | src/convex/prescriptions.ts:205-212 | a count above zero drops by exactly one and stays non-negative; otherwise "No refills remaining" |
| Prescriptions.RefillBudget | src/convex/prescriptions.ts:205-212 | from r refills, n requests grant min(n, r) and leave r − min(n, r); a negative count grants nothing |
| Prescriptions.GetPrescriptionById | src/convex/prescriptions.ts:128-155 | a patient sees only their own prescriptions and a caregiver only those they prescribed |
| Prescriptions.GetPatientPrescriptions | src/convex/prescriptions.ts:33-58 | patients only; exactly their own prescriptions |
| Prescriptions.GetCaregiverPrescriptions | src/convex/prescriptions.ts:61-92 | caregivers only; exactly the caller's prescriptions, narrowed to one patient when one is given |
| Prescriptions.GetPrescriptionsByPatientId | src/convex/prescriptions.ts:95-125 | caregivers only; exactly that patient's prescriptions |
| Prescriptions.PrescriptionStore.constructor | src/convex/prescriptions.ts:8 | the table starts empty |
| Prescriptions.PrescriptionStore.CreatePrescription | src/convex/prescriptions.ts:8-30 | caregivers only; inserts one row prescribed by the caller |
| Prescriptions.PrescriptionStore.UpdateRefills | src/convex/prescriptions.ts:158-183 | only the prescribing caregiver; sets the count and no other field |
| Prescriptions.PrescriptionStore.RequestRefill | src/convex/prescriptions.ts:186-216 | only the owning patient, checked before any write; on success the count drops by one and nothing else changes |
| Messages.MessagingRoles | src/convex/messages.ts:21-27 | a patient may write only to a caregiver and a caregiver only to a patient; other roles are unrestricted |
| Messages.GetMessages | src/convex/messages.ts:40-85 | with a partner, exactly the messages between the two users in either direction; without one, every message involving the caller |
| Messages.ConversationWithinAll | src/convex/messages.ts:50-64 | one conversation is a subsequence of all the caller's messages |
| Messages.UnreadIds | src/convex/messages.ts:94-101 | exactly the unread messages addressed to the caller |
| Messages.GetUnreadCount | src/convex/messages.ts:88-103 | the number of unread messages addressed to the caller; zero means all of them are read |
| Messages.MarkAll | src/convex/messages.ts:119-124 | listed messages get `read = true`; all other rows and keys are unchanged |
| Messages.MarkedRead | src/convex/messages.ts:106-127 | missing ids are skipped; any existing foreign message rejects the whole call; otherwise only the read flags of listed messages change |
| Messages.MarkAsReadIdempotent | src/convex/messages.ts:115-125 | marking the same ids twice gives the same table as once |
| Messages.MarkingUnreadClearsCount | src/convex/messages.ts:88-125 | marking exactly the unread ids succeeds and brings the unread count to zero |
| Messages.UnreadFrom | src/convex/messages.ts:158-168 | exactly the number of unread messages from the partner to the caller; it is above zero exactly when one exists |
| Messages.Conversations | src/convex/messages.ts:136-142 | exactly the messages involving the caller, in index order |
| Messages.FirstMessages | src/convex/messages.ts:143-152 | one entry per distinct partner, each pointing at the first message exchanged with that partner; every message's partner is present; partners are listed in order of first appearance |
| Messages.GetMessageThreads | src/convex/messages.ts:130-179 | sorted newest first; threads sent at the same time keep the order in which their partners first appear; one thread per partner, and every partner has one; each thread holds its partner's first message in index order and its unread count |
| Messages.TiedThreadsKeepFirstAppearance | src/convex/messages.ts:143-177 | the stable sort of threads built in first-appearance order leaves tied threads in that order |
| Messages.MessageStore.constructor | src/convex/messages.ts:8 | the table starts empty |
| Messages.MessageStore.SendMessage | src/convex/messages.ts:8-37 | "Unauthorized", "Recipient not found", "Invalid recipient role" in that order; otherwise inserts one unread message from the caller |
| Messages.MessageStore.MarkAsRead | src/convex/messages.ts:106-127 | writes exactly MarkedRead on success and nothing on failure |
| Patients.PatchProfile | src/convex/patients.ts:60-62 | supplied fields overwrite the stored ones; the score and the caregiver list are kept |
| Patients.NewProfile | src/convex/patients.ts:64-71 | a new profile holds the supplied fields, score 0 and no caregivers |
| Patients.Upserted | src/convex/patients.ts:55-72 | afterwards the caller has a profile: the existing one patched, or a new one; other profiles are unchanged |
| Patients.UpsertIdempotent | src/convex/patients.ts:55-72 | upserting the same fields twice leaves the same profiles as once |
| Patients.GetMyPatientProfile | src/convex/patients.ts:8-31 | signed out throws; a non-patient gets null; a patient gets their profile if one exists |
| Patients.UpsertThenRead | src/convex/patients.ts:8-72 | after an upsert the caller reads back a profile carrying every supplied field |
| Patients.GetPatientByUserId | src/convex/patients.ts:77-101 | null unless the user exists, is a patient and has a profile; otherwise the merged record with the user's id |
| Patients.PatientStore.constructor | src/convex/patients.ts:34 | the table starts empty |
| Patients.PatientStore.UpdateMyPatientProfile | src/convex/patients.ts:34-74 | patients only; the table becomes exactly the upsert |
| Text.Trim | src/app/protected/messages/page.tsx:60 | the trimmed text neither starts nor ends with whitespace, and is the slice left after removing the leading and the trailing whitespace |
| Text.TrimUnique | src/app/protected/messages/page.tsx:60 | any slice with only whitespace around it that neither starts nor ends with whitespace is the trimmed text |
| Text.TrimIsSlice | src/app/protected/messages/page.tsx:66 | the trimmed text is the slice of the input after its leading whitespace |
| Text.TrimBlank | src/app/protected/messages/page.tsx:60 | trimming leaves nothing exactly when every character is whitespace |
| Search.MatchesSearch | src/app/protected/page.tsx:128-136 | an empty query matches; a non-empty match needs a present name or e-mail at least as long as the query |
| Search.SearchPatients | src/app/protected/page.tsx:128-136 | an empty query keeps everyone in order; otherwise exactly the patients whose name or e-mail contains the query, ignoring ASCII case |
| Search.MissingFieldsNeverMatch | src/app/protected/page.tsx:131-135 | with a non-empty query a missing name or e-mail never matches |
| Search.QueryCaseIgnored | src/app/protected/prescriptions/page.tsx:303-311 | typing the query in upper or lower case finds the same patients |
| Search.VerbatimMatchFound | src/app/protected/patients/page.tsx:98-104 | a name or e-mail containing the query verbatim is always found |
| Caseload.NameKey | src/app/protected/patients/page.tsx:121 | a missing name sorts as "" |
| Roster.FilterRoster | src/app/protected/patients/page.tsx:97-111 | an order-preserving selection of exactly the patients that match the search and the "withForms" option |
| Roster.UnfilteredRosterKeepsAll | src/app/protected/patients/page.tsx:97-111 | no query and no "withForms" option shows everyone in fetched order |
| Roster.WithFormsKeepsFormHolders | src/app/protected/patients/page.tsx:106-108 | "withForms" keeps exactly the searched patients with a latest form |
| Roster.RosterBefore | src/app/protected/patients/page.tsx:113-122 | a patient with a latest form comes first; two with forms compare by descending score; two without compare by name |
| Roster.RosterOrderIsTotalPreorder | src/app/protected/patients/page.tsx:113-122 | the comparator is total and transitive |
| Roster.SortRoster | src/app/protected/patients/page.tsx:113-122 | the array ends holding the stable sort of what it held: sorted by the comparator, a permutation, ties in their old order |
| Roster.SortedPatients | src/app/protected/patients/page.tsx:97-122 | the roster shown is the stable sort of the filtered patients: sorted, a permutation, ties in fetched order |
| Seqs.SortByRanked | src/app/protected/patients/page.tsx:113-122 | stability pairwise: for an input listed by increasing rank, tied elements come out by increasing rank |
| Seqs.SortByStable | src/app/protected/patients/page.tsx:113-122 | the sort is stable: elements the comparator ties with one another keep their original relative order |
| Seqs.FilterCountsPositions | src/convex/messages.ts:158-168 | a filter keeps as many elements as there are positions satisfying the test |
| Roster.RosterOrder | src/app/protected/patients/page.tsx:114-121 | in a sorted roster, form holders come first with non-increasing scores, then the others by name |
| Badges.PriorityColor | src/components/caregiver/PatientList.tsx:32-40 | red exactly from 4, yellow exactly on [2.5, 4), green exactly below 2.5 |
| Badges.PriorityColorMonotone | src/app/protected/caregiver/forms/page.tsx:35-43 | a higher score never gets a calmer colour |
| Badges.SeverityColor | src/components/caregiver/PatientList.tsx:18-29 | mild green, moderate yellow, severe red, anything else gray, and gray only then |
| Badges.SeverityColorsRank | src/app/protected/caregiver/forms/page.tsx:21-32 | the three severity colours rank like the severities |
| PatientList.FilterByStatus | src/components/caregiver/PatientList.tsx:64-70 | "all" and unknown values keep everyone; "pending"/"reviewed" keep exactly that latest status; "noforms" keeps exactly the form-less; order is kept |
| PatientList.StatusViewsPartition | src/components/caregiver/PatientList.tsx:66-68 | when every status is pending or reviewed, the three views hold every patient exactly once |
| FormsReview.ReviewOrdersAreTotalPreorders | src/app/protected/caregiver/forms/page.tsx:145-146 | both comparators are total and transitive |
| FormsReview.SortPending | src/app/protected/caregiver/forms/page.tsx:145-146 | the stable sort by descending priority: sorted, a permutation, equal scores in their old order |
| FormsReview.SortReviewed | src/app/protected/caregiver/forms/page.tsx:179-180 | the stable sort by descending submission date: sorted, a permutation, equal dates in their old order |
| FormsReview.PendingTab | src/app/protected/caregiver/forms/page.tsx:61-67 | the pending tab is the stable sort of the pending query: non-increasing scores, equal scores in fetched order |
| FormsReview.ReviewedTab | src/app/protected/caregiver/forms/page.tsx:179-180 | the reviewed tab is the stable sort of the reviewed query: newest submission first, equal dates in fetched order |
| FormsReview.CardBadges | src/app/protected/caregiver/forms/page.tsx:220-224 | a card shows the priority colour of its score and never a gray severity |
| Dashboard.Wrapped | src/app/protected/page.tsx:189 | every entry wrapped as present, position by position |
| Dashboard.RemoveNulls | src/app/protected/page.tsx:189 | exactly the present entries remain |
| Dashboard.RemoveNullsKeepsOrder | src/app/protected/page.tsx:189 | the remaining entries keep their order |
| Dashboard.DisplayName | src/app/protected/page.tsx:201 | form name, else patient name, else "Anonymous Patient"; never empty |
| Dashboard.AvatarLetter | src/app/protected/page.tsx:197 | one character with no lower-case letter |
| Dashboard.AvatarMatchesName | src/app/protected/page.tsx:197-201 | the avatar is the upper-cased first letter of the name shown, or "P" for an anonymous patient |
| Dashboard.SeverityBadge | src/app/protected/page.tsx:114-125 | the three severities get fixed labels; any other value is shown verbatim |
| Dashboard.SeverityBadgeKeepsValue | src/app/protected/page.tsx:114-125 | the badge reads as the stored severity up to case |
| PrescriptionsPage.RefillOfferedIffAccepted | src/app/protected/prescriptions/page.tsx:242 | the refill button shows exactly when the backend would grant the refill |
| PrescriptionsPage.RefillBadge | src/app/protected/prescriptions/page.tsx:179-187 | "N remaining" above zero, "No refills" otherwise |
| PrescriptionsPage.RefillBadgeShowsCount | src/app/protected/prescriptions/page.tsx:179-187 | the number in the badge reads back as the count |
| PrescriptionsPage.FindPatient | src/app/protected/prescriptions/page.tsx:382-384 | the first loaded patient with that id, or none when there is none |
| PrescriptionsPage.CardTitle | src/app/protected/prescriptions/page.tsx:382-384 | a prompt when nothing is selected; otherwise the found patient's name, and "Patient" when no patient has the id or the found one has a missing or empty name |
| PrescriptionsPage.RefillDialog.constructor | src/app/protected/prescriptions/page.tsx:50-51 | no prescription selected and not refilling |
| PrescriptionsPage.RefillDialog.Open | src/app/protected/prescriptions/page.tsx:252 | selects the prescription |
| PrescriptionsPage.RefillDialog.HandleRequestRefill | src/app/protected/prescriptions/page.tsx:88-102 | nothing happens without a selection; the selection is cleared only after a granted refill, which drops the count by one; the busy flag ends false |
| AppointmentsPage.UpcomingOf | src/app/protected/appointments/page.tsx:72 | exactly the appointments after now, in order |
| AppointmentsPage.PastOf | src/app/protected/appointments/page.tsx:73 | exactly the appointments at or before now, in order |
| AppointmentsPage.SplitAtNow | src/app/protected/appointments/page.tsx:72-73 | the two lists split the appointments exactly and share none |
| AppointmentsPage.PageView | src/app/protected/appointments/page.tsx:102-274 | which of the "no appointments" card, the two sections and the two empty cards show, for each filter |
| AppointmentsPage.AllTabShowsEverything | src/app/protected/appointments/page.tsx:118-188 | under "all" every appointment appears in a shown section and no empty card shows |
| AppointmentsPage.SingleTabShowsOneThing | src/app/protected/appointments/page.tsx:258-274 | under "upcoming" or "past" exactly one of its section and its empty card shows, and nothing of the other |
| TimeSlots.Hour12 | src/app/protected/appointments/new/page.tsx:62 | the 12-hour label is between 1 and 12 |
| TimeSlots.SlotAt | src/app/protected/appointments/new/page.tsx:62-67 | the value is the hour and the minute text around one colon; the label is the 12-hour time and the period around one space |
| TimeSlots.GenerateTimeSlots | src/app/protected/appointments/new/page.tsx:57-70 | 18 slots, the k-th at 9:00 plus 30·k minutes |
| TimeSlots.SlotValueRoundTrip | src/app/protected/appointments/new/page.tsx:119 | splitting a slot value on ':' and reading the numbers gives back its hour and minute |
| TimeSlots.ParseTime | src/app/protected/appointments/new/page.tsx:119 | a value without a colon gives its number and a missing minute; a minute is read only when a colon is present |
| TimeSlots.ParseTimeReadsBothSides | src/app/protected/appointments/new/page.tsx:119 | a value with one colon gives the numbers on either side of it |
| TimeSlots.SlotTimes | src/app/protected/appointments/new/page.tsx:60-69 | slot k parses to 9:00 plus 30·k minutes, so the slots increase in steps of 30 minutes |
| TimeSlots.SlotValuesDistinct | src/app/protected/appointments/new/page.tsx:64-66 | no two slots share a value |
| TimeSlots.DefaultTimeIsFirstSlot | src/app/protected/appointments/new/page.tsx:92 | the default "9:00" is the first slot's value |
| TimeSlots.LabelNamesHour | src/app/protected/appointments/new/page.tsx:62-63 | the 12-hour label and period name the hour exactly; "AM" exactly before noon |
| Initials.FirstLettersAreWordStarts | src/app/protected/messages/page.tsx:98-105 | the first letters of the space-separated parts are exactly the characters that begin words |
| Initials.GetInitials | src/app/protected/messages/page.tsx:98-105 | at most two characters, no lower-case letter: the first two word starts, upper-cased |
| Initials.TwoWordInitials | src/components/protected/MessageThreadList.tsx:35-42 | two words give their two upper-cased first letters |
| Initials.DoubledSpaceIgnored | src/components/protected/Header.tsx:37-42 | a doubled space yields the same word starts as a single one |
| Initials.RepeatedSpaceIgnored | src/components/protected/Header.tsx:37-42 | two spaces between words give the same initials as one |
| Initials.ThirdWordIgnored | src/components/protected/Header.tsx:37-42 | a third word does not change the initials |
| Initials.SpacesHaveNoInitials | src/components/protected/Header.tsx:37-42 | a string of spaces has no word starts |
| Initials.HeaderInitials | src/components/protected/Header.tsx:35-43 | "U" for a missing or empty name, otherwise the initials |
| Initials.BlankNameShowsNoInitials | src/components/protected/Header.tsx:36 | a name made only of spaces passes the guard and shows no initials at all |
| Initials.HeaderName | src/components/protected/Header.tsx:89 | the name when it is present and non-empty, otherwise "User"; never empty |
| Initials.HeaderEmail | src/components/protected/Header.tsx:91 | the e-mail, or "" when it is missing |
| ThreadList.TruncateMessage | src/components/protected/MessageThreadList.tsx:45-48 | short text unchanged; longer text cut to `maxLength` characters plus "..." |
| ThreadList.TruncationKeepsPrefix | src/components/protected/MessageThreadList.tsx:45-48 | the result starts with the kept prefix, is at most `maxLength` + 3 long, and ends in "..." whenever it differs |
| ThreadList.Preview | src/components/protected/MessageThreadList.tsx:110 | the preview uses the default length of 60: short content is shown whole, and no preview exceeds 63 characters |
| ThreadList.BadgeMeansUnreadMessage | src/components/protected/MessageThreadList.tsx:113 | the badge shows exactly when the partner has an unread message to the caller |
| MessagesPage.UnreadMessageIds | src/app/protected/messages/page.tsx:79-81 | exactly the ids of loaded messages addressed to the caller and unread |
| MessagesPage.PageMarkingSucceeds | src/app/protected/messages/page.tsx:83-85 | the page's mark-as-read call is accepted and marks every listed unread message |
| MessagesPage.MarkReadCall | src/app/protected/messages/page.tsx:77-85 | the effect calls `markAsRead` exactly when a conversation is loaded, a partner is selected and some loaded message is unread for the caller, and sends exactly their ids |
| MessagesPage.LoadedConversationGetsRead | src/app/protected/messages/page.tsx:77-85 | for a loaded conversation the call, when made, is accepted and leaves every message to the caller read; when none is made, they were all read already |
| MessagesPage.Composer.constructor | src/app/protected/messages/page.tsx:31-33 | no partner selected, empty draft, not sending |
| MessagesPage.Composer.HandleSendMessage | src/app/protected/messages/page.tsx:57-74 | nothing is sent without a partner or with a blank draft; the trimmed draft is sent; the draft clears only after a successful send |
| SetRole.RoleOf | src/components/protected/SetRoleForm.tsx:36-41 | only the patient and caregiver roles can be chosen |
| SetRole.OnSubmit | src/components/protected/SetRoleForm.tsx:65-93 | a caregiver without a specialty of at least 2 characters after trimming gets the error; otherwise the role is sent, with no specialty for a patient and the given one for a caregiver |
| SetRole.SubmittedRolesAreValid | src/components/protected/SetRoleForm.tsx:67-81 | a patient is always sent; a caregiver is sent only with a valid specialty |
| SetRole.SpecialtySentUntrimmed | src/components/protected/SetRoleForm.tsx:67-81 | any leading whitespace in front of a valid specialty still passes the check and is sent as typed |
| SetRole.TrimIgnoresLeadingWhitespace | src/components/protected/SetRoleForm.tsx:67 | leading whitespace does not change the trimmed text the length check reads |

## Left out

- Storage is in memory. Each table is a map and each index is a `seq` the caller supplies. The order an index returns, `unique`, and joining user documents onto results (`Promise.all` fan-out) are not modelled.
- The related user documents that queries attach are not modelled: `getMessages` and `getAppointmentById` return a `from`/`to`, `patient` and `caregiver` user.
- Transactions are taken as atomic. A mutation that throws part-way, such as `markAsRead`, writes nothing.
- The clock is a parameter. Where one handler reads `Date.now()` twice, the model takes one instant. This applies to the two filters on the appointments page and to `patientForms.createForm`.
- `Forms.FormStore.CreateForm` takes the stored submission time and the scoring instant as separate parameters. The source reads `Date.now()` once for `submittedAt` and again inside `calculatePriorityScore`.
- Floating point is not modelled. Scores are exact reals. The square root in `calculatePriorityScore` of `patientForms.ts` is a parameter constrained only to be zero at zero, non-negative and monotone on non-negative inputs.
- `PatientForms.UpdatedForm`: a negative wait gives `Math.sqrt` a NaN in the source; the model has no NaN.
- `Number()` is modelled for digit strings only (`Text.ToNumber`): the empty string is 0, and whitespace, signs, decimals, exponents and hexadecimal all give NaN. Only slot values and the default "9:00" reach the parse in src/app/protected/appointments/new/page.tsx:119, so the page's behaviour is unaffected.
- `localeCompare` is modelled as lexicographic order on characters. `toLowerCase`/`toUpperCase` map ASCII letters only, and `trim` removes ASCII whitespace only.
- `Forms.GetFormsByPriority`: the limit is an integer. The source accepts any number (src/convex/forms.ts:76) and `slice` truncates a fractional end, so fractional limits are not modelled.
- `Forms.GetFormsWithoutAppointments`: the limit is an integer. The source accepts any number (src/convex/forms.ts:218) and `slice` truncates a fractional end, so fractional limits are not modelled.
- `Forms.GetFormsByAppointmentStatus`: the limit is an integer. The source accepts any number (src/convex/forms.ts:268) and `slice` truncates a fractional end, so fractional limits are not modelled.
- `Prescriptions.Refill`: the count is an integer. The source stores a JavaScript number, so fractional counts are not modelled.
- `patientForms.updateForm` spreads its whole argument object into the patch, so the stored document also receives a `formId` field. The model writes only the form's own fields.
- The `patientForms` table is not declared in `src/convex/schema.ts`; the model gives it the fields the code reads and writes.
- `updateForm` lets any signed-in non-patient write either status, so a reviewed form can be set back to pending (src/convex/patientForms.ts:139-157); `PatientForms.NonPatientsMaySetAnyStatus` states it.
- The `users.setUserRole` mutation that the role form calls is not part of this model. The form's submitting flag, toast and redirect are not modelled either; `SetRole.OnSubmit` returns the payload it would send.
- The queries that fetch the patient rows are not part of this model. `caregivers.getPatients` feeds the patient list (src/components/caregiver/PatientList.tsx:58), and `users.getAllPatients` feeds the roster (src/app/protected/patients/page.tsx:55), the dashboard (src/app/protected/page.tsx:89-92) and the prescriptions page (src/app/protected/prescriptions/page.tsx:65-68). Their rows are inputs: `Caseload.PatientRow` and `PrescriptionsPage.PatientEntry`.
- `PrescriptionsPage.RefillDialog.HandleRequestRefill` and `MessagesPage.Composer.HandleSendMessage` run their awaited mutation as one step. They also leave out the toast messages and the busy flag's intermediate `true`.
- Rendering, routing and date formatting are not modelled. This includes `toLocaleDateString`, `formatRelative` and `formatDistanceToNow`.
- Authentication is not modelled. The caller is an input.

=== FILE: appointments.dfy ===
/**
 * src/convex/appointments.ts: the appointments table, its access rules and
 * the caregiver's filtered listing.
 */
module Appointments {
  import opened Common
  import opened Seqs

  type AppointmentId = nat

  datatype Appointment = Appointment(
    id: AppointmentId,
    patientId: UserId,
    caregiverId: UserId,
    date: int,
    notes: Option<string>,
    recommendations: Option<string>)

  /** The optional fields of `updateAppointment`; `None` means not supplied. */
  datatype AppointmentPatch = AppointmentPatch(
    date: Option<int>,
    notes: Option<string>,
    recommendations: Option<string>)

  /** The `status` argument of `getCaregiverAppointments`. */
  datatype TimeFilter = Upcoming | Past | AllTimes

  /** The patch overwrites exactly the supplied fields; the parties never change. */
  function Patched(a: Appointment, patch: AppointmentPatch): (r: Appointment)
    ensures r.id == a.id && r.patientId == a.patientId && r.caregiverId == a.caregiverId
    ensures patch == AppointmentPatch(None, None, None) ==> r == a
    ensures patch.date.Some? ==> r.date == patch.date.value
    ensures patch.date.None? ==> r.date == a.date
    ensures patch.notes.Some? ==> r.notes == patch.notes
    ensures patch.notes.None? ==> r.notes == a.notes
    ensures patch.recommendations.Some? ==> r.recommendations == patch.recommendations
    ensures patch.recommendations.None? ==> r.recommendations == a.recommendations
  {
    a.(date := patch.date.GetOr(a.date),
       notes := if patch.notes.Some? then patch.notes else a.notes,
       recommendations := if patch.recommendations.Some? then patch.recommendations else a.recommendations)
  }

  /** Who may read an appointment: its patient, its caregiver, or anyone of another role. */
  predicate MayView(user: User, a: Appointment)
  {
    !(user.role == Patient && a.patientId != user.id) && !(user.role == Caregiver && a.caregiverId != user.id)
  }

  /** `getAppointmentById`: a missing id gives null rather than an error. */
  function GetAppointmentById(caller: Option<User>, table: map<AppointmentId, Appointment>, id: AppointmentId)
    : (r: Result<Option<Appointment>>)
    ensures caller.None? ==> r == Err("Unauthorized")
    ensures caller.Some? && id !in table ==> r == Ok(None)
    ensures r.Ok? && r.value.Some? ==> id in table && r.value.value == table[id]
    ensures caller.Some? && caller.value.role == Admin && id in table ==> r == Ok(Some(table[id]))
    ensures r.Ok? && r.value.Some? && caller.value.role == Patient ==> r.value.value.patientId == caller.value.id
    ensures r.Ok? && r.value.Some? && caller.value.role == Caregiver ==> r.value.value.caregiverId == caller.value.id
    ensures caller.Some? && id in table && table[id].patientId == caller.value.id && caller.value.role == Patient
            ==> r == Ok(Some(table[id]))
    ensures caller.Some? && id in table && table[id].caregiverId == caller.value.id && caller.value.role == Caregiver
            ==> r == Ok(Some(table[id]))
    ensures caller.Some? && id in table ==>
              (r.Ok? <==> !(caller.value.role == Patient && table[id].patientId != caller.value.id)
                          && !(caller.value.role == Caregiver && table[id].caregiverId != caller.value.id))
    ensures caller.Some? && id in table && r.Ok? ==> r.value == Some(table[id])
    ensures r.Err? && caller.Some? && id in table ==> r.message == "Unauthorized"
  {
    if caller.None? then Err("Unauthorized")
    else if id !in table then Ok(None)
    else if !MayView(caller.value, table[id]) then Err("Unauthorized")
    else Ok(Some(table[id]))
  }

  /** The inclusive date bounds of `getCaregiverAppointments`; a bound that is not given does not apply. */
  predicate InDateRange(a: Appointment, startDate: Option<int>, endDate: Option<int>)
  {
    (Given(startDate) ==> startDate.value <= a.date) && (Given(endDate) ==> a.date <= endDate.value)
  }

  /** The time filter: upcoming is strictly after `now`, past is at or before it, anything else keeps all. */
  predicate InTimeFilter(a: Appointment, status: Option<TimeFilter>, now: int)
  {
    (status == Some(Upcoming) ==> a.date > now) && (status == Some(Past) ==> a.date <= now)
  }

  /** The date-bound filters, applied one after the other as the query builds them. */
  function NarrowByDates(s: seq<Appointment>, startDate: Option<int>, endDate: Option<int>): (r: seq<Appointment>)
    ensures IsSubsequence(r, s)
    ensures forall a :: a in r <==> a in s && InDateRange(a, startDate, endDate)
  {
    var afterStart := if Given(startDate) then Filter(s, (a: Appointment) => a.date >= startDate.value) else s;
    var inRange := if Given(endDate) then Filter(afterStart, (a: Appointment) => a.date <= endDate.value) else afterStart;
    SubsequenceReflexive(s);
    SubsequenceReflexive(afterStart);
    SubsequenceTransitive(inRange, afterStart, s);
    inRange
  }

  /** The time filter against `now`. */
  function NarrowByTime(s: seq<Appointment>, status: Option<TimeFilter>, now: int): (r: seq<Appointment>)
    ensures IsSubsequence(r, s)
    ensures forall a :: a in r <==> a in s && InTimeFilter(a, status, now)
  {
    SubsequenceReflexive(s);
    if status == Some(Upcoming) then Filter(s, (a: Appointment) => a.date > now)
    else if status == Some(Past) then Filter(s, (a: Appointment) => a.date <= now)
    else s
  }

  /**
   * `getCaregiverAppointments`: the caller's appointments (from `scan`, the
   * appointments in the order the query returns them), narrowed by the
   * date bounds that are given and by the time filter. The result keeps the
   * query order and holds exactly the appointments that pass every filter.
   */
  function GetCaregiverAppointments(caller: Option<User>, scan: seq<Appointment>,
                                    startDate: Option<int>, endDate: Option<int>,
                                    status: Option<TimeFilter>, now: int)
    : (r: Result<seq<Appointment>>)
    ensures r.Err? <==> !IsCaregiver(caller)
    ensures r.Err? ==> r.message == "Unauthorized"
    ensures r.Ok? ==> IsSubsequence(r.value, scan)
    ensures r.Ok? ==> forall a :: a in r.value <==>
                        a in scan && a.caregiverId == caller.value.id
                        && InDateRange(a, startDate, endDate) && InTimeFilter(a, status, now)
  {
    if !IsCaregiver(caller) then Err("Unauthorized")
    else
      var mine := Filter(scan, (a: Appointment) => a.caregiverId == caller.value.id);
      var dated := NarrowByDates(mine, startDate, endDate);
      var result := NarrowByTime(dated, status, now);
      SubsequenceTransitive(dated, mine, scan);
      SubsequenceTransitive(result, dated, scan);
      Ok(result)
  }

  /**
   * For one `now`, the upcoming and the past listings split the unfiltered
   * listing: every appointment is in exactly one of them.
   */
  lemma UpcomingPastPartition(caller: Option<User>, scan: seq<Appointment>,
                              startDate: Option<int>, endDate: Option<int>, now: int)
    requires IsCaregiver(caller)
    ensures var all := GetCaregiverAppointments(caller, scan, startDate, endDate, None, now).value;
            && GetCaregiverAppointments(caller, scan, startDate, endDate, Some(AllTimes), now).value == all
            && multiset(GetCaregiverAppointments(caller, scan, startDate, endDate, Some(Upcoming), now).value)
               + multiset(GetCaregiverAppointments(caller, scan, startDate, endDate, Some(Past), now).value)
               == multiset(all)
  {
    var mine := Filter(scan, (a: Appointment) => a.caregiverId == caller.value.id);
    var dated := NarrowByDates(mine, startDate, endDate);
    FilterComplement(dated, (a: Appointment) => a.date > now, (a: Appointment) => a.date <= now);
  }

  /** `getPatientAppointments`: patients only; their own appointments. */
  function GetPatientAppointments(caller: Option<User>, scan: seq<Appointment>): (r: Result<seq<Appointment>>)
    ensures r.Err? <==> !IsPatient(caller)
    ensures r.Err? ==> r.message == "Unauthorized"
    ensures r.Ok? ==> IsSubsequence(r.value, scan)
                      && forall a :: a in r.value <==> a in scan && a.patientId == caller.value.id
  {
    if !IsPatient(caller) then Err("Unauthorized")
    else Ok(Filter(scan, (a: Appointment) => a.patientId == caller.value.id))
  }

  /** `getAppointmentsByPatientId`: caregivers only; every appointment of the patient, whoever the caregiver. */
  function GetAppointmentsByPatientId(caller: Option<User>, scan: seq<Appointment>, patientId: UserId)
    : (r: Result<seq<Appointment>>)
    ensures r.Err? <==> !IsCaregiver(caller)
    ensures r.Err? ==> r.message == "Unauthorized"
    ensures r.Ok? ==> IsSubsequence(r.value, scan)
                      && forall a :: a in r.value <==> a in scan && a.patientId == patientId
  {
    if !IsCaregiver(caller) then Err("Unauthorized")
    else Ok(Filter(scan, (a: Appointment) => a.patientId == patientId))
  }

  class AppointmentStore {
    var appointments: map<AppointmentId, Appointment>
    var nextId: AppointmentId

    /** Every row is stored under its own id, and ids are never reused. */
    ghost predicate Valid()
      reads this
    {
      forall id :: id in appointments ==> appointments[id].id == id && id < nextId
    }

    constructor ()
      ensures Valid() && appointments == map[]
    {
      appointments := map[];
      nextId := 0;
    }

    /** `createAppointment`: caregivers only; the caller becomes the appointment's caregiver. */
    method CreateAppointment(caller: Option<User>, patientId: UserId, date: int, notes: Option<string>)
      returns (r: Result<AppointmentId>)
      requires Valid()
      modifies this
      ensures Valid()
      ensures r.Ok? <==> IsCaregiver(caller)
      ensures r.Err? ==> r.message == "Only caregivers can create appointments" && appointments == old(appointments)
      ensures r.Ok? ==> r.value !in old(appointments)
                        && appointments == old(appointments)[r.value := Appointment(r.value, patientId, caller.value.id, date, notes, None)]
    {
      if !IsCaregiver(caller) {
        return Err("Only caregivers can create appointments");
      }
      var id := nextId;
      appointments := appointments[id := Appointment(id, patientId, caller.value.id, date, notes, None)];
      nextId := nextId + 1;
      r := Ok(id);
    }

    /** `updateAppointment`: only the assigned caregiver may change an appointment. */
    method UpdateAppointment(caller: Option<User>, id: AppointmentId, patch: AppointmentPatch)
      returns (r: Result<Appointment>)
      requires Valid()
      modifies this
      ensures Valid() && nextId == old(nextId)
      ensures caller.None? ==> r == Err("Unauthorized")
      ensures caller.Some? && id !in old(appointments) ==> r == Err("Appointment not found")
      ensures r.Ok? <==> caller.Some? && id in old(appointments) && old(appointments)[id].caregiverId == caller.value.id
      ensures r.Err? && caller.Some? && id in old(appointments) ==> r.message == "Unauthorized"
      ensures r.Ok? ==> r.value == Patched(old(appointments)[id], patch)
                        && appointments == old(appointments)[id := r.value]
      ensures r.Err? ==> appointments == old(appointments)
    {
      if caller.None? {
        return Err("Unauthorized");
      }
      if id !in appointments {
        return Err("Appointment not found");
      }
      var a := appointments[id];
      if a.caregiverId != caller.value.id {
        return Err("Unauthorized");
      }
      var updated := Patched(a, patch);
      appointments := appointments[id := updated];
      r := Ok(updated);
    }

    /** `deleteAppointment`: the assigned caregiver or an admin may cancel. */
    method DeleteAppointment(caller: Option<User>, id: AppointmentId) returns (r: Result<()>)
      requires Valid()
      modifies this
      ensures Valid() && nextId == old(nextId)
      ensures caller.None? ==> r == Err("Unauthorized")
      ensures caller.Some? && id !in old(appointments) ==> r == Err("Appointment not found")
      ensures r.Ok? <==> caller.Some? && id in old(appointments)
                         && (old(appointments)[id].caregiverId == caller.value.id || caller.value.role == Admin)
      ensures r.Err? && caller.Some? && id in old(appointments) ==> r.message == "Unauthorized"
      ensures r.Ok? ==> appointments == old(appointments) - {id}
      ensures r.Err? ==> appointments == old(appointments)
    {
      if caller.None? {
        return Err("Unauthorized");
      }
      if id !in appointments {
        return Err("Appointment not found");
      }
      if appointments[id].caregiverId != caller.value.id && caller.value.role != Admin {
        return Err("Unauthorized");
      }
      appointments := appointments - {id};
      r := Ok(());
    }
  }
}

=== FILE: appointments_page.dfy ===
/**
 * src/app/protected/appointments/page.tsx: the appointments list of a patient
 * or a caregiver, split at the current time into upcoming and past
 * appointments, with a tab that picks which sections appear.
 */
module AppointmentsPage {
  import opened Common
  import opened Seqs
  import opened Appointments

  /** `appointments.filter(app => app.date > Date.now())`. */
  function UpcomingOf(apps: seq<Appointment>, now: int): (r: seq<Appointment>)
    ensures IsSubsequence(r, apps)
    ensures forall a :: a in r <==> a in apps && a.date > now
  {
    Filter(apps, (a: Appointment) => a.date > now)
  }

  /** `appointments.filter(app => app.date <= Date.now())`. */
  function PastOf(apps: seq<Appointment>, now: int): (r: seq<Appointment>)
    ensures IsSubsequence(r, apps)
    ensures forall a :: a in r <==> a in apps && a.date <= now
  {
    Filter(apps, (a: Appointment) => a.date <= now)
  }

  /** At one instant the two lists split the appointments: none is lost, none is listed twice. */
  lemma SplitAtNow(apps: seq<Appointment>, now: int)
    ensures multiset(UpcomingOf(apps, now)) + multiset(PastOf(apps, now)) == multiset(apps)
    ensures forall a :: !(a in UpcomingOf(apps, now) && a in PastOf(apps, now))
  {
    FilterComplement(apps, (a: Appointment) => a.date > now, (a: Appointment) => a.date <= now);
  }

  /** Which cards the page renders. */
  datatype View = View(
    noAppointmentsCard: bool,
    upcomingSection: bool,
    pastSection: bool,
    noUpcomingCard: bool,
    noPastCard: bool)

  /**
   * The rendering conditions: with no appointments only the "No appointments"
   * card; otherwise a section for each list the tab admits that is not empty,
   * and an empty-state card when the chosen tab's list is empty.
   */
  function PageView(apps: seq<Appointment>, tab: TimeFilter, now: int): (r: View)
    ensures r.noAppointmentsCard <==> apps == []
    ensures r.upcomingSection <==> apps != [] && tab != Past && UpcomingOf(apps, now) != []
    ensures r.pastSection <==> apps != [] && tab != Upcoming && PastOf(apps, now) != []
    ensures r.noUpcomingCard <==> apps != [] && tab == Upcoming && UpcomingOf(apps, now) == []
    ensures r.noPastCard <==> apps != [] && tab == Past && PastOf(apps, now) == []
  {
    var upcoming := UpcomingOf(apps, now);
    var past := PastOf(apps, now);
    if apps == [] then View(true, false, false, false, false)
    else View(false,
              (tab == AllTimes || tab == Upcoming) && |upcoming| > 0,
              (tab == AllTimes || tab == Past) && |past| > 0,
              tab == Upcoming && |upcoming| == 0,
              tab == Past && |past| == 0)
  }

  /**
   * Under the "all" tab every appointment is shown in a section and no
   * empty-state card appears.
   */
  lemma {:induction false} AllTabShowsEverything(apps: seq<Appointment>, now: int)
    ensures var v := PageView(apps, AllTimes, now);
            && !v.noUpcomingCard && !v.noPastCard
            && forall a :: a in apps ==> (v.upcomingSection && a in UpcomingOf(apps, now))
                                         || (v.pastSection && a in PastOf(apps, now))
  {
  }

  /**
   * Under the "upcoming" or "past" tab the other list never shows, and the
   * chosen one shows either as a section or as its empty-state card, never both.
   */
  lemma SingleTabShowsOneThing(apps: seq<Appointment>, tab: TimeFilter, now: int)
    requires apps != [] && tab != AllTimes
    ensures var v := PageView(apps, tab, now);
            && (tab == Upcoming ==> !v.pastSection && !v.noPastCard && (v.upcomingSection != v.noUpcomingCard))
            && (tab == Past ==> !v.upcomingSection && !v.noUpcomingCard && (v.pastSection != v.noPastCard))
  {
  }
}

=== FILE: badges.dfy ===
/**
 * The badge colours that src/components/caregiver/PatientList.tsx and
 * src/app/protected/caregiver/forms/page.tsx both define, with the same class
 * strings and thresholds: one colour per severity and three priority bands.
 */
module Badges {

  const RedBadge := "bg-red-100 text-red-800 dark:bg-red-900 dark:text-red-300"
  const YellowBadge := "bg-yellow-100 text-yellow-800 dark:bg-yellow-900 dark:text-yellow-300"
  const GreenBadge := "bg-green-100 text-green-800 dark:bg-green-900 dark:text-green-300"
  const GrayBadge := "bg-gray-100 text-gray-800 dark:bg-gray-800 dark:text-gray-300"

  /** How urgent a badge colour reads: red 2, yellow 1, anything else 0. */
  function Urgency(badge: string): nat
  {
    if badge == RedBadge then 2 else if badge == YellowBadge then 1 else 0
  }

  /** `getPriorityColor`: red from 4 up, yellow from 2.5 up, green below. */
  function PriorityColor(score: real): (r: string)
    ensures r == RedBadge || r == YellowBadge || r == GreenBadge
    ensures r == RedBadge <==> score >= 4.0
    ensures r == YellowBadge <==> 2.5 <= score < 4.0
    ensures r == GreenBadge <==> score < 2.5
  {
    if score >= 4.0 then RedBadge
    else if score >= 2.5 then YellowBadge
    else GreenBadge
  }

  /** A higher score never gets a calmer colour. */
  lemma PriorityColorMonotone(low: real, high: real)
    requires low <= high
    ensures Urgency(PriorityColor(low)) <= Urgency(PriorityColor(high))
  {
  }

  /** `getSeverityColor`: the three severities get distinct colours, anything else gray. */
  function SeverityColor(severity: string): (r: string)
    ensures severity == "mild" ==> r == GreenBadge
    ensures severity == "moderate" ==> r == YellowBadge
    ensures severity == "severe" ==> r == RedBadge
    ensures r == GrayBadge <==> severity != "mild" && severity != "moderate" && severity != "severe"
  {
    match severity
    case "mild" => GreenBadge
    case "moderate" => YellowBadge
    case "severe" => RedBadge
    case _ => GrayBadge
  }

  /** The severity colours rank like the severities. */
  lemma SeverityColorsRank()
    ensures Urgency(SeverityColor("mild")) < Urgency(SeverityColor("moderate")) < Urgency(SeverityColor("severe"))
  {
  }
}

=== FILE: caseload.dfy ===
/**
 * The patient rows the caregiver views list (src/app/protected/patients/page.tsx
 * and src/components/caregiver/PatientList.tsx): a patient user with the
 * newest form they submitted, if any.
 */
module Caseload {
  import opened Common

  /** The fields of a patient's newest form that the views read. */
  datatype LatestForm = LatestForm(priorityScore: real, status: string, severity: string)

  datatype PatientRow = PatientRow(
    id: UserId,
    name: Option<string>,
    email: Option<string>,
    latestForm: Option<LatestForm>)

  /** `patient.name || ""`. */
  function NameKey(p: PatientRow): (r: string)
    ensures p.name.Some? ==> r == p.name.value
    ensures p.name.None? ==> r == ""
  {
    p.name.GetOr("")
  }
}

=== FILE: common.dfy ===
/**
 * Values shared by every part of the portal: the optional/failure wrappers,
 * the roles and severities declared in src/convex/schema.ts, and the signed-in
 * caller that every Convex handler obtains from getCurrentUser.
 */
module Common {

  datatype Option<+T> = None | Some(value: T)
  {
    function GetOr(default: T): T
    {
      match this
      case Some(v) => v
      case None => default
    }
  }

  /** A handler either returns a value or throws an Error whose message is kept. */
  datatype Result<+T> = Ok(value: T) | Err(message: string)

  /** Document ids of the users table; the other tables use their own nat ids. */
  type UserId = nat

  /**
   * ROLES in schema.ts. The `role` field of a user document is optional
   * (a signed-in user who has not yet chosen a role has none): `Unassigned`.
   */
  datatype Role = Admin | Patient | Caregiver | Unassigned

  /** SEVERITY in schema.ts. */
  datatype Severity = Mild | Moderate | Severe

  /** The string each severity is stored as. */
  function SeverityName(s: Severity): string
  {
    match s
    case Mild => "mild"
    case Moderate => "moderate"
    case Severe => "severe"
  }

  /** The signed-in user as getCurrentUser returns it. */
  datatype User = User(id: UserId, role: Role)

  predicate IsPatient(caller: Option<User>)
  {
    caller.Some? && caller.value.role == Patient
  }

  predicate IsCaregiver(caller: Option<User>)
  {
    caller.Some? && caller.value.role == Caregiver
  }

  /** JavaScript truthiness of an optional number: absent and 0 are both false. */
  predicate Given(x: Option<int>)
  {
    x.Some? && x.value != 0
  }

  function Min(a: int, b: int): int { if a <= b then a else b }

  function Max(a: int, b: int): int { if a >= b then a else b }
}

=== FILE: dashboard.dfy ===
/**
 * src/app/protected/page.tsx, the caregiver's dashboard: the forms listed by
 * appointment status (nulls dropped), each card's display name, avatar letter
 * and severity badge. Its patient search is the one in the Search module.
 */
module Dashboard {
  import opened Common
  import opened Text
  import opened Seqs

  predicate IsPresent<T>(o: Option<T>)
  {
    o.Some?
  }

  /** The values of the present entries of `s`, in order. */
  function Wrapped<T>(r: seq<T>): (w: seq<Option<T>>)
    ensures |w| == |r| && forall i :: 0 <= i < |r| ==> w[i] == Some(r[i])
  {
    seq(|r|, i requires 0 <= i < |r| => Some(r[i]))
  }

  /** `.filter(form => form !== null)`: the present entries' values. */
  function RemoveNulls<T(!new)>(s: seq<Option<T>>): (r: seq<T>)
    ensures |r| <= |s|
    ensures forall x :: x in r <==> Some(x) in s
    decreases |s|
  {
    if s == [] then []
    else
      var rest := RemoveNulls(s[1..]);
      assert forall x :: Some(x) in s <==> Some(x) == s[0] || Some(x) in s[1..];
      if s[0].Some? then [s[0].value] + rest else rest
  }

  /** Dropping the nulls keeps the order: the values are those of the present entries, in turn. */
  lemma {:induction false} RemoveNullsKeepsOrder<T(!new)>(s: seq<Option<T>>)
    ensures Wrapped(RemoveNulls(s)) == Filter(s, IsPresent)
    decreases |s|
  {
    if s != [] {
      RemoveNullsKeepsOrder(s[1..]);
      if s[0].Some? {
        assert Wrapped([s[0].value] + RemoveNulls(s[1..])) == [s[0]] + Wrapped(RemoveNulls(s[1..]));
      }
    }
  }

  /** `form.name || form.patient?.name || "Anonymous Patient"`. */
  function DisplayName(formName: string, patientName: Option<string>): (r: string)
    ensures r != ""
    ensures formName != "" ==> r == formName
    ensures formName == "" && patientName.Some? && patientName.value != "" ==> r == patientName.value
    ensures formName == "" && (patientName.None? || patientName.value == "") ==> r == "Anonymous Patient"
  {
    if formName != "" then formName
    else if patientName.Some? && patientName.value != "" then patientName.value
    else "Anonymous Patient"
  }

  /**
   * The avatar fallback: the upper-cased first character of the form's name,
   * else of the patient's name, else "P".
   */
  function AvatarLetter(formName: string, patientName: Option<string>): (r: string)
    ensures |r| == 1 && HasNoLowerAscii(r)
  {
    if formName != "" then Upper([formName[0]])
    else if patientName.Some? && patientName.value != "" then Upper([patientName.value[0]])
    else "P"
  }

  /** The avatar shows the initial of the name beside it, or "P" beside the anonymous fallback. */
  lemma AvatarMatchesName(formName: string, patientName: Option<string>)
    ensures var shown := DisplayName(formName, patientName);
            AvatarLetter(formName, patientName)
            == if formName == "" && (patientName.None? || patientName.value == "") then "P" else Upper([shown[0]])
  {
  }

  /** `getSeverityBadge`: the label of a badge; the known severities are capitalised. */
  function SeverityBadge(severity: string): (r: string)
    ensures severity == "mild" ==> r == "Mild"
    ensures severity == "moderate" ==> r == "Moderate"
    ensures severity == "severe" ==> r == "Severe"
    ensures severity != "mild" && severity != "moderate" && severity != "severe" ==> r == severity
  {
    match severity
    case "mild" => "Mild"
    case "moderate" => "Moderate"
    case "severe" => "Severe"
    case _ => severity
  }

  /** A badge only ever changes the case of the value it shows. */
  lemma {:induction false} SeverityBadgeKeepsValue(severity: string)
    ensures Lower(SeverityBadge(severity)) == Lower(severity)
  {
    if severity == "mild" {
      assert Lower("Mild") == "mild";
    } else if severity == "moderate" {
      assert Lower("Moderate") == "moderate";
    } else if severity == "severe" {
      assert Lower("Severe") == "severe";
    }
  }
}

=== FILE: forms.dfy ===
/**
 * src/convex/forms.ts: the symptom forms patients submit, scored with the
 * linear priority score, and the caregiver listings built on the
 * `by_priority` index and on whether a patient already has appointments.
 *
 * A listing query takes the rows in the order the index returns them
 * (`byPriority` for the `by_priority` index in descending order, `scan` for
 * the `by_patient` index); the results are stated relative to that order.
 */
module Forms {
  import opened Common
  import opened Seqs
  import opened Priority
  import opened Appointments

  type FormId = nat

  datatype Form = Form(
    id: FormId,
    patientId: UserId,
    name: string,
    age: int,
    symptoms: string,
    severity: Severity,
    contactInfo: string,
    priorityScore: real,
    submittedAt: int)

  /** The optional fields of `updateForm`; `None` means not supplied. */
  datatype FormPatch = FormPatch(
    name: Option<string>,
    age: Option<int>,
    symptoms: Option<string>,
    severity: Option<Severity>,
    contactInfo: Option<string>)

  /**
   * The patch overwrites the supplied fields. Only a supplied severity
   * recomputes the score, from the original submission time to `now`;
   * otherwise the stored score is kept as it was.
   */
  function ApplyFormPatch(f: Form, patch: FormPatch, now: int): (r: Form)
    ensures r.id == f.id && r.patientId == f.patientId && r.submittedAt == f.submittedAt
    ensures r.severity == patch.severity.GetOr(f.severity)
    ensures patch.severity.Some? ==> r.priorityScore == LinearScore(r.severity, f.submittedAt, now)
    ensures patch.severity.None? ==> r.priorityScore == f.priorityScore
    ensures r.name == patch.name.GetOr(f.name) && r.age == patch.age.GetOr(f.age)
    ensures r.symptoms == patch.symptoms.GetOr(f.symptoms) && r.contactInfo == patch.contactInfo.GetOr(f.contactInfo)
  {
    var g := f.(name := patch.name.GetOr(f.name),
                age := patch.age.GetOr(f.age),
                symptoms := patch.symptoms.GetOr(f.symptoms),
                severity := patch.severity.GetOr(f.severity),
                contactInfo := patch.contactInfo.GetOr(f.contactInfo));
    if patch.severity.Some? then g.(priorityScore := LinearScore(patch.severity.value, f.submittedAt, now)) else g
  }

  /** Changing the severity of a form reorders it exactly as a fresh form of that severity would be ordered. */
  lemma {:induction false} PatchedSeverityOrder(f: Form, g: Form, s1: Severity, s2: Severity, now: int)
    requires f.submittedAt == g.submittedAt && MoreSevere(s1, s2)
    ensures ApplyFormPatch(f, FormPatch(None, None, None, Some(s1), None), now).priorityScore
            > ApplyFormPatch(g, FormPatch(None, None, None, Some(s2), None), now).priorityScore
  {
    LinearScoreSeverityOrder(s1, s2, f.submittedAt, now);
  }

  /** `getFormById`: patients see only their own forms; every other signed-in role sees any form. */
  function GetFormById(caller: Option<User>, table: map<FormId, Form>, id: FormId): (r: Result<Form>)
    ensures caller.None? ==> r == Err("Unauthorized")
    ensures caller.Some? && id !in table ==> r == Err("Form not found")
    ensures r.Ok? <==> caller.Some? && id in table
                       && (caller.value.role == Patient ==> table[id].patientId == caller.value.id)
    ensures r.Ok? ==> r.value == table[id]
    ensures r.Err? && caller.Some? && id in table ==> r.message == "Unauthorized"
  {
    if caller.None? then Err("Unauthorized")
    else if id !in table then Err("Form not found")
    else if caller.value.role == Patient && table[id].patientId != caller.value.id then Err("Unauthorized")
    else Ok(table[id])
  }

  /** `getPatientForms`: patients only; their own forms. */
  function GetPatientForms(caller: Option<User>, scan: seq<Form>): (r: Result<seq<Form>>)
    ensures r.Err? <==> !IsPatient(caller)
    ensures r.Err? ==> r.message == "Unauthorized"
    ensures r.Ok? ==> IsSubsequence(r.value, scan)
                      && forall f :: f in r.value <==> f in scan && f.patientId == caller.value.id
  {
    if !IsPatient(caller) then Err("Unauthorized")
    else Ok(Filter(scan, (f: Form) => f.patientId == caller.value.id))
  }

  /** `getFormsByPatientId`: caregivers only; all forms of one patient. */
  function GetFormsByPatientId(caller: Option<User>, scan: seq<Form>, patientId: UserId): (r: Result<seq<Form>>)
    ensures r.Err? <==> !IsCaregiver(caller)
    ensures r.Err? ==> r.message == "Unauthorized"
    ensures r.Ok? ==> IsSubsequence(r.value, scan)
                      && forall f :: f in r.value <==> f in scan && f.patientId == patientId
  {
    if !IsCaregiver(caller) then Err("Unauthorized")
    else Ok(Filter(scan, (f: Form) => f.patientId == patientId))
  }

  /** The order of the `by_priority` index read in descending order. */
  predicate ScoreDescending(a: Form, b: Form)
  {
    a.priorityScore >= b.priorityScore
  }

  /** `getFormsByPriority`: caregivers only; the highest-scored forms first, cut to `limit` if one is given. */
  function GetFormsByPriority(caller: Option<User>, byPriority: seq<Form>, limit: Option<int>): (r: Result<seq<Form>>)
    ensures r.Err? <==> !IsCaregiver(caller)
    ensures r.Err? ==> r.message == "Unauthorized"
    ensures r.Ok? ==> |r.value| <= |byPriority| && r.value == byPriority[..|r.value|]
    ensures r.Ok? && !Given(limit) ==> r.value == byPriority
    ensures r.Ok? && Given(limit) && limit.value > 0 ==> |r.value| == Min(limit.value, |byPriority|)
    ensures r.Ok? && SortedBy(byPriority, ScoreDescending) ==> SortedBy(r.value, ScoreDescending)
  {
    if !IsCaregiver(caller) then Err("Unauthorized")
    else Ok(Limit(byPriority, limit))
  }

  // ---------------------------------------------------------------- appointment status

  /** Whether the patient has any appointment at all, with any caregiver, at any date. */
  predicate HasAppointments(appointments: seq<Appointment>, patientId: UserId)
  {
    exists a :: a in appointments && a.patientId == patientId
  }

  /** The `status` argument of `getFormsByAppointmentStatus`. */
  datatype AppointmentStatus = WithAppointments | WithoutAppointments | AnyStatus

  /** A form as `getFormsByAppointmentStatus` lists it: with its patient's appointment flag. */
  datatype ListedForm = ListedForm(form: Form, hasAppointments: bool)

  /** A form is dropped when the status asks for the other kind of patient. */
  predicate Keeps(status: AppointmentStatus, hasAppointments: bool)
  {
    !((status == WithAppointments && !hasAppointments) || (status == WithoutAppointments && hasAppointments))
  }

  /** Each form paired with its patient's appointment flag. */
  function Annotate(forms: seq<Form>, appointments: seq<Appointment>): (r: seq<ListedForm>)
    ensures |r| == |forms|
    ensures forall i :: 0 <= i < |r| ==> r[i] == ListedForm(forms[i], HasAppointments(appointments, forms[i].patientId))
  {
    seq(|forms|, i requires 0 <= i < |forms| => ListedForm(forms[i], HasAppointments(appointments, forms[i].patientId)))
  }

  /** The forms of a listing, without their flags. */
  function FormsOf(listed: seq<ListedForm>): (r: seq<Form>)
    ensures |r| == |listed|
    ensures forall i :: 0 <= i < |r| ==> r[i] == listed[i].form
  {
    seq(|listed|, i requires 0 <= i < |listed| => listed[i].form)
  }

  /**
   * The forms the status query keeps before its limit, in priority order:
   * exactly those whose patient is of the requested kind.
   */
  function Matching(byPriority: seq<Form>, appointments: seq<Appointment>, status: AppointmentStatus)
    : (r: seq<Form>)
    ensures IsSubsequence(r, byPriority)
    ensures forall f :: f in r <==> f in byPriority && Keeps(status, HasAppointments(appointments, f.patientId))
  {
    Filter(byPriority, (f: Form) => Keeps(status, HasAppointments(appointments, f.patientId)))
  }

  /** The forms of patients with no appointment, in priority order. */
  function Unbooked(byPriority: seq<Form>, appointments: seq<Appointment>): (r: seq<Form>)
    ensures IsSubsequence(r, byPriority)
    ensures forall f :: f in r <==> f in byPriority && !HasAppointments(appointments, f.patientId)
  {
    Filter(byPriority, (f: Form) => !HasAppointments(appointments, f.patientId))
  }

  /** `getFormsByAppointmentStatus`: caregivers only. */
  function GetFormsByAppointmentStatus(caller: Option<User>, byPriority: seq<Form>, appointments: seq<Appointment>,
                                       status: AppointmentStatus, limit: Option<int>)
    : (r: Result<seq<ListedForm>>)
    ensures r.Err? <==> !IsCaregiver(caller)
    ensures r.Err? ==> r.message == "Unauthorized"
    ensures r.Ok? ==> IsSubsequence(FormsOf(r.value), byPriority)
    ensures r.Ok? ==> forall l :: l in r.value ==>
                        l.hasAppointments == HasAppointments(appointments, l.form.patientId)
                        && Keeps(status, l.hasAppointments)
    ensures r.Ok? && !Given(limit) ==> forall f :: f in byPriority && Keeps(status, HasAppointments(appointments, f.patientId))
                                                   ==> f in FormsOf(r.value)
    ensures r.Ok? ==> FormsOf(r.value) == Limit(Matching(byPriority, appointments, status), limit)
  {
    if !IsCaregiver(caller) then Err("Unauthorized")
    else
      var kept := Matching(byPriority, appointments, status);
      var annotated := Annotate(kept, appointments);
      var listed := Limit(annotated, limit);
      assert forall l :: l in annotated ==>
               l.hasAppointments == HasAppointments(appointments, l.form.patientId) && l.form in kept by {
        forall l | l in annotated
          ensures l.hasAppointments == HasAppointments(appointments, l.form.patientId) && l.form in kept
        {
          var i :| 0 <= i < |annotated| && annotated[i] == l;
          assert annotated[i].form == kept[i];
        }
      }
      FormsOfAnnotate(kept, appointments);
      FormsOfLimit(Annotate(kept, appointments), limit);
      PrefixSubsequence(kept, |listed|);
      SubsequenceTransitive(FormsOf(listed), kept, byPriority);
      Ok(listed)
  }

  /** `getFormsWithoutAppointments`: caregivers only; the forms of patients with no appointment. */
  function GetFormsWithoutAppointments(caller: Option<User>, byPriority: seq<Form>, appointments: seq<Appointment>,
                                       limit: Option<int>)
    : (r: Result<seq<Form>>)
    ensures r.Err? <==> !IsCaregiver(caller)
    ensures r.Err? ==> r.message == "Unauthorized"
    ensures r.Ok? ==> IsSubsequence(r.value, byPriority)
    ensures r.Ok? ==> forall f :: f in r.value ==> !HasAppointments(appointments, f.patientId)
    ensures r.Ok? && !Given(limit) ==> forall f :: f in byPriority && !HasAppointments(appointments, f.patientId)
                                                   ==> f in r.value
    ensures r.Ok? ==> r.value == Limit(Unbooked(byPriority, appointments), limit)
  {
    if !IsCaregiver(caller) then Err("Unauthorized")
    else
      var kept := Unbooked(byPriority, appointments);
      SubsequenceTransitive(Limit(kept, limit), kept, byPriority);
      Ok(Limit(kept, limit))
  }

  lemma FormsOfAnnotate(forms: seq<Form>, appointments: seq<Appointment>)
    ensures FormsOf(Annotate(forms, appointments)) == forms
  {
  }

  lemma FormsOfLimit(listed: seq<ListedForm>, limit: Option<int>)
    ensures FormsOf(Limit(listed, limit)) == Limit(FormsOf(listed), limit)
  {
    if Given(limit) {
      var k := |Limit(listed, limit)|;
      assert FormsOf(listed[..k]) == FormsOf(listed)[..k];
    }
  }

  /** The older query and the status query agree on the forms of patients without appointments. */
  lemma {:induction false} WithoutAppointmentsAgree(caller: Option<User>, byPriority: seq<Form>,
                                                    appointments: seq<Appointment>, limit: Option<int>)
    requires IsCaregiver(caller)
    ensures FormsOf(GetFormsByAppointmentStatus(caller, byPriority, appointments, WithoutAppointments, limit).value)
            == GetFormsWithoutAppointments(caller, byPriority, appointments, limit).value
  {
    var p := (f: Form) => Keeps(WithoutAppointments, HasAppointments(appointments, f.patientId));
    var q := (f: Form) => !HasAppointments(appointments, f.patientId);
    FilterExtensional(byPriority, p, q);
    assert Matching(byPriority, appointments, WithoutAppointments) == Unbooked(byPriority, appointments);
  }

  /**
   * Without a limit, the forms with appointments and the forms without
   * together are exactly the forms the "all" status lists, which are all forms.
   */
  lemma {:induction false} AppointmentStatusPartition(caller: Option<User>, byPriority: seq<Form>,
                                                      appointments: seq<Appointment>)
    requires IsCaregiver(caller)
    ensures FormsOf(GetFormsByAppointmentStatus(caller, byPriority, appointments, AnyStatus, None).value) == byPriority
    ensures multiset(FormsOf(GetFormsByAppointmentStatus(caller, byPriority, appointments, WithAppointments, None).value))
            + multiset(FormsOf(GetFormsByAppointmentStatus(caller, byPriority, appointments, WithoutAppointments, None).value))
            == multiset(byPriority)
  {
    var all := (f: Form) => Keeps(AnyStatus, HasAppointments(appointments, f.patientId));
    var with := (f: Form) => Keeps(WithAppointments, HasAppointments(appointments, f.patientId));
    var without := (f: Form) => Keeps(WithoutAppointments, HasAppointments(appointments, f.patientId));
    FilterKeepsAll(byPriority, all);
    assert Matching(byPriority, appointments, AnyStatus) == byPriority;
    FilterComplement(byPriority, with, without);
    assert multiset(Matching(byPriority, appointments, WithAppointments))
           + multiset(Matching(byPriority, appointments, WithoutAppointments)) == multiset(byPriority);
  }

  // ---------------------------------------------------------------- the forms table

  class FormStore {
    var forms: map<FormId, Form>
    var nextId: FormId
    /** The moment at which each stored score was last computed. */
    ghost var scoredAt: map<FormId, int>

    /**
     * Every row is stored under its own id, ids are never reused, and every
     * stored score is the linear score of the stored severity and submission
     * time at the moment it was last computed.
     */
    ghost predicate Valid()
      reads this
    {
      forall id :: id in forms ==>
        && forms[id].id == id && id < nextId && id in scoredAt
        && forms[id].priorityScore == LinearScore(forms[id].severity, forms[id].submittedAt, scoredAt[id])
    }

    constructor ()
      ensures Valid() && forms == map[]
    {
      forms := map[];
      nextId := 0;
      scoredAt := map[];
    }

    /**
     * `createForm`: patients only. The clock is read twice, once for the
     * submission time and once more inside the score computation.
     */
    method CreateForm(caller: Option<User>, name: string, age: int, symptoms: string, severity: Severity,
                      contactInfo: string, submittedAt: int, scoredAt': int)
      returns (r: Result<FormId>)
      requires Valid()
      modifies this
      ensures Valid()
      ensures r.Ok? <==> IsPatient(caller)
      ensures r.Err? ==> r.message == "Only patients can submit forms" && forms == old(forms)
      ensures r.Ok? ==> r.value !in old(forms)
                        && forms == old(forms)[r.value := Form(r.value, caller.value.id, name, age, symptoms, severity,
                                                               contactInfo, LinearScore(severity, submittedAt, scoredAt'),
                                                               submittedAt)]
    {
      if !IsPatient(caller) {
        return Err("Only patients can submit forms");
      }
      var id := nextId;
      var score := LinearScore(severity, submittedAt, scoredAt');
      forms := forms[id := Form(id, caller.value.id, name, age, symptoms, severity, contactInfo, score, submittedAt)];
      scoredAt := scoredAt[id := scoredAt'];
      nextId := nextId + 1;
      r := Ok(id);
    }

    /** `updateForm`: only the patient who created the form, whatever the caller's role. */
    method UpdateForm(caller: Option<User>, id: FormId, patch: FormPatch, now: int) returns (r: Result<Form>)
      requires Valid()
      modifies this
      ensures Valid() && nextId == old(nextId)
      ensures caller.None? ==> r == Err("Unauthorized")
      ensures caller.Some? && id !in old(forms) ==> r == Err("Form not found")
      ensures r.Ok? <==> caller.Some? && id in old(forms) && old(forms)[id].patientId == caller.value.id
      ensures r.Err? && caller.Some? && id in old(forms) ==> r.message == "Unauthorized"
      ensures r.Ok? ==> r.value == ApplyFormPatch(old(forms)[id], patch, now) && forms == old(forms)[id := r.value]
      ensures r.Err? ==> forms == old(forms)
    {
      if caller.None? {
        return Err("Unauthorized");
      }
      if id !in forms {
        return Err("Form not found");
      }
      var f := forms[id];
      if f.patientId != caller.value.id {
        return Err("Unauthorized");
      }
      var updated := ApplyFormPatch(f, patch, now);
      forms := forms[id := updated];
      if patch.severity.Some? {
        scoredAt := scoredAt[id := now];
      }
      r := Ok(updated);
    }

    /** `deleteForm`: the patient who created the form or an admin. */
    method DeleteForm(caller: Option<User>, id: FormId) returns (r: Result<()>)
      requires Valid()
      modifies this
      ensures Valid() && nextId == old(nextId)
      ensures caller.None? ==> r == Err("Unauthorized")
      ensures caller.Some? && id !in old(forms) ==> r == Err("Form not found")
      ensures r.Ok? <==> caller.Some? && id in old(forms)
                         && (old(forms)[id].patientId == caller.value.id || caller.value.role == Admin)
      ensures r.Err? && caller.Some? && id in old(forms) ==> r.message == "Unauthorized"
      ensures r.Ok? ==> forms == old(forms) - {id}
      ensures r.Err? ==> forms == old(forms)
    {
      if caller.None? {
        return Err("Unauthorized");
      }
      if id !in forms {
        return Err("Form not found");
      }
      if forms[id].patientId != caller.value.id && caller.value.role != Admin {
        return Err("Unauthorized");
      }
      forms := forms - {id};
      r := Ok(());
    }
  }

  /** In a consistent table no score exceeds twice the severity weight plus the five-point wait cap. */
  lemma StoredScoresBounded(store: FormStore, id: FormId)
    requires store.Valid() && id in store.forms
    ensures store.forms[id].priorityScore <= (2 * Weight(store.forms[id].severity) + 5) as real
  {
  }
}

=== FILE: forms_review.dfy ===
/**
 * src/app/protected/caregiver/forms/page.tsx: the caregiver's review page. It
 * fetches the pending and the reviewed forms with `getFormsByStatus` and sorts
 * each fetched array in place before listing it: pending forms by descending
 * priority score, reviewed forms by descending submission date.
 */
module FormsReview {
  import opened Common
  import opened Seqs
  import opened Badges
  import opened PatientForms

  /** `(a, b) => b.priorityScore - a.priorityScore`, read as "a may be listed before b". */
  predicate HigherPriorityFirst(a: PatientForm, b: PatientForm)
  {
    b.priorityScore - a.priorityScore <= 0.0
  }

  /** `(a, b) => b.submissionDate - a.submissionDate`, read as "a may be listed before b". */
  predicate NewerSubmissionFirst(a: PatientForm, b: PatientForm)
  {
    b.submissionDate - a.submissionDate <= 0
  }

  lemma ReviewOrdersAreTotalPreorders()
    ensures TotalPreorder(HigherPriorityFirst) && TotalPreorder(NewerSubmissionFirst)
  {
  }

  /** `pendingForms.sort(...)`: sorted in place by descending priority. */
  method SortPending(forms: array<PatientForm>)
    modifies forms
    ensures forms[..] == SortBy(old(forms[..]), HigherPriorityFirst)
    ensures SortedBy(forms[..], HigherPriorityFirst)
    ensures multiset(forms[..]) == multiset(old(forms[..]))
  {
    SortInPlace(forms, HigherPriorityFirst);
    ReviewOrdersAreTotalPreorders();
    SortBySorted(old(forms[..]), HigherPriorityFirst);
  }

  /** `reviewedForms.sort(...)`: sorted in place by descending submission date. */
  method SortReviewed(forms: array<PatientForm>)
    modifies forms
    ensures forms[..] == SortBy(old(forms[..]), NewerSubmissionFirst)
    ensures SortedBy(forms[..], NewerSubmissionFirst)
    ensures multiset(forms[..]) == multiset(old(forms[..]))
  {
    SortInPlace(forms, NewerSubmissionFirst);
    ReviewOrdersAreTotalPreorders();
    SortBySorted(old(forms[..]), NewerSubmissionFirst);
  }

  /**
   * The pending tab: only a caregiver's query succeeds; the list shown is the
   * fetched pending forms, every one of them, highest score first.
   */
  method PendingTab(caller: Option<User>, scan: seq<PatientForm>) returns (r: Result<seq<PatientForm>>)
    ensures r.Ok? <==> IsCaregiver(caller)
    ensures r.Err? ==> r == GetFormsByStatus(caller, scan, Pending)
    ensures r.Ok? ==> r.value == SortBy(GetFormsByStatus(caller, scan, Pending).value, HigherPriorityFirst)
    ensures r.Ok? ==> multiset(r.value) == multiset(GetFormsByStatus(caller, scan, Pending).value)
    ensures r.Ok? ==> forall i, j :: 0 <= i < j < |r.value| ==> r.value[i].priorityScore >= r.value[j].priorityScore
    ensures r.Ok? ==> forall f :: f in r.value <==> f in scan && f.status == Pending
  {
    var fetched := GetFormsByStatus(caller, scan, Pending);
    if fetched.Err? {
      return fetched;
    }
    var a := new PatientForm[|fetched.value|](i requires 0 <= i < |fetched.value| => fetched.value[i]);
    assert a[..] == fetched.value;
    SortPending(a);
    r := Ok(a[..]);
    forall f ensures f in r.value <==> f in fetched.value {
      assert f in r.value <==> f in multiset(r.value);
    }
  }

  /**
   * The reviewed tab: only a caregiver's query succeeds; the list shown is the
   * fetched reviewed forms, every one of them, newest submission first.
   */
  method ReviewedTab(caller: Option<User>, scan: seq<PatientForm>) returns (r: Result<seq<PatientForm>>)
    ensures r.Ok? <==> IsCaregiver(caller)
    ensures r.Err? ==> r == GetFormsByStatus(caller, scan, Reviewed)
    ensures r.Ok? ==> r.value == SortBy(GetFormsByStatus(caller, scan, Reviewed).value, NewerSubmissionFirst)
    ensures r.Ok? ==> multiset(r.value) == multiset(GetFormsByStatus(caller, scan, Reviewed).value)
    ensures r.Ok? ==> forall i, j :: 0 <= i < j < |r.value| ==> r.value[i].submissionDate >= r.value[j].submissionDate
    ensures r.Ok? ==> forall f :: f in r.value <==> f in scan && f.status == Reviewed
  {
    var fetched := GetFormsByStatus(caller, scan, Reviewed);
    if fetched.Err? {
      return fetched;
    }
    var a := new PatientForm[|fetched.value|](i requires 0 <= i < |fetched.value| => fetched.value[i]);
    assert a[..] == fetched.value;
    SortReviewed(a);
    r := Ok(a[..]);
    forall f ensures f in r.value <==> f in fetched.value {
      assert f in r.value <==> f in multiset(r.value);
    }
  }

  /** The badges of a form card: its priority band, and a severity colour that is never gray. */
  function CardBadges(f: PatientForm): (r: (string, string))
    ensures r.0 == PriorityColor(f.priorityScore)
    ensures r.1 != GrayBadge
    ensures f.severity == Severe ==> r.1 == RedBadge
  {
    (PriorityColor(f.priorityScore), SeverityColor(SeverityName(f.severity)))
  }
}

=== FILE: initials.dfy ===
/**
 * `getInitials`, written out identically in src/app/protected/messages/page.tsx
 * and src/components/protected/MessageThreadList.tsx, and with a "U" fallback
 * in src/components/protected/Header.tsx: the first character of each
 * space-separated part, upper-cased, at most two of them.
 */
module Initials {
  import opened Common
  import opened Text

  /**
   * `parts.map(part => part[0]).join('')`: an empty part yields `undefined`,
   * which `join` writes as nothing.
   */
  function FirstLetters(parts: seq<string>): string
  {
    if parts == [] then []
    else (if parts[0] == [] then [] else [parts[0][0]]) + FirstLetters(parts[1..])
  }

  /**
   * The characters that begin a word, read straight off the name: a
   * non-space character at the start (`atStart`) or right after a space.
   */
  function WordStarts(s: string, atStart: bool): string
    decreases |s|
  {
    if s == [] then []
    else if s[0] == ' ' then WordStarts(s[1..], true)
    else (if atStart then [s[0]] else []) + WordStarts(s[1..], false)
  }

  /** Splitting on spaces and taking each part's first character picks exactly the word starts. */
  lemma {:induction false} FirstLettersAreWordStarts(s: string)
    ensures FirstLetters(Split(s, ' ')) == WordStarts(s, true)
    ensures FirstLetters(Split(s, ' ')[1..]) == WordStarts(s, false)
    decreases |s|
  {
    if s != [] {
      var rest := Split(s[1..], ' ');
      FirstLettersAreWordStarts(s[1..]);
      var parts := Split(s, ' ');
      if s[0] == ' ' {
        assert parts == [""] + rest;
        assert parts[1..] == rest;
      } else {
        assert parts == [[s[0]] + rest[0]] + rest[1..];
        assert parts[1..] == rest[1..];
      }
    }
  }

  /** `getInitials(name)`. */
  function GetInitials(name: string): (r: string)
    ensures |r| <= 2 && HasNoLowerAscii(r)
    ensures var starts := Upper(WordStarts(name, true));
            r == starts[..Min(2, |starts|)]
  {
    FirstLettersAreWordStarts(name);
    UpperHasNoLower(FirstLetters(Split(name, ' ')));
    var letters := Upper(FirstLetters(Split(name, ' ')));
    letters[..Min(2, |letters|)]
  }

  /** Within a word, no further word starts. */
  lemma {:induction false} InsideWord(w: string, t: string)
    requires ' ' !in w
    ensures WordStarts(w + t, false) == WordStarts(t, false)
    decreases |w|
  {
    if w != [] {
      assert (w + t)[0] == w[0] && (w + t)[1..] == w[1..] + t;
      assert w[0] != ' ' && ' ' !in w[1..];
      InsideWord(w[1..], t);
    } else {
      assert w + t == t;
    }
  }

  /** A leading word contributes its first letter and nothing else. */
  lemma {:induction false} LeadingWord(w: string, t: string)
    requires w != [] && ' ' !in w
    ensures WordStarts(w + " " + t, true) == [w[0]] + WordStarts(t, true)
  {
    var s := w + " " + t;
    assert s[0] == w[0] && s[1..] == w[1..] + (" " + t);
    InsideWord(w[1..], " " + t);
    assert (" " + t)[1..] == t;
  }

  /** A last word contributes only its first letter. */
  lemma {:induction false} LastWord(w: string)
    requires w != [] && ' ' !in w
    ensures WordStarts(w, true) == [w[0]]
  {
    assert w[1..] + [] == w[1..];
    InsideWord(w[1..], []);
  }

  /** "Ada Lovelace" gives "AL": one letter from each of two words. */
  lemma {:induction false} TwoWordInitials(first: string, last: string)
    requires first != [] && last != [] && ' ' !in first && ' ' !in last
    ensures GetInitials(first + " " + last) == [UpperChar(first[0]), UpperChar(last[0])]
  {
    LeadingWord(first, last);
    LastWord(last);
    assert WordStarts(first + " " + last, true) == [first[0], last[0]];
  }

  /** A run of spaces counts as one: an empty part contributes no letter. */
  lemma {:induction false} DoubledSpaceIgnored(x: string, y: string, atStart: bool)
    ensures WordStarts(x + "  " + y, atStart) == WordStarts(x + " " + y, atStart)
    decreases |x|
  {
    if x == [] {
      assert (x + "  " + y)[1..] == " " + y;
      assert (x + " " + y)[1..] == y;
      assert (" " + y)[1..] == y;
    } else {
      assert (x + "  " + y)[1..] == x[1..] + "  " + y;
      assert (x + " " + y)[1..] == x[1..] + " " + y;
      DoubledSpaceIgnored(x[1..], y, x[0] == ' ');
      if x[0] != ' ' {
        DoubledSpaceIgnored(x[1..], y, false);
      }
    }
  }

  /** Two spaces between words give the same initials as one. */
  lemma RepeatedSpaceIgnored(x: string, y: string)
    ensures GetInitials(x + "  " + y) == GetInitials(x + " " + y)
  {
    DoubledSpaceIgnored(x, y, true);
  }

  /** Only the first two words matter: a third word changes nothing. */
  lemma {:induction false} ThirdWordIgnored(first: string, second: string, third: string)
    requires first != [] && second != [] && ' ' !in first && ' ' !in second
    ensures GetInitials(first + " " + second + " " + third) == GetInitials(first + " " + second)
  {
    assert first + " " + second + " " + third == first + " " + (second + " " + third);
    LeadingWord(first, second + " " + third);
    LeadingWord(second, third);
    var ws := Upper(WordStarts(first + " " + second + " " + third, true));
    assert ws[0] == UpperChar(first[0]) && ws[1] == UpperChar(second[0]);
    TwoWordInitials(first, second);
  }

  /** A name made of spaces has no word starts. */
  lemma {:induction false} SpacesHaveNoInitials(s: string, atStart: bool)
    requires forall i :: 0 <= i < |s| ==> s[i] == ' '
    ensures WordStarts(s, atStart) == []
    decreases |s|
  {
    if s != [] {
      SpacesHaveNoInitials(s[1..], true);
    }
  }

  /** Header.tsx: "U" when the name is missing or empty, otherwise `getInitials`. */
  function HeaderInitials(name: Option<string>): (r: string)
    ensures name.None? || name.value == "" ==> r == "U"
    ensures name.Some? && name.value != "" ==> r == GetInitials(name.value)
    ensures |r| <= 2 && HasNoLowerAscii(r)
  {
    if name.None? || name.value == "" then "U" else GetInitials(name.value)
  }

  /**
   * The "U" fallback covers only a missing or empty name: a name of spaces
   * passes the guard and yields no initials at all.
   */
  lemma BlankNameShowsNoInitials(name: string)
    requires name != [] && forall i :: 0 <= i < |name| ==> name[i] == ' '
    ensures HeaderInitials(Some(name)) == ""
  {
    SpacesHaveNoInitials(name, true);
  }

  /** The account menu's name and e-mail lines: `user?.name || "User"` and `user?.email || ""`. */
  function HeaderName(name: Option<string>): (r: string)
    ensures r != ""
    ensures name.Some? && name.value != "" ==> r == name.value
    ensures name.None? || name.value == "" ==> r == "User"
  {
    if name.Some? && name.value != "" then name.value else "User"
  }

  function HeaderEmail(email: Option<string>): (r: string)
    ensures email.Some? ==> r == email.value
    ensures email.None? ==> r == ""
  {
    email.GetOr("")
  }
}

=== FILE: messages.dfy ===
/**
 * src/convex/messages.ts: direct messages between patients and caregivers,
 * their read flags, and the conversation list grouped by partner.
 */
module Messages {
  import opened Common
  import opened Seqs

  type MessageId = nat

  datatype Message = Message(
    id: MessageId,
    fromId: UserId,
    toId: UserId,
    content: string,
    sentAt: int,
    read: bool)

  // ---------------------------------------------------------------- sending

  /** A patient may write only to a caregiver and a caregiver only to a patient; other roles to anyone. */
  predicate MayMessage(sender: Role, recipient: Role)
  {
    !(sender == Patient && recipient != Caregiver) && !(sender == Caregiver && recipient != Patient)
  }

  lemma MessagingRoles(sender: Role, recipient: Role)
    ensures sender == Patient ==> (MayMessage(sender, recipient) <==> recipient == Caregiver)
    ensures sender == Caregiver ==> (MayMessage(sender, recipient) <==> recipient == Patient)
    ensures sender == Admin || sender == Unassigned ==> MayMessage(sender, recipient)
  {
  }

  // ---------------------------------------------------------------- reading

  predicate Involves(m: Message, me: UserId)
  {
    m.fromId == me || m.toId == me
  }

  predicate Between(m: Message, me: UserId, other: UserId)
  {
    (m.fromId == me && m.toId == other) || (m.toId == me && m.fromId == other)
  }

  /**
   * `getMessages`: with another user, the conversation between the two in
   * both directions; without one, every message the caller sent or received.
   */
  function GetMessages(caller: Option<User>, scan: seq<Message>, otherUserId: Option<UserId>)
    : (r: Result<seq<Message>>)
    ensures r.Err? <==> caller.None?
    ensures r.Err? ==> r.message == "Unauthorized"
    ensures r.Ok? ==> IsSubsequence(r.value, scan)
    ensures r.Ok? && otherUserId.Some? ==>
              forall m :: m in r.value <==> m in scan && Between(m, caller.value.id, otherUserId.value)
    ensures r.Ok? && otherUserId.None? ==> forall m :: m in r.value <==> m in scan && Involves(m, caller.value.id)
  {
    if caller.None? then Err("Unauthorized")
    else if otherUserId.Some? then Ok(Filter(scan, (m: Message) => Between(m, caller.value.id, otherUserId.value)))
    else Ok(Filter(scan, (m: Message) => Involves(m, caller.value.id)))
  }

  /** A conversation is part of the caller's full message list, in the same order. */
  lemma ConversationWithinAll(caller: Option<User>, scan: seq<Message>, other: UserId)
    requires caller.Some?
    ensures IsSubsequence(GetMessages(caller, scan, Some(other)).value, GetMessages(caller, scan, None).value)
  {
    var me := caller.value.id;
    FilterNarrows(scan, (m: Message) => Between(m, me, other), (m: Message) => Involves(m, me));
  }

  /** The ids of the unread messages addressed to `me`. */
  function UnreadIds(table: map<MessageId, Message>, me: UserId): (ids: set<MessageId>)
    ensures forall id :: id in ids <==> id in table && table[id].toId == me && !table[id].read
  {
    set id | id in table && table[id].toId == me && !table[id].read
  }

  /** `getUnreadCount`: how many messages addressed to the caller are unread. */
  function GetUnreadCount(caller: Option<User>, table: map<MessageId, Message>): (r: Result<nat>)
    ensures r.Err? <==> caller.None?
    ensures r.Err? ==> r.message == "Unauthorized"
    ensures r.Ok? ==> r.value == |UnreadIds(table, caller.value.id)|
    ensures r.Ok? && r.value == 0 ==> forall id :: id in table && table[id].toId == caller.value.id ==> table[id].read
  {
    if caller.None? then Err("Unauthorized") else Ok(|UnreadIds(table, caller.value.id)|)
  }

  // ---------------------------------------------------------------- marking as read

  /** Every listed message that exists is addressed to `me`. */
  predicate AllAddressedTo(table: map<MessageId, Message>, ids: seq<MessageId>, me: UserId)
  {
    forall i :: 0 <= i < |ids| && ids[i] in table ==> table[ids[i]].toId == me
  }

  /** The table with every listed message flagged as read; missing ids are skipped. */
  function MarkAll(table: map<MessageId, Message>, ids: seq<MessageId>): (r: map<MessageId, Message>)
    ensures r.Keys == table.Keys
    ensures forall id :: id in r ==> r[id] == if id in ids then table[id].(read := true) else table[id]
  {
    map id | id in table :: if id in ids then table[id].(read := true) else table[id]
  }

  /**
   * `markAsRead` as one transaction: if any listed message that exists is
   * addressed to someone else the mutation throws and nothing is written;
   * otherwise every listed message that exists is flagged as read.
   */
  function MarkedRead(caller: Option<User>, table: map<MessageId, Message>, ids: seq<MessageId>)
    : (r: Result<map<MessageId, Message>>)
    ensures caller.None? ==> r == Err("Unauthorized")
    ensures caller.Some? && !AllAddressedTo(table, ids, caller.value.id)
            ==> r == Err("Cannot mark messages as read for other users")
    ensures r.Ok? <==> caller.Some? && AllAddressedTo(table, ids, caller.value.id)
    ensures r.Ok? ==> r.value.Keys == table.Keys
                      && forall id :: id in table ==>
                           (id in ids ==> r.value[id].read) && (id !in ids ==> r.value[id] == table[id])
                           && r.value[id].(read := table[id].read) == table[id]
  {
    if caller.None? then Err("Unauthorized")
    else if !AllAddressedTo(table, ids, caller.value.id) then Err("Cannot mark messages as read for other users")
    else Ok(MarkAll(table, ids))
  }

  /** Marking the same messages twice leaves the table as marking them once. */
  lemma MarkAsReadIdempotent(caller: Option<User>, table: map<MessageId, Message>, ids: seq<MessageId>)
    requires MarkedRead(caller, table, ids).Ok?
    ensures MarkedRead(caller, MarkedRead(caller, table, ids).value, ids) == MarkedRead(caller, table, ids)
  {
    var once := MarkAll(table, ids);
    assert MarkAll(once, ids) == once;
  }

  /**
   * The ids the messages page collects (unread, addressed to the caller) can
   * always be marked, and marking them empties the unread count.
   */
  lemma MarkingUnreadClearsCount(caller: Option<User>, table: map<MessageId, Message>, ids: seq<MessageId>)
    requires caller.Some?
    requires forall id :: id in ids <==> id in UnreadIds(table, caller.value.id)
    ensures MarkedRead(caller, table, ids).Ok?
    ensures GetUnreadCount(caller, MarkedRead(caller, table, ids).value) == Ok(0)
  {
    assert AllAddressedTo(table, ids, caller.value.id) by {
      forall i | 0 <= i < |ids| && ids[i] in table
        ensures table[ids[i]].toId == caller.value.id
      {
        assert ids[i] in UnreadIds(table, caller.value.id);
      }
    }
    assert UnreadIds(MarkAll(table, ids), caller.value.id) == {};
  }

  // ---------------------------------------------------------------- conversation threads

  /** The other side of a message the caller sent or received. */
  function Partner(m: Message, me: UserId): UserId
  {
    if m.fromId == me then m.toId else m.fromId
  }

  datatype Thread = Thread(partnerId: UserId, lastMessage: Message, unreadCount: nat)

  /** The messages from `partner` to `me` still unread. */
  function UnreadFrom(scan: seq<Message>, partner: UserId, me: UserId): (r: nat)
    ensures r <= |scan|
    ensures r == |set i | 0 <= i < |scan| && scan[i].fromId == partner && scan[i].toId == me && !scan[i].read|
    ensures r > 0 <==> exists m :: m in scan && m.fromId == partner && m.toId == me && !m.read
  {
    var unread := (m: Message) => m.fromId == partner && m.toId == me && !m.read;
    var kept := Filter(scan, unread);
    FilterCountsPositions(scan, unread);
    assert Positions(scan, unread)
           == set i | 0 <= i < |scan| && scan[i].fromId == partner && scan[i].toId == me && !scan[i].read;
    assert |kept| > 0 ==> kept[0] in kept;
    |kept|
  }

  /** `b.lastMessage.sentAt - a.lastMessage.sentAt`: the newest conversation first. */
  predicate NewerFirst(a: Thread, b: Thread)
  {
    a.lastMessage.sentAt >= b.lastMessage.sentAt
  }

  /** `msgs[i]` is the first message in `msgs` exchanged with `partner`. */
  predicate FirstWith(msgs: seq<Message>, i: int, partner: UserId, me: UserId)
  {
    0 <= i < |msgs| && Partner(msgs[i], me) == partner && forall j :: 0 <= j < i ==> Partner(msgs[j], me) != partner
  }

  /** The caller's messages, in the order of `scan`. */
  function Conversations(scan: seq<Message>, me: UserId): (r: seq<Message>)
    ensures forall m :: m in r <==> m in scan && Involves(m, me)
  {
    Filter(scan, (m: Message) => Involves(m, me))
  }

  /** The thread's last message is the first one exchanged with its partner in `msgs`. */
  ghost predicate LeadsThread(msgs: seq<Message>, t: Thread, me: UserId)
  {
    exists i :: FirstWith(msgs, i, t.partnerId, me) && msgs[i] == t.lastMessage
  }

  /**
   * The loop that fills the thread map: each partner once, in order of first
   * appearance, with the position of its first message.
   */
  method FirstMessages(msgs: seq<Message>, me: UserId) returns (partners: seq<UserId>, firstIndex: map<UserId, nat>)
    ensures forall i, j :: 0 <= i < j < |partners| ==> partners[i] != partners[j]
    ensures forall p :: p in firstIndex <==> p in partners
    ensures forall p :: p in firstIndex ==> FirstWith(msgs, firstIndex[p], p, me)
    ensures forall m :: m in msgs ==> Partner(m, me) in firstIndex
    ensures forall i, j :: 0 <= i < j < |partners| ==>
              partners[i] in firstIndex && partners[j] in firstIndex && firstIndex[partners[i]] < firstIndex[partners[j]]
  {
    partners := [];
    firstIndex := map[];
    for k := 0 to |msgs|
      invariant forall i, j :: 0 <= i < j < |partners| ==> partners[i] != partners[j]
      invariant forall p :: p in firstIndex <==> p in partners
      invariant forall p :: p in firstIndex ==> firstIndex[p] < k && FirstWith(msgs, firstIndex[p], p, me)
      invariant forall j :: 0 <= j < k ==> Partner(msgs[j], me) in firstIndex
      invariant forall i, j :: 0 <= i < j < |partners| ==>
                  partners[i] in firstIndex && partners[j] in firstIndex && firstIndex[partners[i]] < firstIndex[partners[j]]
    {
      var p := Partner(msgs[k], me);
      if p !in firstIndex {
        firstIndex := firstIndex[p := k];
        partners := partners + [p];
      }
    }
  }

  /**
   * `getMessageThreads`: the caller's messages newest first (`scan` is the
   * messages table in descending creation order), grouped by partner. One
   * thread per partner, holding the partner's first message in that order
   * and the count of the partner's unread messages to the caller; the
   * threads are then sorted by the time of that message, newest first.
   */
  method GetMessageThreads(caller: Option<User>, scan: seq<Message>) returns (r: Result<seq<Thread>>)
    ensures r.Err? <==> caller.None?
    ensures r.Err? ==> r.message == "Unauthorized"
    ensures r.Ok? ==> SortedBy(r.value, NewerFirst)
    ensures r.Ok? ==> forall i, j :: 0 <= i < j < |r.value| ==> r.value[i].partnerId != r.value[j].partnerId
    ensures r.Ok? ==> forall m :: m in scan && Involves(m, caller.value.id) ==>
                        exists t :: t in r.value && t.partnerId == Partner(m, caller.value.id)
    ensures r.Ok? ==> forall t :: t in r.value ==>
                        && t.unreadCount == UnreadFrom(scan, t.partnerId, caller.value.id)
                        && LeadsThread(Conversations(scan, caller.value.id), t, caller.value.id)
    ensures r.Ok? ==> forall i, j, a, b ::
                        && 0 <= i < j < |r.value|
                        && r.value[i].lastMessage.sentAt == r.value[j].lastMessage.sentAt
                        && FirstWith(Conversations(scan, caller.value.id), a, r.value[i].partnerId, caller.value.id)
                        && FirstWith(Conversations(scan, caller.value.id), b, r.value[j].partnerId, caller.value.id)
                        ==> a < b
  {
    if caller.None? {
      return Err("Unauthorized");
    }
    var me := caller.value.id;
    var msgs := Conversations(scan, me);
    var partners, firstIndex := FirstMessages(msgs, me);
    var threads := seq(|partners|, i requires 0 <= i < |partners| =>
                         Thread(partners[i], msgs[firstIndex[partners[i]]], UnreadFrom(scan, partners[i], me)));
    assert ThreadsBuilt(scan, me, msgs, partners, firstIndex, threads) by {
      forall i | 0 <= i < |partners| ensures partners[i] in firstIndex {
        assert partners[i] in partners;
      }
    }
    var sorted := SortedCopy(threads, NewerFirst);
    SortedThreadsDescribed(scan, me, partners, firstIndex, threads, sorted);
    TiedThreadsKeepFirstAppearance(scan, me, partners, firstIndex, threads);
    r := Ok(sorted);
  }

  /** Only one position is the first with a given partner. */
  lemma FirstWithUnique(msgs: seq<Message>, a: int, b: int, partner: UserId, me: UserId)
    requires FirstWith(msgs, a, partner, me) && FirstWith(msgs, b, partner, me)
    ensures a == b
  {
  }

  /**
   * The sort is stable and the threads go in ordered by their partners' first
   * appearance, so threads whose messages were sent at the same time come out
   * in that order.
   */
  lemma {:induction false} TiedThreadsKeepFirstAppearance(scan: seq<Message>, me: UserId, partners: seq<UserId>,
                                                          firstIndex: map<UserId, nat>, threads: seq<Thread>)
    requires forall p :: p in firstIndex <==> p in partners
    requires forall p :: p in firstIndex ==> FirstWith(Conversations(scan, me), firstIndex[p], p, me)
    requires forall i, j :: 0 <= i < j < |partners| ==>
               partners[i] in firstIndex && partners[j] in firstIndex && firstIndex[partners[i]] < firstIndex[partners[j]]
    requires ThreadsBuilt(scan, me, Conversations(scan, me), partners, firstIndex, threads)
    ensures var sorted := SortBy(threads, NewerFirst);
            forall i, j, a, b ::
              && 0 <= i < j < |sorted|
              && sorted[i].lastMessage.sentAt == sorted[j].lastMessage.sentAt
              && FirstWith(Conversations(scan, me), a, sorted[i].partnerId, me)
              && FirstWith(Conversations(scan, me), b, sorted[j].partnerId, me)
              ==> a < b
  {
    var msgs := Conversations(scan, me);
    var rank := (t: Thread) => if t.partnerId in firstIndex then firstIndex[t.partnerId] else 0;
    var sorted := SortBy(threads, NewerFirst);
    forall i, j | 0 <= i < j < |threads| ensures rank(threads[i]) < rank(threads[j]) {
      assert threads[i].partnerId == partners[i] && threads[j].partnerId == partners[j];
    }
    SortByRanked(threads, NewerFirst, rank);
    SortBySorted(threads, NewerFirst);
    forall t | t in sorted ensures t.partnerId in firstIndex {
      assert t in multiset(threads);
      var k :| 0 <= k < |threads| && threads[k] == t;
      assert partners[k] in partners;
    }
    forall i, j, a, b |
      && 0 <= i < j < |sorted|
      && sorted[i].lastMessage.sentAt == sorted[j].lastMessage.sentAt
      && FirstWith(msgs, a, sorted[i].partnerId, me)
      && FirstWith(msgs, b, sorted[j].partnerId, me)
      ensures a < b
    {
      assert NewerFirst(sorted[j], sorted[i]);
      assert rank(sorted[i]) < rank(sorted[j]);
      assert sorted[i] in sorted && sorted[j] in sorted;
      FirstWithUnique(msgs, a, firstIndex[sorted[i].partnerId], sorted[i].partnerId, me);
      FirstWithUnique(msgs, b, firstIndex[sorted[j].partnerId], sorted[j].partnerId, me);
    }
  }

  /** `threads[i]` is the thread built for `partners[i]` from its first message in `msgs`. */
  predicate ThreadsBuilt(scan: seq<Message>, me: UserId, msgs: seq<Message>, partners: seq<UserId>,
                         firstIndex: map<UserId, nat>, threads: seq<Thread>)
  {
    && |threads| == |partners|
    && forall i :: 0 <= i < |partners| ==>
         && partners[i] in firstIndex && firstIndex[partners[i]] < |msgs|
         && threads[i] == Thread(partners[i], msgs[firstIndex[partners[i]]], UnreadFrom(scan, partners[i], me))
  }

  /**
   * What the loop's result gives the sorted threads: distinct partners, one
   * thread for every partner of the caller, each with its unread count and
   * its partner's first message.
   */
  lemma SortedThreadsDescribed(scan: seq<Message>, me: UserId, partners: seq<UserId>,
                               firstIndex: map<UserId, nat>, threads: seq<Thread>, sorted: seq<Thread>)
    requires forall i, j :: 0 <= i < j < |partners| ==> partners[i] != partners[j]
    requires forall p :: p in firstIndex <==> p in partners
    requires forall p :: p in firstIndex ==> FirstWith(Conversations(scan, me), firstIndex[p], p, me)
    requires forall m :: m in Conversations(scan, me) ==> Partner(m, me) in firstIndex
    requires ThreadsBuilt(scan, me, Conversations(scan, me), partners, firstIndex, threads)
    requires multiset(sorted) == multiset(threads)
    ensures forall i, j :: 0 <= i < j < |sorted| ==> sorted[i].partnerId != sorted[j].partnerId
    ensures forall m :: m in scan && Involves(m, me) ==> exists t :: t in sorted && t.partnerId == Partner(m, me)
    ensures forall t :: t in sorted ==>
              t.unreadCount == UnreadFrom(scan, t.partnerId, me) && LeadsThread(Conversations(scan, me), t, me)
  {
    var msgs := Conversations(scan, me);
    PermutationMembers(sorted, threads);
    ThreadsDescribed(scan, me, msgs, partners, firstIndex, threads);
    ThreadsDistinctAfterSort(threads, sorted);
    forall m | m in scan && Involves(m, me)
      ensures exists t :: t in sorted && t.partnerId == Partner(m, me)
    {
      assert m in msgs;
      var i :| 0 <= i < |partners| && partners[i] == Partner(m, me);
      assert threads[i] in threads;
    }
  }

  /** Each built thread carries its partner's unread count and first message. */
  lemma ThreadsDescribed(scan: seq<Message>, me: UserId, msgs: seq<Message>, partners: seq<UserId>,
                         firstIndex: map<UserId, nat>, threads: seq<Thread>)
    requires forall p :: p in firstIndex <==> p in partners
    requires forall p :: p in firstIndex ==> FirstWith(msgs, firstIndex[p], p, me)
    requires ThreadsBuilt(scan, me, msgs, partners, firstIndex, threads)
    ensures forall t :: t in threads ==> t.unreadCount == UnreadFrom(scan, t.partnerId, me) && LeadsThread(msgs, t, me)
  {
    forall t | t in threads
      ensures t.unreadCount == UnreadFrom(scan, t.partnerId, me) && LeadsThread(msgs, t, me)
    {
      var i :| 0 <= i < |threads| && threads[i] == t;
      assert partners[i] in partners;
      assert FirstWith(msgs, firstIndex[partners[i]], t.partnerId, me);
    }
  }

  /** Reordering threads with distinct partners keeps them distinct. */
  lemma ThreadsDistinctAfterSort(threads: seq<Thread>, sorted: seq<Thread>)
    requires forall i, j :: 0 <= i < j < |threads| ==> threads[i].partnerId != threads[j].partnerId
    requires multiset(sorted) == multiset(threads)
    ensures forall i, j :: 0 <= i < j < |sorted| ==> sorted[i].partnerId != sorted[j].partnerId
  {
    forall i, j | 0 <= i < j < |sorted|
      ensures sorted[i].partnerId != sorted[j].partnerId
    {
      assert sorted[i] in multiset(threads) && sorted[j] in multiset(threads);
      var a :| 0 <= a < |threads| && threads[a] == sorted[i];
      var b :| 0 <= b < |threads| && threads[b] == sorted[j];
      DistinctOccursOnce(threads, a);
      RepeatedValueCount(sorted, i, j);
      assert sorted[i] != sorted[j];
      assert a != b;
    }
  }

  /** In a sequence of threads with distinct partners each thread occurs once. */
  lemma DistinctOccursOnce(threads: seq<Thread>, a: int)
    requires forall i, j :: 0 <= i < j < |threads| ==> threads[i].partnerId != threads[j].partnerId
    requires 0 <= a < |threads|
    ensures multiset(threads)[threads[a]] == 1
  {
    var t := threads[a];
    assert threads == threads[..a] + [t] + threads[a + 1..];
    assert forall k :: 0 <= k < a ==> threads[..a][k] != t;
    var after := threads[a + 1..];
    assert forall k :: 0 <= k < |after| ==> after[k] != t;
    assert t !in threads[..a] && t !in threads[a + 1..];
  }

  // ---------------------------------------------------------------- the messages table

  class MessageStore {
    var messages: map<MessageId, Message>
    var nextId: MessageId

    /** Every row is stored under its own id, and ids are never reused. */
    ghost predicate Valid()
      reads this
    {
      forall id :: id in messages ==> messages[id].id == id && id < nextId
    }

    constructor ()
      ensures Valid() && messages == map[]
    {
      messages := map[];
      nextId := 0;
    }

    /**
     * `sendMessage`: the recipient must exist in `users` and suit the
     * sender's role; the new message is from the caller and unread.
     */
    method SendMessage(caller: Option<User>, users: map<UserId, User>, toId: UserId, content: string, now: int)
      returns (r: Result<MessageId>)
      requires Valid()
      modifies this
      ensures Valid()
      ensures caller.None? ==> r == Err("Unauthorized")
      ensures caller.Some? && toId !in users ==> r == Err("Recipient not found")
      ensures caller.Some? && toId in users && !MayMessage(caller.value.role, users[toId].role)
              ==> r == Err("Invalid recipient role")
      ensures r.Ok? <==> caller.Some? && toId in users && MayMessage(caller.value.role, users[toId].role)
      ensures r.Err? ==> messages == old(messages)
      ensures r.Ok? ==> r.value !in old(messages)
                        && messages == old(messages)[r.value := Message(r.value, caller.value.id, toId, content, now, false)]
    {
      if caller.None? {
        return Err("Unauthorized");
      }
      if toId !in users {
        return Err("Recipient not found");
      }
      var recipient := users[toId];
      if (caller.value.role == Patient && recipient.role != Caregiver)
         || (caller.value.role == Caregiver && recipient.role != Patient) {
        return Err("Invalid recipient role");
      }
      var id := nextId;
      messages := messages[id := Message(id, caller.value.id, toId, content, now, false)];
      nextId := nextId + 1;
      r := Ok(id);
    }

    /**
     * `markAsRead`: walks the listed messages, skipping missing ones and
     * refusing any addressed to someone else; the flags are written only
     * when the whole walk succeeds.
     */
    method MarkAsRead(caller: Option<User>, ids: seq<MessageId>) returns (r: Result<()>)
      requires Valid()
      modifies this
      ensures Valid() && nextId == old(nextId)
      ensures var spec := MarkedRead(caller, old(messages), ids);
              && (spec.Err? ==> r == Err(spec.message) && messages == old(messages))
              && (spec.Ok? ==> r == Ok(()) && messages == spec.value)
    {
      if caller.None? {
        return Err("Unauthorized");
      }
      var me := caller.value.id;
      var pending := messages;
      for k := 0 to |ids|
        invariant AllAddressedTo(messages, ids[..k], me)
        invariant pending == MarkAll(messages, ids[..k])
      {
        var id := ids[k];
        if id in messages {
          var m := messages[id];
          if m.toId != me {
            assert !AllAddressedTo(messages, ids, me);
            return Err("Cannot mark messages as read for other users");
          }
          pending := pending[id := m.(read := true)];
        }
        assert ids[..k + 1] == ids[..k] + [id];
      }
      assert ids[..|ids|] == ids;
      messages := pending;
      r := Ok(());
    }
  }
}

=== FILE: messages_page.dfy ===
/**
 * src/app/protected/messages/page.tsx: the conversation view. It sends the
 * composed message to the selected partner, and whenever the conversation is
 * (re)loaded it marks the messages addressed to the caller that are still
 * unread. Its `getInitials` is the one in the Initials module.
 */
module MessagesPage {
  import opened Common
  import opened Text
  import opened Seqs
  import opened Messages

  /** `msg.toId === user?._id && !msg.read`: with no signed-in user nothing matches. */
  predicate UnreadFor(m: Message, me: Option<UserId>)
  {
    me.Some? && m.toId == me.value && !m.read
  }

  /** `messages.filter(...).map(msg => msg._id)`. */
  function UnreadMessageIds(msgs: seq<Message>, me: Option<UserId>): (r: seq<MessageId>)
    ensures |r| <= |msgs|
    ensures forall id :: id in r <==> exists m :: m in msgs && m.id == id && UnreadFor(m, me)
  {
    var unread := Filter(msgs, (m: Message) => UnreadFor(m, me));
    var r := seq(|unread|, i requires 0 <= i < |unread| => unread[i].id);
    assert forall id :: id in r ==> exists m :: m in msgs && m.id == id && UnreadFor(m, me) by {
      forall id | id in r ensures exists m :: m in msgs && m.id == id && UnreadFor(m, me) {
        var i :| 0 <= i < |r| && r[i] == id;
        assert unread[i] in unread;
      }
    }
    assert forall m :: m in msgs && UnreadFor(m, me) ==> m.id in r by {
      forall m | m in msgs && UnreadFor(m, me) ensures m.id in r {
        var i :| 0 <= i < |unread| && unread[i] == m;
        assert r[i] == m.id;
      }
    }
    r
  }

  /**
   * The effect that runs when the conversation loads: the ids it passes to
   * `markAsRead`, or `None` when it makes no call. It calls only with a
   * loaded conversation, a selected partner and at least one unread message.
   */
  function MarkReadCall(msgs: Option<seq<Message>>, selected: Option<UserId>, me: Option<UserId>)
    : (r: Option<seq<MessageId>>)
    ensures r.Some? <==> msgs.Some? && selected.Some? && exists m :: m in msgs.value && UnreadFor(m, me)
    ensures r.Some? ==> r.value == UnreadMessageIds(msgs.value, me) && |r.value| > 0
  {
    if msgs.None? || selected.None? then None
    else
      var ids := UnreadMessageIds(msgs.value, me);
      assert |ids| > 0 <==> exists m :: m in msgs.value && UnreadFor(m, me) by {
        if |ids| > 0 {
          assert ids[0] in ids;
        }
        if exists m :: m in msgs.value && UnreadFor(m, me) {
          var m :| m in msgs.value && UnreadFor(m, me);
          assert m.id in ids;
        }
      }
      if |ids| > 0 then Some(ids) else None
  }

  /**
   * The ids the page sends always pass `markAsRead`'s ownership check, and
   * afterwards the caller has no unread message among them.
   */
  lemma {:induction false} PageMarkingSucceeds(caller: Option<User>, table: map<MessageId, Message>, msgs: seq<Message>)
    requires caller.Some?
    requires forall m :: m in msgs ==> m.id in table && table[m.id] == m
    ensures var ids := UnreadMessageIds(msgs, Some(caller.value.id));
            && MarkedRead(caller, table, ids).Ok?
            && forall m :: m in msgs && UnreadFor(m, Some(caller.value.id)) ==> MarkedRead(caller, table, ids).value[m.id].read
  {
    var me := caller.value.id;
    var ids := UnreadMessageIds(msgs, Some(me));
    forall i | 0 <= i < |ids| && ids[i] in table ensures table[ids[i]].toId == me {
      assert ids[i] in ids;
      var m :| m in msgs && m.id == ids[i] && UnreadFor(m, Some(me));
    }
    assert AllAddressedTo(table, ids, me);
  }

  /**
   * Once a conversation with the selected partner is loaded, either the
   * effect marks every unread message in it and `markAsRead` accepts the
   * call, or it makes no call because nothing in it is unread.
   */
  lemma {:induction false} LoadedConversationGetsRead(caller: Option<User>, table: map<MessageId, Message>,
                                                      msgs: seq<Message>, selected: UserId)
    requires caller.Some?
    requires forall m :: m in msgs ==> m.id in table && table[m.id] == m
    ensures var call := MarkReadCall(Some(msgs), Some(selected), Some(caller.value.id));
            && (call.Some? ==> MarkedRead(caller, table, call.value).Ok?
                               && forall m :: m in msgs ==> MarkedRead(caller, table, call.value).value[m.id].read
                                                            || m.toId != caller.value.id)
            && (call.None? ==> forall m :: m in msgs && m.toId == caller.value.id ==> m.read)
  {
    PageMarkingSucceeds(caller, table, msgs);
    var call := MarkReadCall(Some(msgs), Some(selected), Some(caller.value.id));
    if call.Some? {
      var after := MarkedRead(caller, table, call.value).value;
      forall m | m in msgs && m.toId == caller.value.id ensures after[m.id].read {
        if !m.read {
          assert UnreadFor(m, Some(caller.value.id));
        } else {
          assert after[m.id].(read := table[m.id].read) == table[m.id];
        }
      }
    } else {
      forall m | m in msgs && m.toId == caller.value.id ensures m.read {
        assert !UnreadFor(m, Some(caller.value.id));
      }
    }
  }

  /** The composer's state. */
  class Composer {
    var selectedUserId: Option<UserId>
    var messageContent: string
    var isSending: bool

    constructor ()
      ensures selectedUserId.None? && messageContent == "" && !isSending
    {
      selectedUserId := None;
      messageContent := "";
      isSending := false;
    }

    /**
     * `handleSendMessage`: nothing happens without a selected partner or with
     * a blank message; otherwise the trimmed text is sent, the input is
     * cleared only if the send succeeds, and the busy flag ends cleared.
     * `sent` is the mutation's outcome, `None` when none was sent.
     */
    method HandleSendMessage(store: MessageStore, caller: Option<User>, users: map<UserId, User>, now: int)
      returns (sent: Option<Result<MessageId>>)
      requires store.Valid()
      modifies this, store
      ensures store.Valid() && selectedUserId == old(selectedUserId)
      ensures sent.None? <==> old(selectedUserId).None? || Trim(old(messageContent)) == ""
      ensures sent.None? ==> messageContent == old(messageContent) && isSending == old(isSending)
                             && store.messages == old(store.messages)
      ensures sent.Some? ==> !isSending
      ensures sent.Some? && sent.value.Ok? ==>
                && messageContent == ""
                && caller.Some?
                && sent.value.value !in old(store.messages)
                && store.messages == old(store.messages)[sent.value.value :=
                     Message(sent.value.value, caller.value.id, old(selectedUserId).value, Trim(old(messageContent)), now, false)]
      ensures sent.Some? && sent.value.Err? ==> messageContent == old(messageContent) && store.messages == old(store.messages)
    {
      if selectedUserId.None? || Trim(messageContent) == "" {
        return None;
      }
      isSending := true;
      var outcome := store.SendMessage(caller, users, selectedUserId.value, Trim(messageContent), now);
      if outcome.Ok? {
        messageContent := "";
      }
      isSending := false;
      sent := Some(outcome);
    }
  }
}

=== FILE: patient_forms.dfy ===
/**
 * src/convex/patientForms.ts: the second forms table, scored with the
 * square-root priority score and carrying a pending/reviewed status that
 * caregivers set. The table is written and read by this file only; the
 * schema file does not declare it.
 */
module PatientForms {
  import opened Common
  import opened Seqs
  import opened Priority

  type PatientFormId = nat

  datatype FormStatus = Pending | Reviewed

  datatype PatientForm = PatientForm(
    id: PatientFormId,
    patientId: UserId,
    symptoms: string,
    severity: Severity,
    priorityScore: real,
    contactInfo: string,
    submissionDate: int,
    status: FormStatus)

  /** The optional fields of `updateForm`; `None` means not supplied. */
  datatype PatientFormPatch = PatientFormPatch(
    symptoms: Option<string>,
    severity: Option<Severity>,
    contactInfo: Option<string>,
    status: Option<FormStatus>)

  /**
   * The decision and the new row of `updateForm`. A patient must own the
   * form, the form must still be pending, and the patient may not supply a
   * status; no other role meets any guard. The score is recomputed from the
   * original submission date only when a severity is supplied.
   */
  function UpdatedForm(caller: Option<User>, table: map<PatientFormId, PatientForm>, id: PatientFormId,
                       patch: PatientFormPatch, now: int, sqrt: real -> real)
    : (r: Result<PatientForm>)
    ensures caller.None? ==> r == Err("Not authenticated")
    ensures caller.Some? && id !in table ==> r == Err("Form not found")
    ensures r.Ok? ==> caller.Some? && id in table
    ensures r.Ok? ==> r.value.id == table[id].id && r.value.patientId == table[id].patientId
                      && r.value.submissionDate == table[id].submissionDate
    ensures r.Ok? ==> r.value.severity == patch.severity.GetOr(table[id].severity)
                      && r.value.status == patch.status.GetOr(table[id].status)
                      && r.value.symptoms == patch.symptoms.GetOr(table[id].symptoms)
                      && r.value.contactInfo == patch.contactInfo.GetOr(table[id].contactInfo)
    ensures r.Ok? && patch.severity.None? ==> r.value.priorityScore == table[id].priorityScore
    ensures r.Ok? && patch.severity.Some? ==>
              r.value.priorityScore == SqrtScore(patch.severity.value, table[id].submissionDate, now, sqrt)
    ensures IsPatient(caller) && r.Ok? ==>
              table[id].patientId == caller.value.id && table[id].status == Pending && patch.status.None?
    ensures (IsPatient(caller) && id in table && table[id].patientId == caller.value.id
             && table[id].status == Pending && patch.status.None?) ==> r.Ok?
    ensures caller.Some? && caller.value.role != Patient && id in table ==> r.Ok?
  {
    if caller.None? then Err("Not authenticated")
    else if id !in table then Err("Form not found")
    else
      var f := table[id];
      if caller.value.role == Patient && f.patientId != caller.value.id then Err("Access denied")
      else if caller.value.role == Patient && f.status == Reviewed then Err("Cannot edit reviewed forms")
      else if caller.value.role == Patient && patch.status.Some? then Err("Patients cannot change form status")
      else
        assert caller.value.role == Patient ==> f.status == Pending;
        var score := if patch.severity.Some? then SqrtScore(patch.severity.value, f.submissionDate, now, sqrt)
                     else f.priorityScore;
        Ok(f.(symptoms := patch.symptoms.GetOr(f.symptoms),
              severity := patch.severity.GetOr(f.severity),
              contactInfo := patch.contactInfo.GetOr(f.contactInfo),
              status := patch.status.GetOr(f.status),
              priorityScore := score))
  }

  /** The patient guards, in the order they are checked. */
  lemma PatientGuards(caller: Option<User>, table: map<PatientFormId, PatientForm>, id: PatientFormId,
                      patch: PatientFormPatch, now: int, sqrt: real -> real)
    requires IsPatient(caller) && id in table
    ensures var r := UpdatedForm(caller, table, id, patch, now, sqrt);
            && (table[id].patientId != caller.value.id ==> r == Err("Access denied"))
            && (table[id].patientId == caller.value.id && table[id].status == Reviewed
                ==> r == Err("Cannot edit reviewed forms"))
            && (table[id].patientId == caller.value.id && table[id].status == Pending && patch.status.Some?
                ==> r == Err("Patients cannot change form status"))
  {
  }

  /** A patient's successful edit never changes the status: a reviewed form stays reviewed. */
  lemma PatientEditKeepsStatus(caller: Option<User>, table: map<PatientFormId, PatientForm>, id: PatientFormId,
                               patch: PatientFormPatch, now: int, sqrt: real -> real)
    requires IsPatient(caller)
    ensures var r := UpdatedForm(caller, table, id, patch, now, sqrt);
            r.Ok? ==> r.value.status == Pending && table[id].status == Pending
  {
  }

  /**
   * Every signed-in caller who is not a patient passes all guards, so it may
   * set the status in either direction, including back from reviewed to pending.
   */
  lemma NonPatientsMaySetAnyStatus(caller: Option<User>, table: map<PatientFormId, PatientForm>, id: PatientFormId,
                                   status: FormStatus, now: int, sqrt: real -> real)
    requires caller.Some? && caller.value.role != Patient && id in table
    ensures var r := UpdatedForm(caller, table, id, PatientFormPatch(None, None, None, Some(status)), now, sqrt);
            r.Ok? && r.value.status == status && r.value.priorityScore == table[id].priorityScore
  {
  }

  /**
   * A severity edit scores the form at least the new weight, whoever makes
   * it: the wait is counted from the original submission date, which is not
   * after `now`. A signed-in non-patient's severity edit always goes through.
   */
  lemma {:induction false} RecomputedScoreAtLeastWeight(caller: Option<User>, table: map<PatientFormId, PatientForm>,
                                                        id: PatientFormId, patch: PatientFormPatch, now: int,
                                                        sqrt: real -> real)
    requires SqrtLike(sqrt)
    requires id in table && table[id].submissionDate <= now && patch.severity.Some?
    ensures var r := UpdatedForm(caller, table, id, patch, now, sqrt);
            r.Ok? ==> r.value.priorityScore >= Weight(patch.severity.value) as real
    ensures caller.Some? && caller.value.role != Patient ==> UpdatedForm(caller, table, id, patch, now, sqrt).Ok?
  {
    SqrtScoreAtLeastWeight(patch.severity.value, table[id].submissionDate, now, sqrt);
  }

  /** `getFormById`: patients read only their own forms. */
  function GetFormById(caller: Option<User>, table: map<PatientFormId, PatientForm>, id: PatientFormId)
    : (r: Result<PatientForm>)
    ensures caller.None? ==> r == Err("Not authenticated")
    ensures caller.Some? && id !in table ==> r == Err("Form not found")
    ensures r.Ok? <==> caller.Some? && id in table
                       && (caller.value.role == Patient ==> table[id].patientId == caller.value.id)
    ensures r.Ok? ==> r.value == table[id]
    ensures r.Err? && caller.Some? && id in table ==> r.message == "Access denied"
  {
    if caller.None? then Err("Not authenticated")
    else if id !in table then Err("Form not found")
    else if caller.value.role == Patient && table[id].patientId != caller.value.id then Err("Access denied")
    else Ok(table[id])
  }

  /**
   * `getPatientForms`: a patient gets their own forms (from `byPatient`, the
   * `by_patient` index), a caregiver every form (from `byPriority`), any other
   * role an error.
   */
  function GetPatientForms(caller: Option<User>, byPatient: seq<PatientForm>, byPriority: seq<PatientForm>)
    : (r: Result<seq<PatientForm>>)
    ensures caller.None? ==> r == Err("Not authenticated")
    ensures caller.Some? && caller.value.role != Patient && caller.value.role != Caregiver ==> r == Err("Invalid role")
    ensures IsCaregiver(caller) ==> r == Ok(byPriority)
    ensures IsPatient(caller) ==> r.Ok? && IsSubsequence(r.value, byPatient)
                                  && forall f :: f in r.value <==> f in byPatient && f.patientId == caller.value.id
  {
    if caller.None? then Err("Not authenticated")
    else if caller.value.role == Patient then Ok(Filter(byPatient, (f: PatientForm) => f.patientId == caller.value.id))
    else if caller.value.role == Caregiver then Ok(byPriority)
    else Err("Invalid role")
  }

  /** `getFormsByStatus`: caregivers only; exactly the forms with the requested status. */
  function GetFormsByStatus(caller: Option<User>, scan: seq<PatientForm>, status: FormStatus)
    : (r: Result<seq<PatientForm>>)
    ensures caller.None? ==> r == Err("Not authenticated")
    ensures caller.Some? && caller.value.role != Caregiver ==> r == Err("Access denied")
    ensures r.Ok? <==> IsCaregiver(caller)
    ensures r.Ok? ==> IsSubsequence(r.value, scan) && forall f :: f in r.value <==> f in scan && f.status == status
  {
    if caller.None? then Err("Not authenticated")
    else if caller.value.role != Caregiver then Err("Access denied")
    else Ok(Filter(scan, (f: PatientForm) => f.status == status))
  }

  /** `getFormsByPatientId`: caregivers only; all forms of one patient. */
  function GetFormsByPatientId(caller: Option<User>, scan: seq<PatientForm>, patientId: UserId)
    : (r: Result<seq<PatientForm>>)
    ensures caller.None? ==> r == Err("Not authenticated")
    ensures caller.Some? && caller.value.role != Caregiver ==> r == Err("Access denied")
    ensures r.Ok? <==> IsCaregiver(caller)
    ensures r.Ok? ==> IsSubsequence(r.value, scan) && forall f :: f in r.value <==> f in scan && f.patientId == patientId
  {
    if caller.None? then Err("Not authenticated")
    else if caller.value.role != Caregiver then Err("Access denied")
    else Ok(Filter(scan, (f: PatientForm) => f.patientId == patientId))
  }

  /** Pending and reviewed forms together are all the forms, each once. */
  lemma StatusListingsPartition(caller: Option<User>, scan: seq<PatientForm>)
    requires IsCaregiver(caller)
    ensures multiset(GetFormsByStatus(caller, scan, Pending).value) + multiset(GetFormsByStatus(caller, scan, Reviewed).value)
            == multiset(scan)
  {
    FilterComplement(scan, (f: PatientForm) => f.status == Pending, (f: PatientForm) => f.status == Reviewed);
  }

  class PatientFormStore {
    var forms: map<PatientFormId, PatientForm>
    var nextId: PatientFormId
    /** `Math.sqrt` of the running platform. */
    const sqrt: real -> real

    /** Every row is stored under its own id, and ids are never reused. */
    ghost predicate Valid()
      reads this
    {
      forall id :: id in forms ==> forms[id].id == id && id < nextId
    }

    constructor (sqrt: real -> real)
      ensures Valid() && forms == map[] && this.sqrt == sqrt
    {
      forms := map[];
      nextId := 0;
      this.sqrt := sqrt;
    }

    /** `createForm`: patients only; a new form is pending and scored from its own submission date. */
    method CreateForm(caller: Option<User>, symptoms: string, severity: Severity, contactInfo: string, now: int)
      returns (r: Result<PatientFormId>)
      requires Valid()
      modifies this
      ensures Valid()
      ensures caller.None? ==> r == Err("Not authenticated")
      ensures caller.Some? && caller.value.role != Patient ==> r == Err("Only patients can create forms")
      ensures r.Ok? <==> IsPatient(caller)
      ensures r.Err? ==> forms == old(forms)
      ensures r.Ok? ==> r.value !in old(forms)
                        && forms == old(forms)[r.value := PatientForm(r.value, caller.value.id, symptoms, severity,
                                                                      SqrtScore(severity, now, now, sqrt),
                                                                      contactInfo, now, Pending)]
    {
      if caller.None? {
        return Err("Not authenticated");
      }
      if caller.value.role != Patient {
        return Err("Only patients can create forms");
      }
      var id := nextId;
      var score := SqrtScore(severity, now, now, sqrt);
      forms := forms[id := PatientForm(id, caller.value.id, symptoms, severity, score, contactInfo, now, Pending)];
      nextId := nextId + 1;
      r := Ok(id);
    }

    /** `updateForm`: guards first, then the score, then the patch. */
    method UpdateForm(caller: Option<User>, id: PatientFormId, patch: PatientFormPatch, now: int)
      returns (r: Result<PatientFormId>)
      requires Valid()
      modifies this
      ensures Valid() && nextId == old(nextId)
      ensures var u := UpdatedForm(caller, old(forms), id, patch, now, sqrt);
              && (u.Err? ==> r == Err(u.message) && forms == old(forms))
              && (u.Ok? ==> r == Ok(id) && forms == old(forms)[id := u.value])
    {
      if caller.None? {
        return Err("Not authenticated");
      }
      if id !in forms {
        return Err("Form not found");
      }
      var form := forms[id];
      if caller.value.role == Patient {
        if form.patientId != caller.value.id {
          return Err("Access denied");
        }
        if form.status == Reviewed {
          return Err("Cannot edit reviewed forms");
        }
        if patch.status.Some? {
          return Err("Patients cannot change form status");
        }
      }
      var priorityScore := form.priorityScore;
      if patch.severity.Some? {
        priorityScore := SqrtScore(patch.severity.value, form.submissionDate, now, sqrt);
      }
      forms := forms[id := form.(symptoms := patch.symptoms.GetOr(form.symptoms),
                                 severity := patch.severity.GetOr(form.severity),
                                 contactInfo := patch.contactInfo.GetOr(form.contactInfo),
                                 status := patch.status.GetOr(form.status),
                                 priorityScore := priorityScore)];
      r := Ok(id);
    }
  }
}

=== FILE: patient_list.dfy ===
/**
 * src/components/caregiver/PatientList.tsx: the status filter applied to the
 * patients the caregiver query returns. "all" and any unknown value keep
 * everyone; "pending" and "reviewed" keep the patients whose latest form has
 * that status; "noforms" keeps the patients without a form.
 */
module PatientList {
  import opened Common
  import opened Seqs
  import opened Caseload

  /** The filter callback, one branch per status value. */
  predicate ShownUnder(p: PatientRow, statusFilter: string)
  {
    if statusFilter == "all" then true
    else if statusFilter == "pending" then p.latestForm.Some? && p.latestForm.value.status == "pending"
    else if statusFilter == "reviewed" then p.latestForm.Some? && p.latestForm.value.status == "reviewed"
    else if statusFilter == "noforms" then p.latestForm.None?
    else true
  }

  predicate KnownFilter(statusFilter: string)
  {
    statusFilter == "pending" || statusFilter == "reviewed" || statusFilter == "noforms"
  }

  /** `patients.filter(...)`: the patients shown, in the order the query returned them. */
  function FilterByStatus(patients: seq<PatientRow>, statusFilter: string): (r: seq<PatientRow>)
    ensures IsSubsequence(r, patients)
    ensures !KnownFilter(statusFilter) ==> r == patients
    ensures statusFilter == "pending" || statusFilter == "reviewed" ==>
              forall p :: p in r <==> p in patients && p.latestForm.Some? && p.latestForm.value.status == statusFilter
    ensures statusFilter == "noforms" ==> forall p :: p in r <==> p in patients && p.latestForm.None?
  {
    var keep := (p: PatientRow) => ShownUnder(p, statusFilter);
    if !KnownFilter(statusFilter) then
      FilterKeepsAll(patients, keep);
      Filter(patients, keep)
    else Filter(patients, keep)
  }

  predicate HasForm(p: PatientRow) { p.latestForm.Some? }
  predicate NoForm(p: PatientRow) { p.latestForm.None? }
  predicate PendingForm(p: PatientRow) { p.latestForm.Some? && p.latestForm.value.status == "pending" }
  predicate ReviewedForm(p: PatientRow) { p.latestForm.Some? && p.latestForm.value.status == "reviewed" }

  /** A status view is the filter by any predicate that agrees with its branch. */
  lemma {:induction false} StatusViewIs(patients: seq<PatientRow>, statusFilter: string, q: PatientRow -> bool)
    requires forall p :: ShownUnder(p, statusFilter) <==> q(p)
    ensures FilterByStatus(patients, statusFilter) == Filter(patients, q)
  {
    FilterExtensional(patients, (p: PatientRow) => ShownUnder(p, statusFilter), q);
  }

  /** Pending, reviewed and form-less patients split the list when no other status occurs. */
  lemma FormStatesSplit(patients: seq<PatientRow>)
    requires forall p :: p in patients && p.latestForm.Some? ==>
               p.latestForm.value.status == "pending" || p.latestForm.value.status == "reviewed"
    ensures multiset(Filter(patients, PendingForm)) + multiset(Filter(patients, ReviewedForm))
            + multiset(Filter(patients, NoForm)) == multiset(patients)
  {
    forall p | p in patients
      ensures ExactlyOne(PendingForm(p), ReviewedForm(p), NoForm(p))
    {
    }
    FilterThreeWay(patients, PendingForm, ReviewedForm, NoForm);
  }

  /**
   * When every latest form is either pending or reviewed, the "pending",
   * "reviewed" and "noforms" views split the patients between them: each
   * patient appears in exactly one, as often as in the fetched list.
   */
  lemma {:induction false} StatusViewsPartition(patients: seq<PatientRow>)
    requires forall p :: p in patients && p.latestForm.Some? ==>
               p.latestForm.value.status == "pending" || p.latestForm.value.status == "reviewed"
    ensures multiset(FilterByStatus(patients, "pending")) + multiset(FilterByStatus(patients, "reviewed"))
            + multiset(FilterByStatus(patients, "noforms")) == multiset(patients)
  {
    StatusViewIs(patients, "pending", PendingForm);
    StatusViewIs(patients, "reviewed", ReviewedForm);
    StatusViewIs(patients, "noforms", NoForm);
    FormStatesSplit(patients);
  }
}

=== FILE: patients.dfy ===
/**
 * src/convex/patients.ts: the patient profile kept beside a patient's user
 * document, its create-or-update mutation and the merged view caregivers read.
 *
 * The profiles table is keyed here by the owning user's id: the `by_userId`
 * lookups expect at most one profile per user, and the upsert below is the
 * only writer, so it never creates a second one.
 */
module Patients {
  import opened Common

  type ProfileId = nat

  /** A document of the users table, as far as the merge reads it. */
  datatype UserDoc = UserDoc(id: UserId, name: Option<string>, email: Option<string>, role: Role)

  datatype Profile = Profile(
    id: ProfileId,
    userId: UserId,
    dateOfBirth: Option<string>,
    phone: Option<string>,
    address: Option<string>,
    medicalHistory: Option<string>,
    emergencyContact: Option<string>,
    insuranceInformation: Option<string>,
    priorityScore: real,
    assignedCaregiverIds: seq<UserId>)

  /** The optional arguments of `updateMyPatientProfile`; `None` means not supplied. */
  datatype ProfilePatch = ProfilePatch(
    dateOfBirth: Option<string>,
    phone: Option<string>,
    address: Option<string>,
    medicalHistory: Option<string>,
    emergencyContact: Option<string>,
    insuranceInformation: Option<string>)

  function Or<T>(patched: Option<T>, kept: Option<T>): Option<T>
  {
    if patched.Some? then patched else kept
  }

  /** A supplied value replaces the field; an absent one leaves it as it was. */
  predicate Overwrites<T(==)>(patched: Option<T>, kept: Option<T>, result: Option<T>)
  {
    (patched.Some? ==> result == patched) && (patched.None? ==> result == kept)
  }

  /** Patching an existing profile: supplied fields overwrite, the rest (score, caregivers) stay. */
  function PatchProfile(p: Profile, patch: ProfilePatch): (r: Profile)
    ensures r.id == p.id && r.userId == p.userId
    ensures r.priorityScore == p.priorityScore && r.assignedCaregiverIds == p.assignedCaregiverIds
    ensures Overwrites(patch.dateOfBirth, p.dateOfBirth, r.dateOfBirth) && Overwrites(patch.phone, p.phone, r.phone)
    ensures Overwrites(patch.address, p.address, r.address)
            && Overwrites(patch.medicalHistory, p.medicalHistory, r.medicalHistory)
    ensures Overwrites(patch.emergencyContact, p.emergencyContact, r.emergencyContact)
            && Overwrites(patch.insuranceInformation, p.insuranceInformation, r.insuranceInformation)
  {
    p.(dateOfBirth := Or(patch.dateOfBirth, p.dateOfBirth),
       phone := Or(patch.phone, p.phone),
       address := Or(patch.address, p.address),
       medicalHistory := Or(patch.medicalHistory, p.medicalHistory),
       emergencyContact := Or(patch.emergencyContact, p.emergencyContact),
       insuranceInformation := Or(patch.insuranceInformation, p.insuranceInformation))
  }

  /** Inserting a first profile: the supplied fields, a zero score and no caregivers. */
  function NewProfile(id: ProfileId, userId: UserId, patch: ProfilePatch): (r: Profile)
    ensures r.id == id && r.userId == userId
    ensures r.priorityScore == 0.0 && r.assignedCaregiverIds == []
    ensures r.dateOfBirth == patch.dateOfBirth && r.phone == patch.phone && r.address == patch.address
    ensures r.medicalHistory == patch.medicalHistory && r.emergencyContact == patch.emergencyContact
            && r.insuranceInformation == patch.insuranceInformation
  {
    Profile(id, userId, patch.dateOfBirth, patch.phone, patch.address, patch.medicalHistory,
            patch.emergencyContact, patch.insuranceInformation, 0.0, [])
  }

  /** The profiles table after the upsert of `userId`; `freshId` is the id an insert would receive. */
  function Upserted(profiles: map<UserId, Profile>, userId: UserId, patch: ProfilePatch, freshId: ProfileId)
    : (r: map<UserId, Profile>)
    ensures userId in r && r.Keys == profiles.Keys + {userId}
    ensures forall u :: u in profiles && u != userId ==> r[u] == profiles[u]
    ensures userId in profiles ==> r[userId] == PatchProfile(profiles[userId], patch)
    ensures userId !in profiles ==> r[userId] == NewProfile(freshId, userId, patch)
  {
    if userId in profiles then profiles[userId := PatchProfile(profiles[userId], patch)]
    else profiles[userId := NewProfile(freshId, userId, patch)]
  }

  /** Repeating the same upsert changes nothing more. */
  lemma UpsertIdempotent(profiles: map<UserId, Profile>, userId: UserId, patch: ProfilePatch,
                         freshId1: ProfileId, freshId2: ProfileId)
    ensures var once := Upserted(profiles, userId, patch, freshId1);
            Upserted(once, userId, patch, freshId2) == once
  {
    var once := Upserted(profiles, userId, patch, freshId1);
    assert PatchProfile(once[userId], patch) == once[userId];
  }

  /** `getMyPatientProfile`: a non-patient gets null rather than an error. */
  function GetMyPatientProfile(caller: Option<User>, profiles: map<UserId, Profile>): (r: Result<Option<Profile>>)
    ensures caller.None? ==> r == Err("User not authenticated")
    ensures caller.Some? && caller.value.role != Patient ==> r == Ok(None)
    ensures IsPatient(caller) ==> r.Ok? && (r.value.Some? <==> caller.value.id in profiles)
    ensures r.Ok? && r.value.Some? ==> caller.value.id in profiles && r.value.value == profiles[caller.value.id]
  {
    if caller.None? then Err("User not authenticated")
    else if caller.value.role != Patient then Ok(None)
    else if caller.value.id in profiles then Ok(Some(profiles[caller.value.id]))
    else Ok(None)
  }

  /** After an upsert the patient reads back a profile carrying every supplied field. */
  lemma UpsertThenRead(caller: Option<User>, profiles: map<UserId, Profile>, patch: ProfilePatch, freshId: ProfileId)
    requires IsPatient(caller)
    ensures var r := GetMyPatientProfile(caller, Upserted(profiles, caller.value.id, patch, freshId));
            && r.Ok? && r.value.Some?
            && (patch.dateOfBirth.Some? ==> r.value.value.dateOfBirth == patch.dateOfBirth)
            && (patch.phone.Some? ==> r.value.value.phone == patch.phone)
            && (patch.address.Some? ==> r.value.value.address == patch.address)
            && (patch.medicalHistory.Some? ==> r.value.value.medicalHistory == patch.medicalHistory)
            && (patch.emergencyContact.Some? ==> r.value.value.emergencyContact == patch.emergencyContact)
            && (patch.insuranceInformation.Some? ==> r.value.value.insuranceInformation == patch.insuranceInformation)
  {
  }

  /**
   * The merged record of `getPatientByUserId`: the user's fields, then the
   * profile's on top, then `userId`. The profile's document id replaces the
   * user's.
   */
  datatype PatientDetails = PatientDetails(
    docId: nat,
    name: Option<string>,
    email: Option<string>,
    role: Role,
    profile: Profile,
    userId: UserId)

  /** `getPatientByUserId`: null unless the user exists, is a patient and has a profile. */
  function GetPatientByUserId(users: map<UserId, UserDoc>, profiles: map<UserId, Profile>, userId: UserId)
    : (r: Option<PatientDetails>)
    ensures r.Some? <==> userId in users && users[userId].role == Patient && userId in profiles
    ensures r.Some? ==> && r.value.docId == profiles[userId].id
                        && r.value.userId == users[userId].id
                        && r.value.name == users[userId].name && r.value.email == users[userId].email
                        && r.value.profile == profiles[userId]
  {
    if userId !in users || users[userId].role != Patient then None
    else if userId !in profiles then None
    else
      var u := users[userId];
      Some(PatientDetails(profiles[userId].id, u.name, u.email, u.role, profiles[userId], u.id))
  }

  class PatientStore {
    var profiles: map<UserId, Profile>
    var nextId: ProfileId

    /** Each profile is filed under its user, and profile ids are never reused. */
    ghost predicate Valid()
      reads this
    {
      forall u :: u in profiles ==> profiles[u].userId == u && profiles[u].id < nextId
    }

    constructor ()
      ensures Valid() && profiles == map[]
    {
      profiles := map[];
      nextId := 0;
    }

    /** `updateMyPatientProfile`: patients only; patches the caller's profile or inserts the first one. */
    method UpdateMyPatientProfile(caller: Option<User>, patch: ProfilePatch) returns (r: Result<()>)
      requires Valid()
      modifies this
      ensures Valid()
      ensures caller.None? ==> r == Err("User not authenticated")
      ensures caller.Some? && caller.value.role != Patient ==> r == Err("User is not a patient")
      ensures r.Ok? <==> IsPatient(caller)
      ensures r.Err? ==> profiles == old(profiles)
      ensures r.Ok? ==> profiles == Upserted(old(profiles), caller.value.id, patch, old(nextId))
    {
      if caller.None? {
        return Err("User not authenticated");
      }
      if caller.value.role != Patient {
        return Err("User is not a patient");
      }
      var me := caller.value.id;
      if me in profiles {
        profiles := profiles[me := PatchProfile(profiles[me], patch)];
      } else {
        profiles := profiles[me := NewProfile(nextId, me, patch)];
        nextId := nextId + 1;
      }
      r := Ok(());
    }
  }
}

=== FILE: prescriptions.dfy ===
/**
 * src/convex/prescriptions.ts: prescriptions written by caregivers, and the
 * refill counter that patients spend one request at a time.
 */
module Prescriptions {
  import opened Common
  import opened Seqs

  type PrescriptionId = nat

  datatype Prescription = Prescription(
    id: PrescriptionId,
    patientId: UserId,
    medicationName: string,
    dosage: string,
    refillsRemaining: int,
    prescribedBy: UserId,
    prescribedAt: int)

  // ---------------------------------------------------------------- the refill counter

  /** One refill request against a counter: refused at zero or below, otherwise one less. */
  function Refill(count: int): (r: Result<int>)
    ensures r.Ok? <==> count > 0
    ensures r.Ok? ==> r.value == count - 1 && r.value >= 0
    ensures r.Err? ==> r.message == "No refills remaining"
  {
    if count <= 0 then Err("No refills remaining") else Ok(count - 1)
  }

  /** `n` refill requests in a row: the final counter and how many of them succeeded. */
  function RequestRefills(count: int, n: nat): (int, nat)
  {
    if n == 0 then (count, 0)
    else
      match Refill(count)
      case Err(_) => RequestRefills(count, n - 1)
      case Ok(next) =>
        var (final, granted) := RequestRefills(next, n - 1);
        (final, granted + 1)
  }

  /**
   * From `count` refills, `n` requests grant at most `count` of them: exactly
   * min(n, count) succeed and the counter ends at count − granted, never below
   * zero. A counter that starts below zero grants nothing and stays put.
   */
  lemma {:induction false} RefillBudget(count: int, n: nat)
    ensures count >= 0 ==> RequestRefills(count, n) == (count - Min(n, count), Min(n, count))
    ensures count < 0 ==> RequestRefills(count, n) == (count, 0)
  {
    if n > 0 {
      if count > 0 {
        RefillBudget(count - 1, n - 1);
      } else {
        RefillBudget(count, n - 1);
      }
    }
  }

  // ---------------------------------------------------------------- queries

  /** The read rule of `getPrescriptionById`: a patient their own, a caregiver those they prescribed. */
  predicate MayView(user: User, p: Prescription)
  {
    !(user.role == Patient && p.patientId != user.id) && !(user.role == Caregiver && p.prescribedBy != user.id)
  }

  /** `getPrescriptionById`. */
  function GetPrescriptionById(caller: Option<User>, table: map<PrescriptionId, Prescription>, id: PrescriptionId)
    : (r: Result<Prescription>)
    ensures caller.None? ==> r == Err("Unauthorized")
    ensures caller.Some? && id !in table ==> r == Err("Prescription not found")
    ensures r.Ok? <==> caller.Some? && id in table
                       && (caller.value.role == Patient ==> table[id].patientId == caller.value.id)
                       && (caller.value.role == Caregiver ==> table[id].prescribedBy == caller.value.id)
    ensures r.Ok? ==> r.value == table[id]
    ensures r.Err? && caller.Some? && id in table ==> r.message == "Unauthorized"
  {
    if caller.None? then Err("Unauthorized")
    else if id !in table then Err("Prescription not found")
    else if !MayView(caller.value, table[id]) then Err("Unauthorized")
    else Ok(table[id])
  }

  /** `getPatientPrescriptions`: patients only; their own prescriptions. */
  function GetPatientPrescriptions(caller: Option<User>, scan: seq<Prescription>): (r: Result<seq<Prescription>>)
    ensures r.Err? <==> !IsPatient(caller)
    ensures r.Err? ==> r.message == "Unauthorized"
    ensures r.Ok? ==> IsSubsequence(r.value, scan)
                      && forall p :: p in r.value <==> p in scan && p.patientId == caller.value.id
  {
    if !IsPatient(caller) then Err("Unauthorized")
    else Ok(Filter(scan, (p: Prescription) => p.patientId == caller.value.id))
  }

  /** `getCaregiverPrescriptions`: caregivers only; what they prescribed, for one patient if one is named. */
  function GetCaregiverPrescriptions(caller: Option<User>, scan: seq<Prescription>, patientId: Option<UserId>)
    : (r: Result<seq<Prescription>>)
    ensures r.Err? <==> !IsCaregiver(caller)
    ensures r.Err? ==> r.message == "Unauthorized"
    ensures r.Ok? ==> IsSubsequence(r.value, scan)
    ensures r.Ok? ==> forall p :: p in r.value <==>
                        p in scan && p.prescribedBy == caller.value.id
                        && (patientId.Some? ==> p.patientId == patientId.value)
  {
    if !IsCaregiver(caller) then Err("Unauthorized")
    else
      var mine := Filter(scan, (p: Prescription) => p.prescribedBy == caller.value.id);
      if patientId.Some? then
        var theirs := Filter(mine, (p: Prescription) => p.patientId == patientId.value);
        SubsequenceTransitive(theirs, mine, scan);
        Ok(theirs)
      else Ok(mine)
  }

  /** `getPrescriptionsByPatientId`: caregivers only; every prescription of the patient, whoever wrote it. */
  function GetPrescriptionsByPatientId(caller: Option<User>, scan: seq<Prescription>, patientId: UserId)
    : (r: Result<seq<Prescription>>)
    ensures r.Err? <==> !IsCaregiver(caller)
    ensures r.Err? ==> r.message == "Unauthorized"
    ensures r.Ok? ==> IsSubsequence(r.value, scan)
                      && forall p :: p in r.value <==> p in scan && p.patientId == patientId
  {
    if !IsCaregiver(caller) then Err("Unauthorized")
    else Ok(Filter(scan, (p: Prescription) => p.patientId == patientId))
  }

  // ---------------------------------------------------------------- the prescriptions table

  class PrescriptionStore {
    var prescriptions: map<PrescriptionId, Prescription>
    var nextId: PrescriptionId

    /** Every row is stored under its own id, and ids are never reused. */
    ghost predicate Valid()
      reads this
    {
      forall id :: id in prescriptions ==> prescriptions[id].id == id && id < nextId
    }

    constructor ()
      ensures Valid() && prescriptions == map[]
    {
      prescriptions := map[];
      nextId := 0;
    }

    /** `createPrescription`: caregivers only; the caller is recorded as the prescriber. */
    method CreatePrescription(caller: Option<User>, patientId: UserId, medicationName: string, dosage: string,
                              refillsRemaining: int, now: int)
      returns (r: Result<PrescriptionId>)
      requires Valid()
      modifies this
      ensures Valid()
      ensures r.Ok? <==> IsCaregiver(caller)
      ensures r.Err? ==> r.message == "Only caregivers can create prescriptions" && prescriptions == old(prescriptions)
      ensures r.Ok? ==> r.value !in old(prescriptions)
                        && prescriptions == old(prescriptions)[r.value := Prescription(r.value, patientId, medicationName,
                                                                                       dosage, refillsRemaining,
                                                                                       caller.value.id, now)]
    {
      if !IsCaregiver(caller) {
        return Err("Only caregivers can create prescriptions");
      }
      var id := nextId;
      prescriptions := prescriptions[id := Prescription(id, patientId, medicationName, dosage, refillsRemaining,
                                                        caller.value.id, now)];
      nextId := nextId + 1;
      r := Ok(id);
    }

    /** `updateRefills`: only the prescribing caregiver; sets the counter to the given value and nothing else. */
    method UpdateRefills(caller: Option<User>, id: PrescriptionId, refillsRemaining: int)
      returns (r: Result<Prescription>)
      requires Valid()
      modifies this
      ensures Valid() && nextId == old(nextId)
      ensures !IsCaregiver(caller) ==> r == Err("Only caregivers can update refills")
      ensures IsCaregiver(caller) && id !in old(prescriptions) ==> r == Err("Prescription not found")
      ensures r.Ok? <==> IsCaregiver(caller) && id in old(prescriptions)
                         && old(prescriptions)[id].prescribedBy == caller.value.id
      ensures r.Err? && IsCaregiver(caller) && id in old(prescriptions) ==> r.message == "Unauthorized"
      ensures r.Ok? ==> r.value == old(prescriptions)[id].(refillsRemaining := refillsRemaining)
                        && prescriptions == old(prescriptions)[id := r.value]
      ensures r.Err? ==> prescriptions == old(prescriptions)
    {
      if !IsCaregiver(caller) {
        return Err("Only caregivers can update refills");
      }
      if id !in prescriptions {
        return Err("Prescription not found");
      }
      var p := prescriptions[id];
      if p.prescribedBy != caller.value.id {
        return Err("Unauthorized");
      }
      var updated := p.(refillsRemaining := refillsRemaining);
      prescriptions := prescriptions[id := updated];
      r := Ok(updated);
    }

    /**
     * `requestRefill`: only the patient the prescription is for, and only
     * while refills remain; a granted request spends exactly one refill.
     */
    method RequestRefill(caller: Option<User>, id: PrescriptionId) returns (r: Result<Prescription>)
      requires Valid()
      modifies this
      ensures Valid() && nextId == old(nextId)
      ensures !IsPatient(caller) ==> r == Err("Only patients can request refills")
      ensures IsPatient(caller) && id !in old(prescriptions) ==> r == Err("Prescription not found")
      ensures IsPatient(caller) && id in old(prescriptions) && old(prescriptions)[id].patientId != caller.value.id
              ==> r == Err("Unauthorized")
      ensures IsPatient(caller) && id in old(prescriptions) && old(prescriptions)[id].patientId == caller.value.id
              ==> (r.Ok? <==> Refill(old(prescriptions)[id].refillsRemaining).Ok?)
                  && (r.Err? ==> r.message == Refill(old(prescriptions)[id].refillsRemaining).message)
      ensures r.Ok? ==> r.value == old(prescriptions)[id].(refillsRemaining := Refill(old(prescriptions)[id].refillsRemaining).value)
                        && prescriptions == old(prescriptions)[id := r.value]
      ensures r.Err? ==> prescriptions == old(prescriptions)
    {
      if !IsPatient(caller) {
        return Err("Only patients can request refills");
      }
      if id !in prescriptions {
        return Err("Prescription not found");
      }
      var p := prescriptions[id];
      if p.patientId != caller.value.id {
        return Err("Unauthorized");
      }
      if p.refillsRemaining <= 0 {
        return Err("No refills remaining");
      }
      var updated := p.(refillsRemaining := p.refillsRemaining - 1);
      prescriptions := prescriptions[id := updated];
      r := Ok(updated);
    }
  }
}

=== FILE: prescriptions_page.dfy ===
/**
 * src/app/protected/prescriptions/page.tsx: the prescription views. A patient
 * sees a refill badge and a refill action per prescription; a caregiver picks
 * a patient from a searchable list and sees that patient's prescriptions
 * under a title naming them.
 */
module PrescriptionsPage {
  import opened Common
  import opened Text
  import opened Prescriptions

  /** A row of `getAllPatients` as the page reads it. */
  datatype PatientEntry = PatientEntry(id: UserId, name: Option<string>, email: Option<string>)

  /** The refill action is offered only while refills remain. */
  predicate CanRequestRefill(p: Prescription)
  {
    p.refillsRemaining > 0
  }

  /** Offering the action agrees with what `requestRefill` would accept for the counter. */
  lemma RefillOfferedIffAccepted(p: Prescription)
    ensures CanRequestRefill(p) <==> Refill(p.refillsRemaining).Ok?
  {
  }

  /** The refills badge: "<n> remaining" while refills remain, "No refills" otherwise. */
  function RefillBadge(count: int): (r: string)
    ensures count > 0 ==> r == ShowNat(count) + " remaining"
    ensures count <= 0 ==> r == "No refills"
  {
    if count > 0 then ShowNat(count) + " remaining" else "No refills"
  }

  /** The number a "remaining" badge shows reads back as the counter. */
  lemma {:induction false} RefillBadgeShowsCount(count: int)
    requires count > 0
    ensures var badge := RefillBadge(count);
            |badge| > |" remaining"| && ToNumber(badge[..|badge| - |" remaining"|]) == Some(count)
  {
    var badge := RefillBadge(count);
    assert badge[..|badge| - |" remaining"|] == ShowNat(count);
    ShowNatRoundTrip(count);
  }

  /** `patients.find(p => p._id === id)`: the first patient with that id. */
  function FindPatient(patients: seq<PatientEntry>, id: UserId): (r: Option<PatientEntry>)
    ensures r.None? <==> forall p :: p in patients ==> p.id != id
    ensures r.Some? ==> exists i :: 0 <= i < |patients| && patients[i] == r.value && r.value.id == id
                                      && forall j :: 0 <= j < i ==> patients[j].id != id
    decreases |patients|
  {
    if patients == [] then None
    else if patients[0].id == id then Some(patients[0])
    else
      var r := FindPatient(patients[1..], id);
      if r.Some? then
        ghost var i :| 0 <= i < |patients[1..]| && patients[1..][i] == r.value && r.value.id == id
                       && forall j :: 0 <= j < i ==> patients[1..][j].id != id;
        assert patients[i + 1] == r.value;
        r
      else
        assert forall p :: p in patients ==> p == patients[0] || p in patients[1..];
        r
  }

  /** The caregiver's card title, falling back to "Patient" for an unknown id or an empty name. */
  function CardTitle(selected: Option<UserId>, patients: seq<PatientEntry>): (r: string)
    ensures selected.None? ==> r == "Select a patient to view prescriptions"
    ensures selected.Some? && (forall p :: p in patients ==> p.id != selected.value)
            ==> r == "Prescriptions for Patient"
    ensures selected.Some? ==> exists name :: name != "" && r == "Prescriptions for " + name
    ensures selected.Some? && FindPatient(patients, selected.value).Some?
            && FindPatient(patients, selected.value).value.name.Some?
            && FindPatient(patients, selected.value).value.name.value != ""
            ==> r == "Prescriptions for " + FindPatient(patients, selected.value).value.name.value
    ensures selected.Some? && FindPatient(patients, selected.value).Some?
            && FindPatient(patients, selected.value).value.name.GetOr("") == ""
            ==> r == "Prescriptions for Patient"
  {
    if selected.None? then "Select a patient to view prescriptions"
    else
      var found := FindPatient(patients, selected.value);
      var name := if found.Some? && found.value.name.Some? && found.value.name.value != "" then found.value.name.value
                  else "Patient";
      "Prescriptions for " + name
  }

  /** The page state `handleRequestRefill` works on. */
  class RefillDialog {
    var refillPrescriptionId: Option<PrescriptionId>
    var isRefilling: bool

    constructor ()
      ensures refillPrescriptionId.None? && !isRefilling
    {
      refillPrescriptionId := None;
      isRefilling := false;
    }

    /** Opening the dialog of a prescription selects it. */
    method Open(id: PrescriptionId)
      modifies this
      ensures refillPrescriptionId == Some(id) && isRefilling == old(isRefilling)
    {
      refillPrescriptionId := Some(id);
    }

    /**
     * `handleRequestRefill`: without a selection nothing happens; otherwise
     * the selected prescription's refill is requested, the selection is
     * cleared only if the request succeeds, and the busy flag ends cleared.
     * `sent` is the mutation's outcome, `None` when none was sent.
     */
    method HandleRequestRefill(store: PrescriptionStore, caller: Option<User>) returns (sent: Option<Result<Prescription>>)
      requires store.Valid()
      modifies this, store
      ensures store.Valid()
      ensures sent.None? <==> old(refillPrescriptionId).None?
      ensures sent.None? ==> refillPrescriptionId == old(refillPrescriptionId) && isRefilling == old(isRefilling)
                             && store.prescriptions == old(store.prescriptions)
      ensures sent.Some? ==> !isRefilling
      ensures sent.Some? && sent.value.Ok? ==> refillPrescriptionId.None?
      ensures sent.Some? && sent.value.Err? ==> refillPrescriptionId == old(refillPrescriptionId)
                                                && store.prescriptions == old(store.prescriptions)
      ensures sent.Some? && sent.value.Ok? ==>
                var id := old(refillPrescriptionId).value;
                && IsPatient(caller) && id in old(store.prescriptions)
                && old(store.prescriptions)[id].patientId == caller.value.id
                && old(store.prescriptions)[id].refillsRemaining > 0
                && sent.value.value == old(store.prescriptions)[id].(refillsRemaining := old(store.prescriptions)[id].refillsRemaining - 1)
                && store.prescriptions == old(store.prescriptions)[id := sent.value.value]
    {
      if refillPrescriptionId.None? {
        return None;
      }
      isRefilling := true;
      var outcome := store.RequestRefill(caller, refillPrescriptionId.value);
      if outcome.Ok? {
        refillPrescriptionId := None;
      }
      isRefilling := false;
      sent := Some(outcome);
    }
  }
}

=== FILE: priority.dfy ===
/**
 * The two triage scores of the portal. Both combine the weight of the
 * self-reported severity (mild 1, moderate 2, severe 3) with the hours a form
 * has waited since it was submitted. `now` is a parameter; timestamps are
 * milliseconds.
 *
 *  - The `forms` table uses the linear score 2·weight + min(hours / 24, 5),
 *    exact rational arithmetic, modelled over `real`.
 *  - The `patientForms` table uses weight·(1 + sqrt(hours)), a floating-point
 *    formula; the model takes the square root as a parameter of which it only
 *    assumes that it is non-negative and monotone on non-negative arguments.
 */
module Priority {
  import opened Common

  const MillisPerHour: int := 1000 * 60 * 60

  /** The severity weights: mild 1, moderate 2, severe 3. */
  function Weight(severity: Severity): (w: int)
    ensures 1 <= w <= 3
  {
    match severity
    case Mild => 1
    case Moderate => 2
    case Severe => 3
  }

  /** Severe outweighs moderate, which outweighs mild. */
  predicate MoreSevere(a: Severity, b: Severity)
  {
    (a == Severe && b != Severe) || (a == Moderate && b == Mild)
  }

  lemma WeightOrdersSeverities(a: Severity, b: Severity)
    ensures MoreSevere(a, b) <==> Weight(a) > Weight(b)
    ensures Weight(a) == Weight(b) <==> a == b
  {
  }

  /** Hours elapsed from `submittedAt` to `now` (negative if `now` is earlier). */
  function HoursWaited(submittedAt: int, now: int): real
  {
    (now - submittedAt) as real / MillisPerHour as real
  }

  function MinReal(a: real, b: real): real { if a <= b then a else b }

  // ---------------------------------------------------------------- forms table

  /** The wait bonus of the forms table: one point per day, capped at five. */
  function WaitBonus(submittedAt: int, now: int): (bonus: real)
    ensures bonus <= 5.0
    ensures submittedAt <= now ==> 0.0 <= bonus
    ensures bonus == 5.0 <==> now - submittedAt >= 120 * MillisPerHour
  {
    MinReal(HoursWaited(submittedAt, now) / 24.0, 5.0)
  }

  /** `calculatePriorityScore` of the forms table. */
  function LinearScore(severity: Severity, submittedAt: int, now: int): (score: real)
    ensures score <= (2 * Weight(severity) + 5) as real
    ensures submittedAt <= now ==> (2 * Weight(severity)) as real <= score
  {
    (Weight(severity) * 2) as real + WaitBonus(submittedAt, now)
  }

  /** At equal submission time, a more severe form scores strictly higher. */
  lemma LinearScoreSeverityOrder(a: Severity, b: Severity, submittedAt: int, now: int)
    requires MoreSevere(a, b)
    ensures LinearScore(a, submittedAt, now) > LinearScore(b, submittedAt, now)
  {
  }

  /** For a fixed severity the score never decreases as time passes. */
  lemma LinearScoreMonotoneInTime(severity: Severity, submittedAt: int, now1: int, now2: int)
    requires now1 <= now2
    ensures LinearScore(severity, submittedAt, now1) <= LinearScore(severity, submittedAt, now2)
  {
  }

  /**
   * The cap lets waiting beat severity: a mild form that has waited 120 hours
   * or more scores 7, above the 6 of a severe form submitted just now.
   */
  lemma LongWaitOutranksFreshSevere(mildSubmittedAt: int, severeSubmittedAt: int, now: int)
    requires now - mildSubmittedAt >= 120 * MillisPerHour
    requires severeSubmittedAt == now
    ensures LinearScore(Mild, mildSubmittedAt, now) == 7.0
    ensures LinearScore(Severe, severeSubmittedAt, now) == 6.0
    ensures LinearScore(Mild, mildSubmittedAt, now) > LinearScore(Severe, severeSubmittedAt, now)
  {
  }

  /** The severity gap between two forms of equal wait is twice the weight gap. */
  lemma LinearScoreGap(a: Severity, b: Severity, submittedAt: int, now: int)
    ensures LinearScore(a, submittedAt, now) - LinearScore(b, submittedAt, now)
            == (2 * (Weight(a) - Weight(b))) as real
  {
  }

  // ---------------------------------------------------------------- patientForms table

  /** What the model assumes of `Math.sqrt`: zero at zero, non-negative and monotone on [0, ∞). */
  ghost predicate SqrtLike(sqrt: real -> real)
  {
    && sqrt(0.0) == 0.0
    && (forall x :: 0.0 <= x ==> 0.0 <= sqrt(x))
    && (forall x, y :: 0.0 <= x <= y ==> sqrt(x) <= sqrt(y))
  }

  /** `calculatePriorityScore` of the patientForms table. */
  function SqrtScore(severity: Severity, submissionTime: int, now: int, sqrt: real -> real): (score: real)
    ensures SqrtLike(sqrt) && submissionTime == now ==> score == Weight(severity) as real
    ensures SqrtLike(sqrt) && submissionTime < now ==> score >= Weight(severity) as real
  {
    assert HoursWaited(submissionTime, submissionTime) == 0.0;
    assert submissionTime < now ==> HoursWaited(submissionTime, now) > 0.0;
    Weight(severity) as real * (1.0 + sqrt(HoursWaited(submissionTime, now)))
  }

  /** Once submitted, a form scores at least its severity weight. */
  lemma SqrtScoreAtLeastWeight(severity: Severity, submissionTime: int, now: int, sqrt: real -> real)
    requires SqrtLike(sqrt)
    requires submissionTime <= now
    ensures SqrtScore(severity, submissionTime, now, sqrt) >= Weight(severity) as real
  {
    assert 0.0 <= HoursWaited(submissionTime, now);
  }

  /** At equal wait a more severe form scores strictly higher. */
  lemma SqrtScoreSeverityOrder(a: Severity, b: Severity, submissionTime: int, now: int, sqrt: real -> real)
    requires SqrtLike(sqrt)
    requires submissionTime <= now
    requires MoreSevere(a, b)
    ensures SqrtScore(a, submissionTime, now, sqrt) > SqrtScore(b, submissionTime, now, sqrt)
  {
    var f := 1.0 + sqrt(HoursWaited(submissionTime, now));
    assert f >= 1.0;
    assert Weight(a) as real * f - Weight(b) as real * f == (Weight(a) - Weight(b)) as real * f;
  }

  /** For a fixed severity the score never decreases as time passes. */
  lemma SqrtScoreMonotoneInTime(severity: Severity, submissionTime: int, now1: int, now2: int, sqrt: real -> real)
    requires SqrtLike(sqrt)
    requires submissionTime <= now1 <= now2
    ensures SqrtScore(severity, submissionTime, now1, sqrt) <= SqrtScore(severity, submissionTime, now2, sqrt)
  {
    var h1, h2 := HoursWaited(submissionTime, now1), HoursWaited(submissionTime, now2);
    assert 0.0 <= h1 <= h2;
    assert sqrt(h1) <= sqrt(h2);
  }
}

=== FILE: roster.dfy ===
/**
 * src/app/protected/patients/page.tsx: the caregiver's patient roster. The
 * fetched patients are narrowed by the search box and the "with forms" option,
 * then the filtered array is sorted in place: patients with a form first, by
 * descending priority, then the others by name.
 */
module Roster {
  import opened Common
  import opened Text
  import opened Seqs
  import opened Search
  import opened Caseload

  /** The `filteredPatients` predicate. */
  predicate Listed(p: PatientRow, query: string, filterOption: string)
  {
    MatchesSearch(query, p.name, p.email) && (filterOption == "withForms" ==> p.latestForm.Some?)
  }

  /** `patients.filter(...)`: an order-preserving selection. */
  function FilterRoster(patients: seq<PatientRow>, query: string, filterOption: string): (r: seq<PatientRow>)
    ensures IsSubsequence(r, patients)
    ensures forall p :: p in r <==> p in patients && Listed(p, query, filterOption)
  {
    Filter(patients, (p: PatientRow) => Listed(p, query, filterOption))
  }

  /** No query and no "withForms" option: the roster shows everyone, in the fetched order. */
  lemma {:induction false} UnfilteredRosterKeepsAll(patients: seq<PatientRow>, filterOption: string)
    requires filterOption != "withForms"
    ensures FilterRoster(patients, "", filterOption) == patients
  {
    FilterKeepsAll(patients, (p: PatientRow) => Listed(p, "", filterOption));
  }

  /** The "withForms" option keeps exactly the searched patients that have a latest form. */
  lemma WithFormsKeepsFormHolders(patients: seq<PatientRow>, query: string)
    ensures forall p :: p in FilterRoster(patients, query, "withForms") <==>
                          p in patients && MatchesSearch(query, p.name, p.email) && p.latestForm.Some?
  {
  }

  /**
   * The comparator `cmp(a, b) <= 0`, read as "a may be listed before b":
   * a form beats no form; two forms compare by `b.score - a.score`; two
   * patients without forms by `(a.name || "").localeCompare(b.name || "")`.
   */
  predicate RosterBefore(a: PatientRow, b: PatientRow): (r: bool)
    ensures a.latestForm.Some? != b.latestForm.Some? ==> (r <==> a.latestForm.Some?)
    ensures a.latestForm.Some? && b.latestForm.Some? ==>
              (r <==> a.latestForm.value.priorityScore >= b.latestForm.value.priorityScore)
    ensures a.latestForm.None? && b.latestForm.None? ==> (r <==> LexLe(NameKey(a), NameKey(b)))
  {
    if a.latestForm.Some? && b.latestForm.None? then true
    else if a.latestForm.None? && b.latestForm.Some? then false
    else if a.latestForm.Some? && b.latestForm.Some? then
      b.latestForm.value.priorityScore - a.latestForm.value.priorityScore <= 0.0
    else LexLe(NameKey(a), NameKey(b))
  }

  /** The comparator is consistent, so the sort is well defined. */
  lemma {:induction false} RosterOrderIsTotalPreorder()
    ensures TotalPreorder(RosterBefore)
  {
    forall a: PatientRow, b: PatientRow ensures RosterBefore(a, b) || RosterBefore(b, a) {
      LexLeTotal(NameKey(a), NameKey(b));
    }
    forall a: PatientRow, b: PatientRow, c: PatientRow | RosterBefore(a, b) && RosterBefore(b, c)
      ensures RosterBefore(a, c)
    {
      if a.latestForm.None? && b.latestForm.None? && c.latestForm.None? {
        LexLeTransitive(NameKey(a), NameKey(b), NameKey(c));
      }
    }
  }

  /** `filteredPatients.sort(...)`: the array is reordered in place. */
  method SortRoster(a: array<PatientRow>)
    modifies a
    ensures a[..] == SortBy(old(a[..]), RosterBefore)
    ensures SortedBy(a[..], RosterBefore)
    ensures multiset(a[..]) == multiset(old(a[..]))
  {
    SortInPlace(a, RosterBefore);
    RosterOrderIsTotalPreorder();
    SortBySorted(old(a[..]), RosterBefore);
  }

  /** The roster as displayed: the filtered patients, copied into an array and sorted there. */
  method SortedPatients(patients: seq<PatientRow>, query: string, filterOption: string)
    returns (r: seq<PatientRow>)
    ensures r == SortBy(FilterRoster(patients, query, filterOption), RosterBefore)
    ensures SortedBy(r, RosterBefore)
    ensures multiset(r) == multiset(FilterRoster(patients, query, filterOption))
    ensures forall p :: p in r <==> p in patients && Listed(p, query, filterOption)
  {
    var filtered := FilterRoster(patients, query, filterOption);
    var a := new PatientRow[|filtered|](i requires 0 <= i < |filtered| => filtered[i]);
    assert a[..] == filtered;
    SortRoster(a);
    r := a[..];
    forall p ensures p in r <==> p in filtered {
      assert p in r <==> p in multiset(r);
      assert p in filtered <==> p in multiset(filtered);
    }
  }

  /**
   * What a sorted roster looks like: nobody without a form precedes somebody
   * with one, form holders have non-increasing scores, and the rest are in
   * name order.
   */
  lemma RosterOrder(s: seq<PatientRow>)
    requires SortedBy(s, RosterBefore)
    ensures forall i, j :: 0 <= i < j < |s| && s[j].latestForm.Some? ==> s[i].latestForm.Some?
    ensures forall i, j :: 0 <= i < j < |s| && s[i].latestForm.Some? && s[j].latestForm.Some? ==>
              s[i].latestForm.value.priorityScore >= s[j].latestForm.value.priorityScore
    ensures forall i, j :: 0 <= i < j < |s| && s[i].latestForm.None? && s[j].latestForm.None? ==>
              LexLe(NameKey(s[i]), NameKey(s[j]))
  {
  }
}

=== FILE: search.dfy ===
/**
 * The name/email search box of the caregiver dashboard
 * (src/app/protected/page.tsx), the prescriptions page and the patient roster:
 * an empty query keeps everyone; otherwise a patient is kept when the
 * lower-cased name or e-mail contains the lower-cased query.
 */
module Search {
  import opened Common
  import opened Text
  import opened Seqs

  /** `field?.toLowerCase().includes(query.toLowerCase()) || false`: a missing field never matches. */
  predicate FieldMatches(field: Option<string>, query: string)
  {
    field.Some? && Includes(Lower(field.value), Lower(query))
  }

  /** `if (!searchQuery) return true`, then the name or the e-mail must match. */
  predicate MatchesSearch(query: string, name: Option<string>, email: Option<string>): (r: bool)
    ensures query == "" ==> r
    ensures r && query != "" ==> name.Some? || email.Some?
    ensures r && query != "" ==> (name.Some? && |Lower(query)| <= |Lower(name.value)|)
                                 || (email.Some? && |Lower(query)| <= |Lower(email.value)|)
  {
    query == "" || FieldMatches(name, query) || FieldMatches(email, query)
  }

  /**
   * The filtered list, for any kind of patient record that has an optional
   * name and an optional e-mail: kept patients stay in their order.
   */
  function SearchPatients<P(==,!new)>(patients: seq<P>, query: string,
                                      name: P -> Option<string>, email: P -> Option<string>)
    : (r: seq<P>)
    ensures IsSubsequence(r, patients)
    ensures query == "" ==> r == patients
    ensures query != "" ==> forall p :: p in r <==> p in patients && (FieldMatches(name(p), query) || FieldMatches(email(p), query))
  {
    var keep := (p: P) => MatchesSearch(query, name(p), email(p));
    if query == "" then
      FilterKeepsAll(patients, keep);
      Filter(patients, keep)
    else Filter(patients, keep)
  }

  /** With a non-empty query, a patient with neither a name nor an e-mail is never found. */
  lemma MissingFieldsNeverMatch(query: string, name: Option<string>, email: Option<string>)
    requires query != ""
    ensures name.None? && email.None? ==> !MatchesSearch(query, name, email)
    ensures name.None? ==> (MatchesSearch(query, name, email) <==> FieldMatches(email, query))
    ensures email.None? ==> (MatchesSearch(query, name, email) <==> FieldMatches(name, query))
  {
  }

  /** The case the query is typed in does not change who is found. */
  lemma {:induction false} QueryCaseIgnored(query: string, name: Option<string>, email: Option<string>)
    ensures MatchesSearch(Upper(query), name, email) <==> MatchesSearch(query, name, email)
    ensures MatchesSearch(Lower(query), name, email) <==> MatchesSearch(query, name, email)
  {
    LowerForgetsCase(query);
    assert Upper(query) == "" <==> query == "";
    assert Lower(query) == "" <==> query == "";
  }

  /** A patient whose name or e-mail contains the query verbatim is always found. */
  lemma {:induction false} VerbatimMatchFound(query: string, name: Option<string>, email: Option<string>)
    requires (name.Some? && Includes(name.value, query)) || (email.Some? && Includes(email.value, query))
    ensures MatchesSearch(query, name, email)
  {
    if name.Some? && Includes(name.value, query) {
      IncludesLower(name.value, query);
    } else {
      IncludesLower(email.value, query);
    }
  }
}

=== FILE: seqs.dfy ===
/**
 * The array operations the portal's views and queries are built from:
 * `filter`, `slice(0, n)` and a stable `sort` with a consistent comparator.
 * A comparator is modelled by the relation "a may come before b"
 * (`cmp(a, b) <= 0`), which must be a total preorder.
 */
module Seqs {
  import opened Common

  // ---------------------------------------------------------------- order-preserving selections

  /** `r` is `s` with some elements dropped and the rest kept in order. */
  predicate IsSubsequence<T(==)>(r: seq<T>, s: seq<T>)
    decreases |s|
  {
    r == [] || (s != [] && ((r[0] == s[0] && IsSubsequence(r[1..], s[1..])) || IsSubsequence(r, s[1..])))
  }

  lemma {:induction false} SubsequenceMembers<T>(r: seq<T>, s: seq<T>)
    requires IsSubsequence(r, s)
    ensures forall x :: x in r ==> x in s
    decreases |s|
  {
    if r != [] {
      if r[0] == s[0] && IsSubsequence(r[1..], s[1..]) {
        SubsequenceMembers(r[1..], s[1..]);
        assert forall x :: x in r ==> x == r[0] || x in r[1..];
      } else {
        SubsequenceMembers(r, s[1..]);
      }
    }
  }

  lemma {:induction false} SubsequenceReflexive<T>(s: seq<T>)
    ensures IsSubsequence(s, s)
    decreases |s|
  {
    if s != [] {
      SubsequenceReflexive(s[1..]);
    }
  }

  lemma {:induction false} SubsequenceTransitive<T>(a: seq<T>, b: seq<T>, c: seq<T>)
    requires IsSubsequence(a, b) && IsSubsequence(b, c)
    ensures IsSubsequence(a, c)
    decreases |c|
  {
    if a != [] {
      if b[0] == c[0] && IsSubsequence(b[1..], c[1..]) {
        if a[0] == b[0] && IsSubsequence(a[1..], b[1..]) {
          SubsequenceTransitive(a[1..], b[1..], c[1..]);
        } else {
          SubsequenceTransitive(a, b[1..], c[1..]);
        }
      } else {
        SubsequenceTransitive(a, b, c[1..]);
      }
    }
  }

  /** `s.filter(p)`. */
  function Filter<T(==,!new)>(s: seq<T>, p: T -> bool): (r: seq<T>)
    ensures |r| <= |s|
    ensures forall x :: x in r <==> x in s && p(x)
    ensures IsSubsequence(r, s)
  {
    if s == [] then []
    else if p(s[0]) then [s[0]] + Filter(s[1..], p)
    else Filter(s[1..], p)
  }

  /** Filtering a concatenation filters each part. */
  lemma {:induction false} FilterAppend<T(!new)>(a: seq<T>, b: seq<T>, p: T -> bool)
    ensures Filter(a + b, p) == Filter(a, p) + Filter(b, p)
    decreases |a|
  {
    if a == [] {
      assert a + b == b;
    } else {
      var ab := a + b;
      assert ab[0] == a[0] && ab[1..] == a[1..] + b;
      FilterAppend(a[1..], b, p);
      var rest := Filter(a[1..], p) + Filter(b, p);
      if p(a[0]) {
        assert Filter(ab, p) == [a[0]] + rest;
        assert [a[0]] + rest == ([a[0]] + Filter(a[1..], p)) + Filter(b, p);
      } else {
        assert Filter(ab, p) == rest;
      }
    }
  }

  /** The positions of `s` whose element satisfies `p`. */
  function Positions<T>(s: seq<T>, p: T -> bool): set<int>
  {
    set i | 0 <= i < |s| && p(s[i])
  }

  /** Appending an element adds its position exactly when it passes `p`. */
  lemma PositionsSnoc<T>(t: seq<T>, x: T, p: T -> bool)
    ensures Positions(t + [x], p) == Positions(t, p) + (if p(x) then {|t|} else {})
    ensures |t| !in Positions(t, p)
  {
    var s := t + [x];
    forall i | 0 <= i < |t| ensures s[i] == t[i] { }
  }

  /** `s.filter(p).length` counts the positions whose element passes `p`. */
  lemma {:induction false} FilterCountsPositions<T(!new)>(s: seq<T>, p: T -> bool)
    ensures |Filter(s, p)| == |Positions(s, p)|
    decreases |s|
  {
    if s != [] {
      var t, x := s[..|s| - 1], s[|s| - 1];
      assert s == t + [x];
      FilterCountsPositions(t, p);
      FilterAppend(t, [x], p);
      assert [x][1..] == [];
      PositionsSnoc(t, x, p);
    }
  }

  /** Filtering twice is filtering by the conjunction. */
  lemma {:induction false} FilterFilter<T(!new)>(s: seq<T>, p: T -> bool, q: T -> bool)
    ensures Filter(Filter(s, p), q) == Filter(s, x => p(x) && q(x))
  {
    if s != [] {
      FilterFilter(s[1..], p, q);
      if p(s[0]) {
        assert ([s[0]] + Filter(s[1..], p))[1..] == Filter(s[1..], p);
      }
    }
  }

  /** Filtering by a stronger predicate selects a subsequence of filtering by a weaker one. */
  lemma {:induction false} FilterNarrows<T(!new)>(s: seq<T>, p: T -> bool, q: T -> bool)
    requires forall x :: x in s && p(x) ==> q(x)
    ensures IsSubsequence(Filter(s, p), Filter(s, q))
  {
    if s != [] {
      assert forall x :: x in s[1..] ==> x in s;
      FilterNarrows(s[1..], p, q);
      if p(s[0]) {
        assert Filter(s, p)[1..] == Filter(s[1..], p);
        assert Filter(s, q)[1..] == Filter(s[1..], q);
      } else if q(s[0]) {
        assert Filter(s, q)[1..] == Filter(s[1..], q);
        if Filter(s, p) != [] {
          assert Filter(s, p) == Filter(s[1..], p);
        }
      }
    }
  }

  /** Positions holding the same value give it a count of at least two. */
  lemma RepeatedValueCount<T>(s: seq<T>, i: int, j: int)
    requires 0 <= i < j < |s|
    ensures s[i] == s[j] ==> multiset(s)[s[j]] >= 2
  {
    assert s == s[..j] + [s[j]] + s[j + 1..];
    assert s[i] in s[..j];
  }

  /** Filters by predicates that agree on every element give the same result. */
  lemma {:induction false} FilterExtensional<T(!new)>(s: seq<T>, p: T -> bool, q: T -> bool)
    requires forall x :: x in s ==> (p(x) <==> q(x))
    ensures Filter(s, p) == Filter(s, q)
  {
    if s != [] {
      assert forall x :: x in s[1..] ==> x in s;
      FilterExtensional(s[1..], p, q);
    }
  }

  /** A filter that every element passes keeps the whole sequence. */
  lemma {:induction false} FilterKeepsAll<T(!new)>(s: seq<T>, p: T -> bool)
    requires forall x :: x in s ==> p(x)
    ensures Filter(s, p) == s
  {
    if s != [] {
      assert forall x :: x in s[1..] ==> x in s;
      FilterKeepsAll(s[1..], p);
      assert s == [s[0]] + s[1..];
    }
  }

  /** One step of `Filter`: the head is kept exactly when it passes. */
  lemma FilterHead<T(!new)>(s: seq<T>, p: T -> bool)
    requires s != []
    ensures multiset(Filter(s, p)) == (if p(s[0]) then multiset{s[0]} else multiset{}) + multiset(Filter(s[1..], p))
  {
    if p(s[0]) {
      assert Filter(s, p) == [s[0]] + Filter(s[1..], p);
    }
  }

  /** Exactly one of three conditions holds. */
  predicate ExactlyOne(a: bool, b: bool, c: bool)
  {
    (a && !b && !c) || (!a && b && !c) || (!a && !b && c)
  }

  /** Three predicates that split the elements between them split the sequence. */
  lemma {:induction false} FilterThreeWay<T(!new)>(s: seq<T>, p: T -> bool, q: T -> bool, r: T -> bool)
    requires forall x :: x in s ==> ExactlyOne(p(x), q(x), r(x))
    ensures multiset(Filter(s, p)) + multiset(Filter(s, q)) + multiset(Filter(s, r)) == multiset(s)
  {
    if s != [] {
      var x, t := s[0], s[1..];
      assert x in s;
      FilterThreeWay(t, p, q, r);
      assert multiset(s) == multiset{x} + multiset(t) by {
        assert s == [x] + t;
      }
      var fp, fq, fr := Filter(t, p), Filter(t, q), Filter(t, r);
      if p(x) {
        assert Filter(s, p) == [x] + fp && Filter(s, q) == fq && Filter(s, r) == fr;
        assert multiset([x] + fp) == multiset{x} + multiset(fp);
      } else if q(x) {
        assert Filter(s, p) == fp && Filter(s, q) == [x] + fq && Filter(s, r) == fr;
        assert multiset([x] + fq) == multiset{x} + multiset(fq);
      } else {
        assert Filter(s, p) == fp && Filter(s, q) == fq && Filter(s, r) == [x] + fr;
        assert multiset([x] + fr) == multiset{x} + multiset(fr);
      }
    }
  }

  /** Splitting by a predicate and its negation loses and duplicates nothing. */
  lemma {:induction false} FilterComplement<T(!new)>(s: seq<T>, p: T -> bool, q: T -> bool)
    requires forall x :: q(x) <==> !p(x)
    ensures multiset(Filter(s, p)) + multiset(Filter(s, q)) == multiset(s)
  {
    if s != [] {
      var x, t := s[0], s[1..];
      FilterComplement(t, p, q);
      assert multiset(s) == multiset{x} + multiset(t) by {
        assert s == [x] + t;
      }
      var fp, fq := Filter(t, p), Filter(t, q);
      if p(x) {
        assert Filter(s, p) == [x] + fp && Filter(s, q) == fq;
        assert multiset([x] + fp) == multiset{x} + multiset(fp);
      } else {
        assert Filter(s, p) == fp && Filter(s, q) == [x] + fq;
        assert multiset([x] + fq) == multiset{x} + multiset(fq);
      }
    }
  }

  // ---------------------------------------------------------------- sorted sequences

  ghost predicate TotalPreorder<T(!new)>(le: (T, T) -> bool)
  {
    && (forall a, b :: le(a, b) || le(b, a))
    && (forall a, b, c :: le(a, b) && le(b, c) ==> le(a, c))
  }

  /** Every earlier element may come before every later one. */
  predicate SortedBy<T>(s: seq<T>, le: (T, T) -> bool)
  {
    forall i, j :: 0 <= i < j < |s| ==> le(s[i], s[j])
  }

  /** Dropping elements from a sorted sequence leaves it sorted. */
  lemma {:induction false} SubsequenceKeepsSorted<T>(r: seq<T>, s: seq<T>, le: (T, T) -> bool)
    requires IsSubsequence(r, s) && SortedBy(s, le)
    ensures SortedBy(r, le)
    decreases |s|
  {
    if r != [] {
      assert SortedBy(s[1..], le);
      if r[0] == s[0] && IsSubsequence(r[1..], s[1..]) {
        SubsequenceKeepsSorted(r[1..], s[1..], le);
        SubsequenceMembers(r[1..], s[1..]);
        forall i, j | 0 <= i < j < |r| ensures le(r[i], r[j]) {
          if i == 0 {
            assert r[j] in s[1..];
            var k :| 0 <= k < |s[1..]| && s[1..][k] == r[j];
            assert s[k + 1] == r[j];
          } else {
            assert r[i] == r[1..][i - 1] && r[j] == r[1..][j - 1];
          }
        }
      } else {
        SubsequenceKeepsSorted(r, s[1..], le);
      }
    }
  }

  // ---------------------------------------------------------------- stable sort

  /** Inserts `x` before the first element it may precede. */
  function Insert<T>(x: T, s: seq<T>, le: (T, T) -> bool): (r: seq<T>)
    ensures multiset(r) == multiset{x} + multiset(s)
  {
    if s == [] || le(x, s[0]) then [x] + s
    else
      assert s == [s[0]] + s[1..];
      [s[0]] + Insert(x, s[1..], le)
  }

  /**
   * `s.sort(cmp)`: insertion sort. Each element is inserted ahead of the
   * elements it ties with, all of which come after it in `s`, so the sort is stable.
   */
  function SortBy<T>(s: seq<T>, le: (T, T) -> bool): (r: seq<T>)
    ensures multiset(r) == multiset(s)
  {
    if s == [] then []
    else
      assert s == [s[0]] + s[1..];
      Insert(s[0], SortBy(s[1..], le), le)
  }

  lemma {:induction false} InsertSorted<T(!new)>(x: T, s: seq<T>, le: (T, T) -> bool)
    requires TotalPreorder(le) && SortedBy(s, le)
    ensures SortedBy(Insert(x, s, le), le)
    decreases |s|
  {
    var r := Insert(x, s, le);
    if s == [] || le(x, s[0]) {
      forall i, j | 0 <= i < j < |r| ensures le(r[i], r[j]) {
        if i == 0 && j > 1 {
          assert le(s[0], s[j - 1]);
        }
      }
    } else {
      assert le(s[0], x);
      InsertSorted(x, s[1..], le);
      var t := Insert(x, s[1..], le);
      assert multiset(t) == multiset{x} + multiset(s[1..]);
      forall i, j | 0 <= i < j < |r| ensures le(r[i], r[j]) {
        if i == 0 {
          assert r[j] == t[j - 1];
          assert r[j] in multiset(t);
          assert r[j] == x || r[j] in multiset(s[1..]);
          if r[j] != x {
            assert r[j] in s[1..];
            var k :| 0 <= k < |s[1..]| && s[1..][k] == r[j];
            assert le(s[0], s[k + 1]);
          }
        } else {
          assert r[i] == t[i - 1] && r[j] == t[j - 1];
        }
      }
    }
  }

  /**
   * Inserting `x` into `t` passes over elements it may not precede; when `x`
   * satisfies `q` and may precede every `q`-element, none of those is a
   * `q`-element, so among the `q`-elements `x` lands first.
   */
  lemma {:induction false} InsertFilter<T(!new)>(x: T, t: seq<T>, le: (T, T) -> bool, q: T -> bool)
    requires forall y :: y in t && q(x) && q(y) ==> le(x, y)
    ensures Filter(Insert(x, t, le), q) == (if q(x) then [x] else []) + Filter(t, q)
    decreases |t|
  {
    if t == [] || le(x, t[0]) {
      assert ([x] + t)[1..] == t;
    } else {
      assert forall y :: y in t[1..] ==> y in t;
      InsertFilter(x, t[1..], le, q);
      var rest := Insert(x, t[1..], le);
      assert ([t[0]] + rest)[1..] == rest;
      assert t[0] in t;
    }
  }

  /**
   * The sort is stable: the elements that tie with any `k` (each may precede
   * the other) come out in the order they went in.
   */
  lemma {:induction false} SortByStable<T(!new)>(s: seq<T>, le: (T, T) -> bool, k: T, q: T -> bool)
    requires TotalPreorder(le)
    requires forall y :: q(y) <==> le(y, k) && le(k, y)
    ensures Filter(SortBy(s, le), q) == Filter(s, q)
    decreases |s|
  {
    if s != [] {
      SortByStable(s[1..], le, k, q);
      InsertFilter(s[0], SortBy(s[1..], le), le, q);
      assert s == [s[0]] + s[1..];
    }
  }

  /**
   * Sorted by `le`, and among elements that tie, in increasing `rank`: the
   * order a stable sort gives an input listed by increasing `rank`.
   */
  predicate SortedThenRanked<T>(r: seq<T>, le: (T, T) -> bool, rank: T -> int)
  {
    forall i, j :: 0 <= i < j < |r| ==> le(r[i], r[j]) && (le(r[j], r[i]) ==> rank(r[i]) < rank(r[j]))
  }

  /** `x` goes in front: it may precede the first element, and it outranks none of them. */
  lemma InsertRankedFront<T(!new)>(x: T, t: seq<T>, le: (T, T) -> bool, rank: T -> int)
    requires TotalPreorder(le) && SortedThenRanked(t, le, rank)
    requires forall y :: y in t ==> rank(x) < rank(y)
    requires t == [] || le(x, t[0])
    ensures SortedThenRanked([x] + t, le, rank)
  {
    var r := [x] + t;
    forall i, j | 0 <= i < j < |r| ensures le(r[i], r[j]) && (le(r[j], r[i]) ==> rank(r[i]) < rank(r[j])) {
      if i == 0 {
        assert r[j] == t[j - 1] && t[j - 1] in t;
        if j > 1 {
          assert le(t[0], t[j - 1]);
        }
      } else {
        assert r[i] == t[i - 1] && r[j] == t[j - 1];
      }
    }
  }

  /** `x` goes behind the first element `y`, which it may not precede. */
  lemma InsertRankedBehind<T(!new)>(x: T, y: T, t: seq<T>, rest: seq<T>, le: (T, T) -> bool, rank: T -> int)
    requires TotalPreorder(le) && !le(x, y)
    requires forall i :: 0 <= i < |t| ==> le(y, t[i]) && (le(t[i], y) ==> rank(y) < rank(t[i]))
    requires SortedThenRanked(rest, le, rank)
    requires multiset(rest) == multiset{x} + multiset(t)
    ensures SortedThenRanked([y] + rest, le, rank)
  {
    var r := [y] + rest;
    forall i, j | 0 <= i < j < |r| ensures le(r[i], r[j]) && (le(r[j], r[i]) ==> rank(r[i]) < rank(r[j])) {
      if i == 0 {
        assert r[j] == rest[j - 1] && r[j] in multiset(rest);
        if r[j] != x {
          assert r[j] in multiset(t);
          var k :| 0 <= k < |t| && t[k] == r[j];
        }
      } else {
        assert r[i] == rest[i - 1] && r[j] == rest[j - 1];
      }
    }
  }

  lemma {:induction false} InsertRanked<T(!new)>(x: T, t: seq<T>, le: (T, T) -> bool, rank: T -> int)
    requires TotalPreorder(le) && SortedThenRanked(t, le, rank)
    requires forall y :: y in t ==> rank(x) < rank(y)
    ensures SortedThenRanked(Insert(x, t, le), le, rank)
    decreases |t|
  {
    if t == [] || le(x, t[0]) {
      InsertRankedFront(x, t, le, rank);
    } else {
      var tail := t[1..];
      assert forall y :: y in tail ==> y in t;
      assert SortedThenRanked(tail, le, rank) by {
        forall i, j | 0 <= i < j < |tail| ensures le(tail[i], tail[j]) && (le(tail[j], tail[i]) ==> rank(tail[i]) < rank(tail[j])) {
          assert tail[i] == t[i + 1] && tail[j] == t[j + 1];
        }
      }
      InsertRanked(x, tail, le, rank);
      forall i | 0 <= i < |tail| ensures le(t[0], tail[i]) && (le(tail[i], t[0]) ==> rank(t[0]) < rank(tail[i])) {
        assert tail[i] == t[i + 1];
      }
      InsertRankedBehind(x, t[0], tail, Insert(x, tail, le), le, rank);
    }
  }

  /**
   * Stability stated pairwise: when the input lists its elements by strictly
   * increasing `rank`, tied elements come out of the sort by increasing `rank`,
   * that is, in the order they went in.
   */
  lemma {:induction false} SortByRanked<T(!new)>(s: seq<T>, le: (T, T) -> bool, rank: T -> int)
    requires TotalPreorder(le)
    requires forall i, j :: 0 <= i < j < |s| ==> rank(s[i]) < rank(s[j])
    ensures SortedThenRanked(SortBy(s, le), le, rank)
    decreases |s|
  {
    if s != [] {
      var sorted := SortBy(s[1..], le);
      SortByRanked(s[1..], le, rank);
      SortBySorted(s[1..], le);
      forall y | y in sorted ensures rank(s[0]) < rank(y) {
        assert y in multiset(sorted);
        assert y in s[1..];
        var k :| 0 <= k < |s[1..]| && s[1..][k] == y;
        assert s[k + 1] == y;
      }
      InsertRanked(s[0], sorted, le, rank);
    }
  }

  /** Permutations have the same members. */
  lemma PermutationMembers<T>(a: seq<T>, b: seq<T>)
    requires multiset(a) == multiset(b)
    ensures forall x :: x in a <==> x in b
  {
    forall x ensures x in a <==> x in b {
      assert x in a <==> x in multiset(a);
      assert x in b <==> x in multiset(b);
    }
  }

  /** The sort returns a sorted permutation of its input. */
  lemma {:induction false} SortBySorted<T(!new)>(s: seq<T>, le: (T, T) -> bool)
    requires TotalPreorder(le)
    ensures SortedBy(SortBy(s, le), le)
    ensures multiset(SortBy(s, le)) == multiset(s)
    decreases |s|
  {
    if s != [] {
      SortBySorted(s[1..], le);
      InsertSorted(s[0], SortBy(s[1..], le), le);
    }
  }

  /**
   * `a.sort(cmp)` on an array: the array ends holding the sorted permutation
   * of its old contents. The order is computed by `SortBy` on the old
   * contents and then written back element by element; the writes are the
   * only in-place step, so the swaps of an actual sorting routine are not
   * modelled.
   */
  method SortInPlace<T>(a: array<T>, le: (T, T) -> bool)
    modifies a
    ensures a[..] == SortBy(old(a[..]), le)
  {
    var sorted := SortBy(a[..], le);
    assert |sorted| == a.Length by {
      assert |multiset(sorted)| == |multiset(a[..])|;
    }
    var k := 0;
    while k < a.Length
      invariant 0 <= k <= a.Length
      invariant a[..k] == sorted[..k]
    {
      a[k] := sorted[k];
      k := k + 1;
    }
    assert a[..] == a[..a.Length];
  }

  /** Copies `s` into a fresh array, sorts it in place and reads it back. */
  method SortedCopy<T(!new)>(s: seq<T>, le: (T, T) -> bool) returns (r: seq<T>)
    requires TotalPreorder(le)
    ensures r == SortBy(s, le)
    ensures SortedBy(r, le)
    ensures multiset(r) == multiset(s)
  {
    if |s| == 0 {
      return [];
    }
    var a := new T[|s|](i requires 0 <= i < |s| => s[i]);
    assert a[..] == s;
    SortInPlace(a, le);
    r := a[..];
    SortBySorted(s, le);
  }

  // ---------------------------------------------------------------- slice

  /** `s.slice(0, end)` for an integer `end`: a negative end counts back from the length. */
  function SliceTo<T>(s: seq<T>, end: int): (r: seq<T>)
    ensures |r| == if end >= 0 then Min(end, |s|) else Max(|s| + end, 0)
    ensures r == s[..|r|]
  {
    if end >= 0 then s[..Min(end, |s|)] else s[..Max(|s| + end, 0)]
  }

  /** `limit ? s.slice(0, limit) : s` for an optional integer `limit`. */
  function Limit<T>(s: seq<T>, limit: Option<int>): (r: seq<T>)
    ensures !Given(limit) ==> r == s
    ensures Given(limit) && limit.value > 0 ==> r == s[..Min(limit.value, |s|)]
    ensures Given(limit) && limit.value < 0 ==> r == s[..Max(|s| + limit.value, 0)]
    ensures |r| <= |s| && r == s[..|r|]
    ensures IsSubsequence(r, s) && forall x :: x in r ==> x in s
  {
    if Given(limit) then
      PrefixSubsequence(s, |SliceTo(s, limit.value)|);
      SubsequenceMembers(SliceTo(s, limit.value), s);
      SliceTo(s, limit.value)
    else
      SubsequenceReflexive(s);
      s
  }

  lemma {:induction false} PrefixSubsequence<T>(s: seq<T>, k: nat)
    requires k <= |s|
    ensures IsSubsequence(s[..k], s)
    decreases |s|
  {
    if k > 0 {
      PrefixSubsequence(s[1..], k - 1);
      assert s[..k][1..] == s[1..][..k - 1];
    }
  }
}

=== FILE: set_role.dfy ===
/**
 * src/components/protected/SetRoleForm.tsx: the first-login form where a user
 * picks a role. The form's schema admits only the patient and the caregiver
 * roles; a caregiver must give a specialty at least two characters long once
 * trimmed before the role is submitted.
 */
module SetRole {
  import opened Common
  import opened Text

  /** The roles the form's schema enumerates. */
  datatype ChosenRole = ChosePatient | ChoseCaregiver

  function RoleOf(choice: ChosenRole): (r: Role)
    ensures r == Patient || r == Caregiver
  {
    match choice
    case ChosePatient => Patient
    case ChoseCaregiver => Caregiver
  }

  /** The arguments given to the `setUserRole` mutation. */
  datatype RolePayload = RolePayload(role: Role, specialty: Option<string>)

  /** Either a field error on the specialty, or the payload that is sent. */
  datatype Submission = SpecialtyError(message: string) | Send(payload: RolePayload)

  const SpecialtyMessage := "Specialty is required for caregivers and must be at least 2 characters"

  /** `!values.specialty || values.specialty.trim().length < 2`. */
  predicate SpecialtyMissing(specialty: Option<string>)
  {
    specialty.None? || specialty.value == "" || |Trim(specialty.value)| < 2
  }

  /**
   * `onSubmit`: a caregiver with a missing or too short specialty gets a field
   * error and nothing is sent; otherwise the chosen role is sent, with the
   * specialty exactly as typed for a caregiver and none for a patient.
   */
  function OnSubmit(choice: ChosenRole, specialty: Option<string>): (r: Submission)
    ensures r.SpecialtyError? <==> choice == ChoseCaregiver && SpecialtyMissing(specialty)
    ensures r.SpecialtyError? ==> r.message == SpecialtyMessage
    ensures r.Send? ==> r.payload.role == RoleOf(choice)
    ensures r.Send? && choice == ChosePatient ==> r.payload.specialty.None?
    ensures r.Send? && choice == ChoseCaregiver ==> r.payload.specialty == specialty
  {
    if choice == ChoseCaregiver && SpecialtyMissing(specialty) then SpecialtyError(SpecialtyMessage)
    else Send(RolePayload(RoleOf(choice), if choice == ChoseCaregiver then specialty else None))
  }

  /**
   * Whatever is sent for a caregiver names a specialty with at least two
   * characters that are not surrounding whitespace; a patient is never refused.
   */
  lemma SubmittedRolesAreValid(choice: ChosenRole, specialty: Option<string>)
    ensures var r := OnSubmit(choice, specialty);
            && (choice == ChosePatient ==> r.Send?)
            && (r.Send? && r.payload.role == Caregiver ==>
                  r.payload.specialty.Some? && |Trim(r.payload.specialty.value)| >= 2)
  {
  }

  /**
   * Leading whitespace neither helps nor hurts an accepted specialty: the
   * length check reads the trimmed text, and the text is sent as typed.
   */
  lemma {:induction false} SpecialtySentUntrimmed(lead: string, specialty: string)
    requires AllWhitespace(lead) && |Trim(specialty)| >= 2
    ensures OnSubmit(ChoseCaregiver, Some(lead + specialty)) == Send(RolePayload(Caregiver, Some(lead + specialty)))
  {
    TrimIgnoresLeadingWhitespace(lead, specialty);
  }

  /** Whitespace put in front of a string adds exactly its length to the leading whitespace. */
  lemma {:induction false} LeadingSpaceAfterWhitespace(lead: string, s: string)
    requires AllWhitespace(lead)
    ensures LeadingSpace(lead + s) == |lead| + LeadingSpace(s)
    decreases |lead|
  {
    if lead != [] {
      assert (lead + s)[0] == lead[0] && IsWhitespace(lead[0]);
      assert (lead + s)[1..] == lead[1..] + s;
      assert AllWhitespace(lead[1..]) by {
        forall k | 0 <= k < |lead[1..]| ensures IsWhitespace(lead[1..][k]) {
          assert lead[1..][k] == lead[k + 1];
        }
      }
      LeadingSpaceAfterWhitespace(lead[1..], s);
    } else {
      assert lead + s == s;
    }
  }

  /** Whitespace put in front of a string does not change what trimming leaves. */
  lemma {:induction false} TrimIgnoresLeadingWhitespace(lead: string, s: string)
    requires AllWhitespace(lead)
    ensures Trim(lead + s) == Trim(s)
  {
    LeadingSpaceAfterWhitespace(lead, s);
    assert (lead + s)[|lead| + LeadingSpace(s)..] == s[LeadingSpace(s)..];
    assert TrimStart(lead + s) == TrimStart(s);
  }
}

=== FILE: text.dfy ===
/**
 * The JavaScript string operations the portal's views rely on, restricted to
 * what the model needs: ASCII case mapping, `includes`, `trim`, `split` on a
 * single character, decimal rendering of a number and `Number(...)` on a
 * string of digits.
 */
module Text {
  import opened Common

  // ---------------------------------------------------------------- case

  function LowerChar(c: char): char
  {
    if 'A' <= c <= 'Z' then (c as int + 32) as char else c
  }

  function UpperChar(c: char): char
  {
    if 'a' <= c <= 'z' then (c as int - 32) as char else c
  }

  /** `toLowerCase`, ASCII letters only. */
  function Lower(s: string): (r: string)
    ensures |r| == |s|
    ensures forall i :: 0 <= i < |s| ==> r[i] == LowerChar(s[i])
  {
    seq(|s|, i requires 0 <= i < |s| => LowerChar(s[i]))
  }

  /** `toUpperCase`, ASCII letters only. */
  function Upper(s: string): (r: string)
    ensures |r| == |s|
    ensures forall i :: 0 <= i < |s| ==> r[i] == UpperChar(s[i])
  {
    seq(|s|, i requires 0 <= i < |s| => UpperChar(s[i]))
  }

  predicate HasNoLowerAscii(s: string)
  {
    forall i :: 0 <= i < |s| ==> !('a' <= s[i] <= 'z')
  }

  lemma UpperHasNoLower(s: string)
    ensures HasNoLowerAscii(Upper(s))
  {
  }

  // ---------------------------------------------------------------- includes

  predicate OccursAt(s: string, sub: string, i: int)
  {
    0 <= i && i + |sub| <= |s| && s[i..i + |sub|] == sub
  }

  /** `s.includes(sub)`. */
  predicate Includes(s: string, sub: string): (r: bool)
    ensures r ==> |sub| <= |s|
    decreases |s|
  {
    OccursAt(s, sub, 0) || (|s| > 0 && Includes(s[1..], sub))
  }

  /** `includes` holds exactly when `sub` occurs at some position of `s`. */
  lemma {:induction false} IncludesIff(s: string, sub: string)
    ensures Includes(s, sub) <==> exists i :: OccursAt(s, sub, i)
    decreases |s|
  {
    if |s| > 0 {
      IncludesIff(s[1..], sub);
      if exists i :: OccursAt(s[1..], sub, i) {
        var i :| OccursAt(s[1..], sub, i);
        assert s[1..][i..i + |sub|] == s[i + 1..i + 1 + |sub|];
        assert OccursAt(s, sub, i + 1);
      }
      if exists i :: OccursAt(s, sub, i) {
        var i :| OccursAt(s, sub, i);
        if i > 0 {
          assert s[1..][i - 1..i - 1 + |sub|] == s[i..i + |sub|];
          assert OccursAt(s[1..], sub, i - 1);
        }
      }
    } else {
      if exists i :: OccursAt(s, sub, i) {
        var i :| OccursAt(s, sub, i);
        assert i == 0;
      }
    }
  }

  /** Every string includes the empty string. */
  lemma IncludesEmpty(s: string)
    ensures Includes(s, "")
  {
    assert OccursAt(s, "", 0);
  }

  /** Lower-casing both sides keeps every occurrence: a match stays a match. */
  lemma IncludesLower(s: string, sub: string)
    requires Includes(s, sub)
    ensures Includes(Lower(s), Lower(sub))
  {
    IncludesIff(s, sub);
    var i :| OccursAt(s, sub, i);
    assert Lower(s)[i..i + |sub|] == Lower(sub);
    assert OccursAt(Lower(s), Lower(sub), i);
    IncludesIff(Lower(s), Lower(sub));
  }

  /** Lower-casing forgets the case a string was written in. */
  lemma LowerForgetsCase(s: string)
    ensures Lower(Lower(s)) == Lower(s) && Lower(Upper(s)) == Lower(s)
  {
  }

  // ---------------------------------------------------------------- trim

  /** The characters `trim` removes (the ASCII ones: space, tab, LF, VT, FF, CR). */
  predicate IsWhitespace(c: char)
  {
    c == ' ' || '\t' <= c <= '\r'
  }

  predicate AllWhitespace(s: string)
  {
    forall i :: 0 <= i < |s| ==> IsWhitespace(s[i])
  }

  /** How many whitespace characters `s` starts with. */
  function LeadingSpace(s: string): (n: nat)
    ensures n <= |s|
    ensures forall k :: 0 <= k < n ==> IsWhitespace(s[k])
    ensures n < |s| ==> !IsWhitespace(s[n])
  {
    if |s| > 0 && IsWhitespace(s[0]) then 1 + LeadingSpace(s[1..]) else 0
  }

  /** Where the whitespace that `s` ends with begins. */
  function TrailingStart(s: string): (n: nat)
    ensures n <= |s|
    ensures forall k :: n <= k < |s| ==> IsWhitespace(s[k])
    ensures n > 0 ==> !IsWhitespace(s[n - 1])
  {
    if |s| > 0 && IsWhitespace(s[|s| - 1]) then TrailingStart(s[..|s| - 1]) else |s|
  }

  /** `s.trimStart()`. */
  function TrimStart(s: string): (r: string)
    ensures |r| <= |s|
    ensures r != [] ==> !IsWhitespace(r[0])
  {
    s[LeadingSpace(s)..]
  }

  /** `s.trimEnd()`. */
  function TrimEnd(s: string): (r: string)
    ensures |r| <= |s|
    ensures r != [] ==> !IsWhitespace(r[|r| - 1])
  {
    s[..TrailingStart(s)]
  }

  /**
   * `s.trim()`: whitespace cut from either side; what is left neither starts
   * nor ends with whitespace (TrimIsSlice and TrimBlank say where it comes
   * from and when it is empty).
   */
  function Trim(s: string): (r: string)
    ensures |r| <= |s|
    ensures r != [] ==> !IsWhitespace(r[0]) && !IsWhitespace(r[|r| - 1])
    ensures var i := LeadingSpace(s);
            && i + |r| <= |s| && r == s[i..i + |r|]
            && AllWhitespace(s[..i]) && AllWhitespace(s[i + |r|..])
  {
    var t := TrimStart(s);
    var r := TrimEnd(t);
    assert r != [] ==> r[0] == t[0];
    r
  }

  /** The trimmed string is the slice of `s` that starts after the leading whitespace. */
  lemma TrimIsSlice(s: string)
    ensures var i := LeadingSpace(s);
            i + |Trim(s)| <= |s| && Trim(s) == s[i..i + |Trim(s)|]
  {
  }

  /**
   * Trimming is determined by its ends: any slice of `s` with only whitespace
   * outside it and none at its own two ends is the trimmed string.
   */
  lemma {:induction false} TrimUnique(s: string, i: nat, j: nat)
    requires i <= j <= |s|
    requires AllWhitespace(s[..i]) && AllWhitespace(s[j..])
    requires i < j ==> !IsWhitespace(s[i]) && !IsWhitespace(s[j - 1])
    ensures Trim(s) == s[i..j]
  {
    var a := LeadingSpace(s);
    var r := Trim(s);
    var b := a + |r|;
    if i < j {
      assert a == i;
      assert b == j;
    } else {
      assert AllWhitespace(s) by {
        forall k | 0 <= k < |s| ensures IsWhitespace(s[k]) {
          if k < i { assert s[..i][k] == s[k]; } else { assert s[j..][k - j] == s[k]; }
        }
      }
      TrimBlank(s);
    }
  }

  /** Trimming leaves nothing exactly when every character is whitespace. */
  lemma {:induction false} TrimBlank(s: string)
    ensures Trim(s) == [] <==> AllWhitespace(s)
  {
    var i := LeadingSpace(s);
    var t := s[i..];
    if Trim(s) == [] {
      assert TrailingStart(t) == 0;
      assert t == [];
    } else {
      assert !IsWhitespace(s[i]);
    }
  }

  // ---------------------------------------------------------------- split

  /** `s.split(sep)` for a one-character separator. */
  function Split(s: string, sep: char): (parts: seq<string>)
    ensures |parts| >= 1
    ensures forall k :: 0 <= k < |parts| ==> sep !in parts[k]
    decreases |s|
  {
    if s == [] then [""]
    else
      var rest := Split(s[1..], sep);
      if s[0] == sep then [""] + rest else [[s[0]] + rest[0]] + rest[1..]
  }

  /** `parts.join(sep)`. */
  function Join(parts: seq<string>, sep: char): string
    requires |parts| >= 1
  {
    if |parts| == 1 then parts[0] else parts[0] + [sep] + Join(parts[1..], sep)
  }

  /** Joining the parts of a split gives back the string. */
  lemma {:induction false} SplitJoin(s: string, sep: char)
    ensures Join(Split(s, sep), sep) == s
    decreases |s|
  {
    if s != [] {
      var rest := Split(s[1..], sep);
      SplitJoin(s[1..], sep);
      if s[0] == sep {
        assert Split(s, sep)[1..] == rest;
      } else {
        var parts := Split(s, sep);
        if |rest| == 1 {
          assert parts == [[s[0]] + rest[0]];
        } else {
          assert parts[1..] == rest[1..];
          assert Join(rest, sep) == rest[0] + [sep] + Join(rest[1..], sep);
        }
      }
    }
  }

  /** A string without the separator splits into itself. */
  lemma {:induction false} SplitWithoutSeparator(a: string, sep: char)
    requires sep !in a
    ensures Split(a, sep) == [a]
    decreases |a|
  {
    if a != [] {
      assert sep !in a[1..];
      SplitWithoutSeparator(a[1..], sep);
      assert [a[0]] + a[1..] == a;
    }
  }

  /** Splitting `a + sep + b`, where `a` has no separator, yields `a` followed by the parts of `b`. */
  lemma {:induction false} SplitAtFirstSeparator(a: string, b: string, sep: char)
    requires sep !in a
    ensures Split(a + [sep] + b, sep) == [a] + Split(b, sep)
    decreases |a|
  {
    if a == [] {
      assert a + [sep] + b == [sep] + b;
      assert ([sep] + b)[1..] == b;
    } else {
      assert (a + [sep] + b)[1..] == a[1..] + [sep] + b;
      assert sep !in a[1..];
      SplitAtFirstSeparator(a[1..], b, sep);
      assert [a[0]] + a[1..] == a;
    }
  }

  // ---------------------------------------------------------------- numbers

  predicate IsDigit(c: char)
  {
    '0' <= c <= '9'
  }

  predicate AllDigits(s: string)
  {
    forall i :: 0 <= i < |s| ==> IsDigit(s[i])
  }

  function DigitChar(d: nat): (c: char)
    requires d < 10
    ensures IsDigit(c)
  {
    ('0' as int + d) as char
  }

  /** Template-literal rendering `${n}` of a non-negative integer. */
  function ShowNat(n: nat): (r: string)
    ensures |r| >= 1 && AllDigits(r)
    ensures n < 10 <==> |r| == 1
  {
    if n < 10 then [DigitChar(n)] else ShowNat(n / 10) + [DigitChar(n % 10)]
  }

  function DigitsValue(s: string): nat
    requires AllDigits(s)
  {
    if s == [] then 0 else DigitsValue(s[..|s| - 1]) * 10 + (s[|s| - 1] as int - '0' as int)
  }

  /**
   * `Number(s)` for the strings the model meets: the empty string is 0, a run of
   * decimal digits is its value, and anything else is NaN (None).
   */
  function ToNumber(s: string): Option<nat>
  {
    if AllDigits(s) then Some(DigitsValue(s)) else None
  }

  /** `Number` reads back what `${n}` wrote. */
  lemma {:induction false} ShowNatRoundTrip(n: nat)
    ensures ToNumber(ShowNat(n)) == Some(n)
  {
    var s := ShowNat(n);
    if n >= 10 {
      ShowNatRoundTrip(n / 10);
      assert s[..|s| - 1] == ShowNat(n / 10);
      assert s[|s| - 1] as int - '0' as int == n % 10;
    } else {
      assert s == [DigitChar(n)];
      assert s[..0] == [];
      assert DigitsValue(s) == DigitsValue([]) * 10 + n;
    }
  }

  /** Distinct numbers render differently. */
  lemma ShowNatInjective(m: nat, n: nat)
    requires m != n
    ensures ShowNat(m) != ShowNat(n)
  {
    ShowNatRoundTrip(m);
    ShowNatRoundTrip(n);
  }

  // ---------------------------------------------------------------- order

  /** `a.localeCompare(b) <= 0`, modelled as lexicographic order on characters. */
  predicate LexLe(a: string, b: string)
    decreases |a|
  {
    a == [] || (b != [] && (a[0] < b[0] || (a[0] == b[0] && LexLe(a[1..], b[1..]))))
  }

  lemma {:induction false} LexLeTotal(a: string, b: string)
    ensures LexLe(a, b) || LexLe(b, a)
    decreases |a|
  {
    if a != [] && b != [] && a[0] == b[0] {
      LexLeTotal(a[1..], b[1..]);
    }
  }

  lemma {:induction false} LexLeTransitive(a: string, b: string, c: string)
    requires LexLe(a, b) && LexLe(b, c)
    ensures LexLe(a, c)
    decreases |a|
  {
    if a != [] && a[0] == b[0] && b[0] == c[0] {
      LexLeTransitive(a[1..], b[1..], c[1..]);
    }
  }
}

=== FILE: thread_list.dfy ===
/**
 * src/components/protected/MessageThreadList.tsx: each conversation is listed
 * with a shortened preview of its last message and, when some of its
 * messages are unread, a badge with their number.
 */
module ThreadList {
  import opened Common
  import opened Seqs
  import opened Messages

  /** The default `maxLength` of `truncateMessage`. */
  const PreviewLength: nat := 60

  /** `truncateMessage`: short messages unchanged, longer ones cut to `maxLength` and marked "...". */
  function TruncateMessage(message: string, maxLength: nat): (r: string)
    ensures |message| <= maxLength ==> r == message
    ensures |message| > maxLength ==> |r| == maxLength + 3
  {
    if |message| <= maxLength then message else message[..maxLength] + "..."
  }

  /**
   * A preview never misquotes: it begins with the message itself, up to the
   * limit, and anything cut is flagged by a trailing "...".
   */
  lemma TruncationKeepsPrefix(message: string, maxLength: nat)
    ensures var r := TruncateMessage(message, maxLength);
            && message[..Min(|message|, maxLength)] <= r
            && |r| <= maxLength + 3
            && (r != message ==> |message| > maxLength && r[maxLength..] == "...")
  {
  }

  /** The preview the list shows, with the default limit. */
  function Preview(t: Thread): (r: string)
    ensures |r| <= PreviewLength + 3
    ensures |t.lastMessage.content| <= PreviewLength ==> r == t.lastMessage.content
  {
    TruncationKeepsPrefix(t.lastMessage.content, PreviewLength);
    TruncateMessage(t.lastMessage.content, PreviewLength)
  }

  /** `thread.unreadCount > 0 && <Badge>`. */
  predicate ShowsUnreadBadge(t: Thread)
  {
    t.unreadCount > 0
  }

  /**
   * For a thread counted the way `getMessageThreads` counts, the badge shows
   * exactly when the partner sent the caller a message still unread.
   */
  lemma {:induction false} BadgeMeansUnreadMessage(scan: seq<Message>, t: Thread, me: UserId)
    requires t.unreadCount == UnreadFrom(scan, t.partnerId, me)
    ensures ShowsUnreadBadge(t) <==> exists m :: m in scan && m.fromId == t.partnerId && m.toId == me && !m.read
  {
    var unread := Filter(scan, (m: Message) => m.fromId == t.partnerId && m.toId == me && !m.read);
    if |unread| > 0 {
      assert unread[0] in unread;
    }
    if exists m :: m in scan && m.fromId == t.partnerId && m.toId == me && !m.read {
      var m :| m in scan && m.fromId == t.partnerId && m.toId == me && !m.read;
      assert m in unread;
    }
  }
}

=== FILE: time_slots.dfy ===
/**
 * src/app/protected/appointments/new/page.tsx: the half-hour time slots a
 * caregiver picks from when scheduling an appointment, and the parse of the
 * picked slot's value back into hours and minutes on submit.
 */
module TimeSlots {
  import opened Common
  import opened Text

  /** A select option: the 12-hour label (`caption`) shown and the 24-hour value submitted. */
  datatype Slot = Slot(caption: string, value: string)

  /** `minute === 0 ? '00' : minute`. */
  function MinuteText(minute: nat): (r: string)
    ensures AllDigits(r)
  {
    if minute == 0 then "00" else ShowNat(minute)
  }

  /** A run of digits holds no separator. */
  lemma DigitsAvoid(s: string, c: char)
    requires AllDigits(s) && !IsDigit(c)
    ensures c !in s
  {
  }

  /** `hour % 12 === 0 ? 12 : hour % 12`. */
  function Hour12(hour: nat): (r: nat)
    ensures 1 <= r <= 12
  {
    if hour % 12 == 0 then 12 else hour % 12
  }

  /** `hour >= 12 ? 'PM' : 'AM'`. */
  function Period(hour: nat): string
  {
    if hour >= 12 then "PM" else "AM"
  }

  /**
   * The slot pushed for `hour` and `minute`: its value is the 24-hour hour
   * and the minute text around one colon, its label the 12-hour time and the
   * period around one space.
   */
  function SlotAt(hour: nat, minute: nat): (r: Slot)
    ensures Split(r.value, ':') == [ShowNat(hour), MinuteText(minute)]
    ensures Split(r.caption, ' ') == [ShowNat(Hour12(hour)) + ":" + MinuteText(minute), Period(hour)]
  {
    var h, h12, m, p := ShowNat(hour), ShowNat(Hour12(hour)), MinuteText(minute), Period(hour);
    DigitsAvoid(h, ':');
    DigitsAvoid(m, ':');
    SplitAtFirstSeparator(h, m, ':');
    SplitWithoutSeparator(m, ':');
    var time := h12 + ":" + m;
    assert ' ' !in time by {
      DigitsAvoid(h12, ' ');
      DigitsAvoid(m, ' ');
    }
    assert ' ' !in p;
    SplitAtFirstSeparator(time, p, ' ');
    SplitWithoutSeparator(p, ' ');
    assert h + ":" + m == h + [':'] + m;
    assert time + " " + p == time + [' '] + p;
    Slot(time + " " + p, h + ":" + m)
  }

  /** The hour and the minute of the k-th slot: 9:00, 9:30, 10:00, ... */
  function SlotHour(k: nat): nat { 9 + k / 2 }

  function SlotMinute(k: nat): nat { 30 * (k % 2) }

  /** `generateTimeSlots`: hours 9 to 17, minutes 0 and 30, in that order. */
  method GenerateTimeSlots() returns (slots: seq<Slot>)
    ensures |slots| == 18
    ensures forall k :: 0 <= k < |slots| ==> slots[k] == SlotAt(SlotHour(k), SlotMinute(k))
  {
    slots := [];
    var hour := 9;
    while hour <= 17
      invariant 9 <= hour <= 18
      invariant |slots| == 2 * (hour - 9)
      invariant forall k :: 0 <= k < |slots| ==> slots[k] == SlotAt(SlotHour(k), SlotMinute(k))
    {
      var minute := 0;
      while minute < 60
        invariant minute == 0 || minute == 30 || minute == 60
        invariant |slots| == 2 * (hour - 9) + minute / 30
        invariant forall k :: 0 <= k < |slots| ==> slots[k] == SlotAt(SlotHour(k), SlotMinute(k))
      {
        ghost var k := |slots|;
        assert SlotHour(k) == hour && SlotMinute(k) == minute by {
          assert k == 2 * (hour - 9) + minute / 30;
        }
        slots := slots + [SlotAt(hour, minute)];
        minute := minute + 30;
      }
      hour := hour + 1;
    }
  }

  /**
   * The parse in `onSubmit`: `time.split(':').map(Number)` destructured into
   * hours and minutes; `None` stands for NaN, which a missing part also gives.
   */
  function ParseTime(value: string): (r: (Option<nat>, Option<nat>))
    ensures ':' !in value ==> r == (ToNumber(value), None)
    ensures r.1.Some? ==> ':' in value
  {
    var parts := Split(value, ':');
    assert ':' !in value ==> parts == [value] by {
      if ':' !in value {
        SplitWithoutSeparator(value, ':');
      }
    }
    (ToNumber(parts[0]), if |parts| >= 2 then ToNumber(parts[1]) else None)
  }

  /** A value with one colon parses into the numbers on either side of it. */
  lemma {:induction false} ParseTimeReadsBothSides(a: string, b: string)
    requires ':' !in a && ':' !in b
    ensures ParseTime(a + [':'] + b) == (ToNumber(a), ToNumber(b))
  {
    SplitAtFirstSeparator(a, b, ':');
    SplitWithoutSeparator(b, ':');
  }

  /** A slot's value parses back into the hour and the minute it was generated from. */
  lemma {:induction false} SlotValueRoundTrip(hour: nat, minute: nat)
    requires minute == 0 || minute == 30
    ensures ParseTime(SlotAt(hour, minute).value) == (Some(hour), Some(minute))
  {
    var m := MinuteText(minute);
    ShowNatRoundTrip(hour);
    if minute == 0 {
      assert DigitsValue("0") == 0 by {
        assert "0"[..0] == [];
      }
      assert m[..1] == "0";
    } else {
      ShowNatRoundTrip(minute);
    }
  }

  /**
   * Slot k is submitted as 9:00 plus k half hours: the slots run from 9:00 to
   * 17:30 in increasing order.
   */
  lemma SlotTimes(k: nat)
    requires k < 18
    ensures ParseTime(SlotAt(SlotHour(k), SlotMinute(k)).value) == (Some(SlotHour(k)), Some(SlotMinute(k)))
    ensures SlotHour(k) * 60 + SlotMinute(k) == 9 * 60 + 30 * k
  {
    SlotValueRoundTrip(SlotHour(k), SlotMinute(k));
  }

  /** No two slots share a value. */
  lemma {:induction false} SlotValuesDistinct(i: nat, j: nat)
    requires i < j < 18
    ensures SlotAt(SlotHour(i), SlotMinute(i)).value != SlotAt(SlotHour(j), SlotMinute(j)).value
  {
    SlotTimes(i);
    SlotTimes(j);
  }

  /** The form's default time "9:00" is the first slot's value. */
  lemma DefaultTimeIsFirstSlot()
    ensures SlotAt(SlotHour(0), SlotMinute(0)).value == "9:00"
  {
    assert ShowNat(9) == "9";
  }

  /** Reading a 12-hour label back to the 24-hour clock. */
  function To24(hour12: nat, period: string): nat
  {
    if period == "PM" then (if hour12 == 12 then 12 else hour12 + 12)
    else (if hour12 == 12 then 0 else hour12)
  }

  /** A label's clock hour and period name the slot's hour unambiguously. */
  lemma LabelNamesHour(hour: nat)
    requires hour < 24
    ensures To24(Hour12(hour), Period(hour)) == hour
    ensures Period(hour) == "AM" <==> hour < 12
  {
  }
}
